=== FILE: README.md ===
# PROCCMS backend: a Dafny model of its decision rules

PROCCMS is a facilities back office: room bookings, repair requests with
remarks, gate and vehicle passes, staff accounts and an admin dashboard. It
is an Express/Mongoose service. Every handler wraps a small decision rule
around a database call. This project lifts those rules out as pure Dafny
functions over an in-memory store and proves what the handlers promise.

- Each Mongo collection is a `seq` of immutable records in natural order.
- `find` is `Filter`, `countDocuments` is `Count`, and `sort({createdAt: -1})` is `SortNewest`.
- `findById` is `IndexOf` on the record's id.
- Fresh ids come from `FreshKey`.
- A reply is a status code and a message.
- A query or body parameter the code tests for truthiness is a string, with "" standing for both missing and empty.
- Dates are integer milliseconds.

The modules are:

- `common.dfy` holds the store helpers, the newest-first sort and the end-of-day bound.
- `text.dfy` holds JavaScript string comparison, digit strings, substring search, ASCII lower-casing and `String.prototype.trim`.
- `errors.dfy` holds `errorHandler`.
- `uploads.dfy` holds both upload file filters, the size limit, `handleMulterError` and both stored-file-name schemes.
- `room_booking.dfy` holds the booking schema, the overlap rule, the list queries and the single-field updates.
- `repair_requests.dfy` holds the request schema, creation, the remarks, mark-seen and the role-based list filter.
- `dashboard.dfy` holds the repair summary, the per-staff tally and the room histogram.
- `accounts.dfy` holds login, token verification, password reset, staff creation and listing.
- `passes.dfy` holds the gate-pass and vehicle-pass schemas and the unique pass number.

## Model

| member | source | states |
|---|---|---|
| Common.Filter | routes/roomBooking.js:61 | A `find` keeps exactly the records satisfying the query, never more copies of a record than the store holds, and only records that satisfy it. |
| Common.FilterOne | routes/roomBooking.js:61 | A single record is kept exactly when the query matches it. |
| Common.FilterAppend | routes/roomBooking.js:61 | The result keeps store order: filtering a concatenation gives the kept records of the first part, then those of the second. |
| Common.CountIsFilterLength | routes/adminDashboard.js:15-17 | `countDocuments` equals the number of records `find` returns for the same query. |
| Common.CountDisjoint | routes/adminDashboard.js:15-17 | Two queries no record satisfies together count at most the whole collection. |
| Common.IndexOf | routes/roomBooking.js:105-106 | `findById` finds the first record with the id when there is one, and reports none exactly when no record has it. |
| Common.AppendFreshKey | routes/roomBooking.js:37-38 | Appending a record under a freshly generated id keeps ids unique. |
| Common.SortNewest | controllers/staffController.js:22 | Sorting by `createdAt` descending gives a permutation of the input, newest first. |
| Common.SortNewestMembers | controllers/staffController.js:22 | The sorted list holds exactly the records of the input. |
| Common.EndOfDay | routes/repairRequestRoutes.js:185-187 | `setHours(23, 59, 59, 999)` gives the last millisecond of the same day. |
| Common.InRangeWholeLastDay | routes/repairRequestRoutes.js:179-188 | Any time on the day named by both bounds lies within the range, so `dateTo` is inclusive of its whole day. |
| Text.StrLessTransitive | routes/roomBooking.js:26-27 | The string order used by `$lt`/`$gt` on time strings is transitive. |
| Text.StrLessTotal | routes/roomBooking.js:26-27 | Any two different strings are ordered one way, and never both ways. |
| Text.FixedWidthOrder | models/RoomBooking.js:9-11 | On digit strings of equal width, string order is numeric order. |
| Text.DecimalRoundTrip | middleware/uploadMiddleware.js:20 | The decimal text of a timestamp parses back to the timestamp. |
| Text.ToLowerIdempotent | middleware/uploadMiddleware.js:29 | Lower-casing the extension twice is the same as once. |
| Text.ToLowerKeepsSubstring | routes/repairRequestRoutes.js:165-167 | If a string contains another, their lower-cased forms still contain one another. |
| Text.Trim | models/VehiclePass.js:8 | A trimmed string starts and ends with no white space. |
| Text.TrimCutsSpace | models/VehiclePass.js:8 | Trimming removes white space, and only white space, from the two ends. |
| Text.TrimIdempotent | models/VehiclePass.js:8-62 | Trimming twice is the same as trimming once. |
| Errors.ErrorHandler | middleware/errorMiddleware.js:1-15 | The file-type message gives 400 with that message. Any other error gives 500, whose message is hidden exactly in production. |
| Errors.ProductionHidesServerErrors | middleware/errorMiddleware.js:10-13 | A server error's own message reaches the client in development and never in production. |
| Errors.StatusIgnoresOrigin | middleware/errorMiddleware.js:5-7 | The classification depends on the error's message only, not on whether multer raised it. |
| Uploads.ExtName | middleware/uploadMiddleware.js:29 | `path.extname` is a suffix of the name that starts with '.' and holds no other '.' or '/'. |
| Uploads.ExtNameOfStemAndExt | middleware/uploadMiddleware.js:19 | A stem without dots followed by an extension has exactly that extension. |
| Uploads.MiddlewareFileFilter | middleware/uploadMiddleware.js:26-37 | Accepts exactly when the lower-cased extension and the mimetype each contain one of the nine words. Otherwise rejects with the fixed file-type message. |
| Uploads.RepairFileFilter | routes/repairRequestRoutes.js:40-51 | The same rule for the route's eight words, rejecting with the route's own message. |
| Uploads.DocxRedundant | middleware/uploadMiddleware.js:28 | "docx" can never decide a match, because "doc" already matches. |
| Uploads.MimeTypeCaseMatters | middleware/uploadMiddleware.js:29-30 | Only the extension is lower-cased: for any plain stem and size, `<stem>.PDF` passes with `application/pdf` and is refused with `APPLICATION/PDF`. |
| Uploads.WebpOnlyMiddleware | middleware/uploadMiddleware.js:28 | Any `<stem>.webp` image passes the shared filter and not the repair route's. |
| Uploads.PlainTextRejected | routes/repairRequestRoutes.js:42-44 | Every `<stem>.txt` file with mimetype `text/plain` is refused by the filter that lists "txt". |
| Uploads.MsWordRejected | middleware/uploadMiddleware.js:28-30 | Every `<stem>.doc` file with mimetype `application/msword` is refused by both filters. |
| Uploads.IntendedMiddlewareFileFilter | middleware/uploadMiddleware.js:26-37 | Corrected filter: accepts exactly when the extension names a listed format and the mimetype is one such a format registers. |
| Uploads.IntendedRepairFileFilter | routes/repairRequestRoutes.js:40-51 | Corrected filter for the repair route, with the same rule. |
| Uploads.FormatAdmitted | routes/repairRequestRoutes.js:42 | Under the corrected rule, every listed format's file with its registered mimetype is admitted, whatever its stem and size. |
| Uploads.LowerExtension | middleware/uploadMiddleware.js:29 | A file whose extension is already lower case keeps it through `path.extname` and `toLowerCase`. |
| Uploads.IntendedRepairAdmitsText | routes/repairRequestRoutes.js:42 | The corrected repair filter admits every `<stem>.txt` file with mimetype `text/plain`. |
| Uploads.IntendedFiltersAdmitWord | middleware/uploadMiddleware.js:28 | Both corrected filters admit every `<stem>.doc` file with mimetype `application/msword`. |
| Uploads.Receive | middleware/uploadMiddleware.js:40-46 | A file is received exactly when the filter accepts it and it is at most 5 MiB. A filter rejection is passed on as it is, and an oversize accepted file raises `LIMIT_FILE_SIZE`. |
| Uploads.HandleMulterError | middleware/uploadMiddleware.js:49-56 | Only a multer `LIMIT_FILE_SIZE` error is answered, with 400 and the fixed text. Every other error is forwarded unchanged. |
| Uploads.RejectionStatuses | middleware/errorMiddleware.js:5 | The shared filter's rejection becomes a 400. The repair route's rejection falls through to 500. |
| Uploads.StoredName | middleware/uploadMiddleware.js:17-22 | The upload time can be read back from the generated file name, and the name keeps the original extension, so the file-type check sees the same one. |
| Uploads.LeadingNumberOfDashed | middleware/uploadMiddleware.js:20 | A decimal number followed by '-' reads back as that number, whatever follows. |
| Uploads.Sanitize | routes/repairRequestRoutes.js:30 | Has the input's length, keeps every letter, digit and '.', and turns every other character into '_'. |
| Uploads.SanitizeOutputAlphabet | routes/repairRequestRoutes.js:30 | The output holds only letters, digits, '.' and '_'. |
| Uploads.SanitizeIdempotent | routes/repairRequestRoutes.js:30 | Sanitising twice is the same as sanitising once. |
| Uploads.SanitizeFixedPoints | routes/repairRequestRoutes.js:30 | A name is left alone exactly when it already uses only the allowed characters. |
| Uploads.RepairStoredName | routes/repairRequestRoutes.js:28-31 | The upload time can be read back from the stored name. After "<time>-" there is one character per original character, every letter, digit and '.' stays in place, and no character outside letters, digits, '.', '_' and '-' (so no path separator) appears. |
| RoomBookings.NewBooking | models/RoomBooking.js:3-31 | A new booking carries every field of the body: the eight required strings, `agreed`, facilities, remarks, assigned staff, admin and user remarks, and each given furniture count. Each missing furniture count is 0, a missing status is "Pending", and the id and `createdAt` are the ones supplied. |
| RoomBookings.Create | routes/roomBooking.js:7-45 | For a body whose fields already have their schema types: 409 exactly when a stored booking conflicts, and 500 exactly when there is no conflict and a required field is missing. Otherwise 200 and exactly one new booking appended. The store is unchanged on failure. |
| RoomBookings.Conflicts | routes/roomBooking.js:21-30 | Only a booking of the same room on the same date can conflict. The time test is strict, so a booking that starts when the other ends (or ends when it starts) never conflicts, and an empty end time never conflicts. |
| RoomBookings.ConflictIsClash | routes/roomBooking.js:21-30 | The query's conflict test is the same as two stored bookings clashing. |
| RoomBookings.CreatePreservesNoDoubleBooking | routes/roomBooking.js:21-38 | If no two stored bookings clash before a POST, none clash after it. |
| RoomBookings.CreatePreservesUniqueIds | routes/roomBooking.js:37-38 | Creation keeps booking ids unique. |
| RoomBookings.StatusIgnored | routes/roomBooking.js:21-30 | The stored booking's status plays no part in the conflict test. |
| RoomBookings.ClockOrder | models/RoomBooking.js:10-11 | For zero-padded "HH:MM" times, string order is time-of-day order. |
| RoomBookings.ConflictsIsIntervalOverlap | routes/roomBooking.js:21-30 | With padded times, a conflict is exactly the same room and date with overlapping time intervals. |
| RoomBookings.UnpaddedTimesMissOverlap | routes/roomBooking.js:26-27 | With unpadded times the string test misses a real overlap: 9:00-11:00 is not stopped by 10:00-12:00. |
| RoomBookings.List | routes/roomBooking.js:49-62 | Lists exactly the bookings matching the given `requestFrom` and `department`, newest first. |
| RoomBookings.ListMembers | routes/roomBooking.js:53-61 | A booking is listed exactly when it is stored and matches each given parameter. |
| RoomBookings.ListAll | routes/roomBooking.js:53-61 | Without parameters every booking is listed. |
| RoomBookings.Assigned | routes/roomBooking.js:90-94 | Lists exactly the bookings assigned to that staff member, newest first. |
| RoomBookings.StaffAll | routes/roomBooking.js:136-149 | 400 exactly when the username is missing. Otherwise the same documents as the filtered store, with duplicates kept, newest first: exactly those the name requested or is assigned. |
| RoomBookings.SaveAt | routes/roomBooking.js:109-200 | The `booking.save()` of the four setters: a booking that passes the schema's validators replaces the loaded one and nothing else changes, with the setter's success reply. One that fails leaves the collection unchanged, with the setter's 500 reply. |
| RoomBookings.UpdateStatus | routes/roomBooking.js:155-175 | 404 for an unknown id, and 403 when the body names a different requester or none. 500, with nothing changed, when `save()` refuses a stored booking that already misses a required field or has a null `agreed`. Otherwise 200, and only that booking's status changes. |
| RoomBookings.AssignStaff | routes/roomBooking.js:102-115 | 404 for an unknown id. 500, with nothing changed, when `save()` refuses a stored booking that already misses a required field or has a null `agreed`. Otherwise 200, and only `assignedStaff` of that booking changes. |
| RoomBookings.SetAdminRemarks | routes/roomBooking.js:178-190 | 404 for an unknown id. 500, with nothing changed, when `save()` refuses a stored booking that already misses a required field or has a null `agreed`. Otherwise 200, and only `adminRemarks` of that booking changes. |
| RoomBookings.SetUserRemarks | routes/roomBooking.js:194-206 | 404 for an unknown id. 500, with nothing changed, when `save()` refuses a stored booking that already misses a required field or has a null `agreed`. Otherwise 200, and only `userRemarks` of that booking changes. |
| RoomBookings.Confirm | routes/roomBooking.js:209-216 | 200 for every well-formed id. An unknown id changes nothing. Otherwise only the status changes, to "Booked". |
| RoomBookings.Update | routes/roomBooking.js:119-128 | 404 for an unknown id. Otherwise, on that booking alone, every schema path the body gives is overwritten and every other path keeps its value, including the requester's name. An explicit null is written to `agreed` and to the optional string paths. Id and `createdAt` stay. |
| RoomBookings.UpdateCanDoubleBook | routes/roomBooking.js:119-128 | A full update can turn a store without double bookings into one with a double booking. |
| RoomBookings.SameSlotPreserves | routes/roomBooking.js:101-216 | Changing one booking without moving its room, date, times or id keeps both "no double booking" and unique ids. |
| RoomBookings.SettersPreserveInvariants | routes/roomBooking.js:101-216 | The status, assign-staff, remarks and confirm routes keep the store free of double bookings and its ids unique. |
| RoomBookings.UpdateKeepingSlotPreserves | routes/roomBooking.js:119-128 | A full update that leaves room, date and times alone keeps both invariants. |
| RoomBookings.InvalidBookingCannotBeSaved | routes/roomBooking.js:101-206 | After a full update leaves a booking that `save()` refuses, every route that saves it answers its 500 and changes nothing, even for the booking's own requester. |
| RoomBookings.EmptiedBookingCannotBeSaved | routes/roomBooking.js:119-128 | A full update accepts an emptied required string and a null `agreed`, and either one leaves a booking that `save()` refuses. |
| RepairRequests.Create | routes/repairRequestRoutes.js:58-98 | A file the filter refuses is passed on as an error. A missing required field fails with 500. Otherwise 201 and one new request carrying the form's fields, with a given `isNewRequirement` kept and false otherwise. The defaults are "Pending", no assignee, unverified and no remarks. `fileUrl` is "/uploads/" plus the generated name, and "" exactly when there is no file. A notification is attempted. |
| RepairRequests.CreatePreservesUniqueIds | routes/repairRequestRoutes.js:70-82 | Creation keeps request ids unique. |
| RepairRequests.FileUrlStaysInUploads | routes/repairRequestRoutes.js:28-31 | The attachment URL is "/uploads/" followed by characters that cannot leave that directory. |
| RepairRequests.FreshRemarkId | routes/repairRequestRoutes.js:116-122 | A new remark id differs from every stored remark id. |
| RepairRequests.AddRemark | routes/repairRequestRoutes.js:109-147 | An unknown id gives 500 and changes nothing. Otherwise exactly one unseen, unverified remark with the given text and author is appended to that request alone. Mail is attempted exactly when the request has an email. |
| RepairRequests.AddRemarkFreshId | routes/repairRequestRoutes.js:116-122 | The appended remark's id is unused across the store. |
| RepairRequests.GetRemarks | routes/repairRequestRoutes.js:239-248 | For a well-formed id: 404 exactly when no request has the id. Otherwise the stored remarks of that request. |
| RepairRequests.AddThenGetRemarks | routes/repairRequestRoutes.js:109-125 | Reading the remarks right after adding one ends with the new remark. |
| RepairRequests.SeenFlag | routes/repairRequestRoutes.js:266 | `seen` reads true only when stored as true, and false when missing. |
| RepairRequests.RowsOf | routes/repairRequestRoutes.js:257-268 | One row per remark of a request, in order, with the request's fields. |
| RepairRequests.AllRemarks | routes/repairRequestRoutes.js:250-271 | As many rows as remarks in all requests together. |
| RepairRequests.AllRemarksAt | routes/repairRequestRoutes.js:256-268 | Remark j of request i is the row at request i's offset plus j: request order, then remark order. |
| RepairRequests.AllRemarksFrom | routes/repairRequestRoutes.js:256-268 | Every row comes from a stored remark. |
| RepairRequests.FindRemark | routes/repairRequestRoutes.js:284-289 | The positional operator picks the first remark with the id, or none when no remark has it. |
| RepairRequests.MarkSeen | routes/repairRequestRoutes.js:278-298 | For a well-formed id: 200 exactly when the request and the remark exist and the remark is not yet seen. Then only that remark's `seen` becomes true. Otherwise 404 and nothing changes. |
| RepairRequests.MarkSeenTwice | routes/repairRequestRoutes.js:294-296 | Marking the same remark again is a 404 that changes nothing. |
| RepairRequests.MarkSeenShowsInAllRemarks | routes/repairRequestRoutes.js:250-298 | After marking, `/all-remarks` reports the remark as seen. |
| RepairRequests.Selected | routes/repairRequestRoutes.js:152-189 | A user sees only their own requests from their own department. Without a search term staff see only what is assigned to them or raised by them, and with one, anything whose requester, department or description holds the term ignoring case. Given status and assignee must match. The creation time is no earlier than `dateFrom` and falls on or before the day of `dateTo`. A request meeting all of these is selected. |
| RepairRequests.List | routes/repairRequestRoutes.js:149-196 | 500 when a date does not parse. Otherwise the same documents as the filter selects, with duplicates kept, newest first. |
| RepairRequests.UserSeesOwn | routes/repairRequestRoutes.js:154-156 | Role "user" sees only requests under their own username and department. |
| RepairRequests.StaffSeesOwnWithoutSearch | routes/repairRequestRoutes.js:157-162 | Role "staff" without a search sees only requests assigned to or raised by them. |
| RepairRequests.OtherRolesSeeAll | routes/repairRequestRoutes.js:152-162 | Any other role with no further parameters sees every request. |
| RepairRequests.DateToCoversWholeDay | routes/repairRequestRoutes.js:184-188 | A request created at the last millisecond of the `dateTo` day is listed. |
| RepairRequests.ContainedMatches | routes/repairRequestRoutes.js:165-167 | A search term that occurs in a field as typed matches that field. |
| RepairRequests.MatchesIgnoresCase | routes/repairRequestRoutes.js:165-167 | The `i` option makes the match blind to case: lower-casing the term or the field changes nothing. |
| RepairRequests.SearchLiftsStaffRestriction | routes/repairRequestRoutes.js:157-169 | A staff search lists a request that the staff member neither raised nor was assigned. |
| RepairRequests.IntendedList | routes/repairRequestRoutes.js:149-196 | Corrected list with the staff clause and the search conjoined. 500 when a date does not parse. Otherwise the same documents as that filter selects, with duplicates kept, newest first. |
| RepairRequests.IntendedStaffSeesOwn | routes/repairRequestRoutes.js:157-169 | In the corrected list a staff member sees only their own requests, and nothing the written list would not show. |
| RepairRequests.IntendedAgreesElsewhere | routes/repairRequestRoutes.js:152-189 | The two filters agree on every query except a staff search. |
| Dashboard.RepairSummary | routes/adminDashboard.js:13-19 | The three counts are the numbers of open assigned, pending and completed requests. |
| Dashboard.SummaryBounds | routes/adminDashboard.js:15-17 | pending + completed and assigned + completed each count at most the whole collection. |
| Dashboard.SumAssignedAppend | routes/adminDashboard.js:56 | A new entry adds its `assigned` to the column total. |
| Dashboard.SumAssignedUpdate | routes/adminDashboard.js:58 | Changing one entry changes the column total by that entry's change. |
| Dashboard.RegisterAllFacts | routes/adminDashboard.js:49-51 | Registering the staff names gives one zero entry per distinct name. |
| Dashboard.TallyFacts | routes/adminDashboard.js:53-62 | One request adds one to its assignee's `assigned`, and one to `completed` when completed. It creates the entry if missing and leaves the other entries alone. |
| Dashboard.TallyAllFacts | routes/adminDashboard.js:53-62 | After the loop, every entry counts its assignee's requests and their completed ones, and the `assigned` column total grows by the number of requests. |
| Dashboard.StaffSummary | routes/adminDashboard.js:30-67 | Fails with 500 exactly when both dates are given and one does not parse. |
| Dashboard.StaffSummaryCorrect | routes/adminDashboard.js:30-64 | Every staff name and every other assignee appears exactly once. Each entry counts that name's counted requests and completed ones, `completed` never exceeds `assigned`, and `assigned` sums to the counted requests. |
| Dashboard.Summarize | routes/adminDashboard.js:47-62 | The same facts for a given name list and request list. |
| Dashboard.OneDateIgnored | routes/adminDashboard.js:36 | A single date bound is ignored: every assigned request is counted. |
| Dashboard.GroupByRoomCounts | routes/adminDashboard.js:100-118 | The grouped map holds a room exactly when some booking has it, with the number of such bookings. |
| Dashboard.RoomHistogram | routes/adminDashboard.js:86-126 | One row per fixed room, in the fixed order. |
| Dashboard.RoomHistogramCounts | routes/adminDashboard.js:100-126 | Each row counts the bookings of its room with the matched status, and 0 for none. |
| Dashboard.PendingRooms | routes/adminDashboard.js:83-126 | One row per fixed room in the fixed order, each counting that room's bookings whose status is exactly "pending". |
| Dashboard.DefaultBookingNotCounted | routes/adminDashboard.js:102 | A booking created with the default status is counted in no row. |
| Dashboard.IntendedPendingRooms | routes/adminDashboard.js:83-126 | Corrected histogram: one row per fixed room in the fixed order, each counting that room's bookings in the schema's default "Pending" state. |
| Dashboard.IntendedCountsNewBooking | routes/adminDashboard.js:102 | The corrected histogram counts a freshly created booking under its room. |
| Accounts.FindLogin | controllers/authController.js:11 | `findOne({username, password})` finds a record with both equal, or reports that none has. |
| Accounts.Login | controllers/authController.js:7-54 | For string credentials: admins are checked first, then users, then staff, and the first match wins. It returns that collection's token and role. 401 "Invalid credentials" exactly when nothing matches. |
| Accounts.WrongPasswordDenied | controllers/authController.js:11-53 | A password no account with that username has is denied. |
| Accounts.VerifyToken | controllers/authController.js:95-116 | Valid exactly for the three fixed tokens, and 401 otherwise. |
| Accounts.LoginTokenVerifies | controllers/authController.js:20-108 | A login's token verifies, to the role the login reported for users and staff. |
| Accounts.ResetPassword | controllers/authController.js:56-91 | For string fields: 400 without a username or password. 404 exactly when no collection holds the name, and 200 exactly when both are given and some collection holds it. On success only the password of that account, in the first collection holding the name, changes. |
| Accounts.FindLoginByName | controllers/authController.js:11 | With unique usernames, the named account matches exactly with its own password. |
| Accounts.ResetThenLogin | controllers/authController.js:56-85 | After a reset, logging in with the new password succeeds through the collection that was reset. |
| Accounts.AddStaff | controllers/staffController.js:3-18 | 400 exactly when a required field is missing. 500 exactly when a unique index refuses the record, and 200 exactly when the form is complete and no index refuses it. On success one account with the six given fields is appended and nothing else changes. |
| Accounts.AddStaffKeepsUsernamesUnique | models/Staff.js:4 | Adding staff keeps usernames unique. |
| Accounts.SecondStaffWithoutEmailRefused | models/Staff.js:8 | A second staff member without an email is refused although email is optional. |
| Accounts.IntendedAddStaff | controllers/staffController.js:3-18 | Corrected insert with a sparse email index, so only present emails collide. 400 for a missing field, 500 exactly for a sparse duplicate, otherwise 200 and the account appended. |
| Accounts.IntendedStaffWithoutEmailAdded | models/Staff.js:8 | Under the corrected rule, a complete form without email is refused only for a taken username. The written rule accepts it exactly when every stored staff member has an email. |
| Accounts.IntendedAcceptsMore | models/Staff.js:4-8 | Whatever the written insert accepts, the corrected one accepts with the same result. |
| Accounts.AllStaff | controllers/staffController.js:20-27 | Every staff account, newest first. |
| Accounts.NewStaffListedFirst | controllers/staffController.js:11-22 | An account just added with the latest timestamp is listed first. |
| Passes.GatePassErrors | models/GatePass.js:3-42 | A path fails exactly when its rule is broken: the date is missing or does not cast, the type is outside the enum, `issuedTo` or `purpose` is empty, or there are no items. |
| Passes.ValidateGatePass | models/GatePass.js:3-38 | A body is rejected exactly when some path fails. Otherwise the stored pass satisfies the schema and keeps every given field, including the date and each given optional string. Each missing optional string is "". |
| Passes.GatePassRoundTrip | models/GatePass.js:3-38 | A gate pass validates exactly when it satisfies the schema, and then comes back unchanged. |
| Passes.FailingAmong | models/VehiclePass.js:3-66 | Lists exactly the failing paths among those given. |
| Passes.VehiclePassErrors | models/VehiclePass.js:3-66 | A path fails exactly when it is a missing or non-casting date, or a required string that is blank after trimming. |
| Passes.ValidateVehiclePass | models/VehiclePass.js:3-66 | Rejected exactly when some path fails. Otherwise every string is trimmed, every required one is non-empty, and a missing `rcNo`, `licenseNo` or `remarks` is "". An accepted body had a date, and the stored document is exactly the body trimmed path by path (Passes.TrimmedPass). |
| Passes.TrimmedPass | models/VehiclePass.js:8-62 | The stored document holds the trimmed value of every string path. |
| Passes.VehiclePassRoundTrip | models/VehiclePass.js:8-62 | A stored vehicle pass validates back to itself. |
| Passes.ValidateVehiclePassIdempotent | models/VehiclePass.js:8-62 | Validating what validation stores gives the same result. |
| Passes.BlankPassNoRejected | models/VehiclePass.js:4-9 | A pass number of white space only is refused as missing. |
| Passes.CreateVehiclePass | routes/vehicleRoutes.js:28-36 | 400 exactly when validation fails or the trimmed pass number is taken, leaving the store unchanged. Otherwise 201, with the body's date and every string path trimmed appended as the one new document. |
| Passes.CreatePreservesUniquePassNo | models/VehiclePass.js:4-9 | Creation keeps pass numbers unique. |
| Passes.PaddedPassNoIsDuplicate | models/VehiclePass.js:4-9 | A pass number that equals a stored one after trimming is a duplicate. |

## Left out

- Mail sending, disk storage, directory creation and static file serving are left out. A sent mail is at most a `mailAttempted` flag, and a stored file is only its generated name.
- server.js installs neither `errorHandler` nor `handleMulterError`. Both are modelled as the functions their files define, without the wiring.
- `new Date(text)` parsing and the server's time zone are left out. A date parameter is given already parsed (`DateParam`, `DateField`), and `EndOfDay` works on UTC days.
- `Date.now()` and `Math.random()` are left out. Clock readings and the random number are parameters, with `fileTime` and `now` as separate readings.
- Filter values that are `undefined` are left out, for example a login without a password, or a booking body without `roomType`. What Mongoose does with them is not part of this model, and such parameters are modelled as present strings.
- RepairRequests.Matches: `$regex` search is modelled as a case-insensitive substring test. Regular-expression metacharacters in the search text are not interpreted. A search that is not a valid regular expression, such as `(` or `[`, makes the query fail with 500 in the source, and the model lists results for it instead.
- Text.ToLower: `toLowerCase` is modelled for ASCII letters only.
- Uploads.ExtName: Node's special cases for a trailing '/' and for names that start with '.' are not modelled beyond the last path component.
- Common.SortNewest: records with equal `createdAt` may appear in any order in Mongo. The contract states only the newest-first order and the permutation.
- Dashboard.StaffSummary: JavaScript's key order for integer-like names, and names such as `__proto__`, are not modelled. Entries come in insertion order.
- The check-then-save race in room-booking creation is left out. POST is atomic here.
- The unused `fromTime`/`toTime` values in room-booking creation are left out.
- The second POST `/:id/remarks` registration is left out, because Express never reaches it behind the first one.
- The legacy `remark` array and the never-written `verifiedBy`, `verifiedAt`, `completedAt` and `mobile` fields are left out.
- The PUT routes of repair requests, gate passes and vehicle passes, and the GET routes of the passes, are left out. They are plain pass-through updates and reads.
- The repair route's check of `req.fileValidationError` and its `MulterError` branch are unreachable and left out. Nothing sets the flag, and multer's errors never reach the handler's `catch`.
- Plain-text password storage is left out. The model compares passwords as stored.
- Mongoose's `required` on array paths is left out. Gate-pass items are checked by the non-empty validator only.
- Remark fields that are `required` are not enforced on `$push`, because update validators are off. The model stores them as given.
- Passes.VehiclePassErrors: Mongoose reports the failing paths as a map. The model lists them in schema order.
- Ids and casting are left out. Ids are naturals, so the 500 that a malformed ObjectId draws from `findById`, `findByIdAndUpdate` and `updateOne` is not modelled. Number and Boolean fields arrive already cast, so the 500 from an uncastable value such as `tablesWithCloth: "abc"` or `isNewRequirement: "maybe"` is not modelled either.
- RoomBookings.Update: an explicit `null` written into a string path that the model keeps as a plain string, such as a required path or `status`, is stored as "". Both fail `required` the same way, but the conflict query would treat the two differently. The ownership check of RoomBookings.UpdateStatus differs too: after a PUT nulls `username`, a body username "" is refused with 403 in the source (`null !== ""`), while the model compares "" with "" and goes on to the 500 of the refused save.
- RoomBookings.NewBooking: the furniture counts are integers. A fractional Number such as `tablesWithCloth: 2.5`, which Mongoose stores as sent, is not modelled.
- RoomBookings.Update: a fractional furniture count is not modelled either.
- Accounts.Login: the username and password in the body are assumed to be strings. `express.json` also delivers objects, and a query-operator object such as `{"$ne": ""}` goes straight into `findOne`, where it matches without a known password. These operator objects are not modelled.
- Accounts.ResetPassword: the same string assumption. An operator-object username passes the presence check and selects the first matching account, and this is not modelled.
- Uploads.Sanitize: works on characters. The JavaScript regex has no `u` flag, so it replaces each UTF-16 code unit, and a character outside the Basic Multilingual Plane becomes "__" there. multer decodes the name as latin1, which yields only single-unit characters, so this does not arise for real uploads.

## Findings

| source | as written | input that shows it | evidently intended | confidence | as-written member | corrected member |
|---|---|---|---|---|---|---|
| routes/repairRequestRoutes.js:42-46 | The mimetype must contain one of the words, and "text/plain" contains none of them | a file such as `notes.txt` (any stem) with mimetype `text/plain` | "txt" is listed, so plain-text files should be accepted | high, not executed | Uploads.PlainTextRejected | Uploads.IntendedRepairAdmitsText |
| middleware/uploadMiddleware.js:28-32 | "application/msword" contains none of the words | a file such as `report.doc` (any stem) with mimetype `application/msword` | "doc" is listed, so Word 97 documents should be accepted | high, not executed | Uploads.MsWordRejected | Uploads.IntendedFiltersAdmitWord |
| routes/repairRequestRoutes.js:157-169 | A search replaces the staff member's `$or` clause | role "staff", user "bob", search "leak", and a request by "alice" assigned to "carol" | a staff member's list stays restricted to their own requests while searching | medium, not executed | RepairRequests.SearchLiftsStaffRestriction | RepairRequests.IntendedStaffSeesOwn |
| routes/adminDashboard.js:102 | Matches status "pending" while new bookings default to "Pending" | any booking created without a status | the histogram counts bookings awaiting a decision | high, not executed | Dashboard.PendingRooms | routes/adminDashboard.js:83-126 | One row per fixed room in the fixed order, each counting that room's bookings whose status is exactly "pending". |
| Dashboard.DefaultBookingNotCounted | Dashboard.IntendedCountsNewBooking |
| models/Staff.js:8 | A unique index that is not sparse treats every missing email as the same key | two staff members added without an email | email is optional, so many staff may have none | high, not executed | Accounts.SecondStaffWithoutEmailRefused | Accounts.IntendedStaffWithoutEmailAdded |

=== FILE: accounts.dfy ===
/**
 * Accounts (`controllers/authController.js`, `controllers/staffController.js`):
 * login against the three account collections, password reset, the static
 * token check, and adding and listing staff.
 */
module Accounts {
  import opened Common

  /**
   * An account of any of the three collections. `role` is the admin
   * schema's field (default "admin"); users and staff have no such field
   * and carry "". `email` and `phone` are `None` when the document lacks
   * them.
   */
  datatype Account = Account(
    username: string,
    password: string,
    name: string,
    department: string,
    email: Option<string>,
    phone: Option<string>,
    role: string,
    createdAt: int)

  datatype Directory = Directory(admins: seq<Account>, users: seq<Account>, staff: seq<Account>)

  function Username(a: Account): string
  {
    a.username
  }

  /** The unique index on `username` holds in each collection. */
  predicate WellFormed(d: Directory)
  {
    UniqueKeys(d.admins, Username) && UniqueKeys(d.users, Username) && UniqueKeys(d.staff, Username)
  }

  // ---------------------------------------------------------------------
  // `login`.
  // ---------------------------------------------------------------------

  const AdminToken: string := "admin-token"
  const UserToken: string := "user-token"
  const StaffToken: string := "staff-token"

  /** `findOne({ username, password })`: the first account with both. */
  function FindLogin(xs: seq<Account>, username: string, password: string): (r: Option<nat>)
    ensures r.Some? ==> r.value < |xs| && xs[r.value].username == username && xs[r.value].password == password
    ensures r.None? <==> forall i :: 0 <= i < |xs| ==> !(xs[i].username == username && xs[i].password == password)
  {
    if |xs| == 0 then None
    else if xs[0].username == username && xs[0].password == password then Some(0)
    else
      match FindLogin(xs[1..], username, password)
      case None => None
      case Some(j) => Some(j + 1)
  }

  predicate HasLogin(xs: seq<Account>, username: string, password: string)
  {
    exists i :: 0 <= i < |xs| && xs[i].username == username && xs[i].password == password
  }

  datatype LoginReply =
    | Session(role: string, token: string, account: Account)
    | Denied(reply: Reply)

  /** Admins first, then users, then staff; the first collection with a match answers. */
  function Login(d: Directory, username: string, password: string): (r: LoginReply)
    ensures r.Denied? <==> !HasLogin(d.admins, username, password) && !HasLogin(d.users, username, password) && !HasLogin(d.staff, username, password)
    ensures r.Denied? ==> r.reply == Reply(401, "Invalid credentials")
    ensures r.Session? ==> r.account.username == username && r.account.password == password
    ensures r.Session? && r.token == AdminToken <==> HasLogin(d.admins, username, password)
    ensures r.Session? && r.token == AdminToken ==> r.account in d.admins && r.role == r.account.role
    ensures r.Session? && r.token == UserToken <==> !HasLogin(d.admins, username, password) && HasLogin(d.users, username, password)
    ensures r.Session? && r.token == UserToken ==> r.account in d.users && r.role == "user"
    ensures r.Session? && r.token == StaffToken <==>
      !HasLogin(d.admins, username, password) && !HasLogin(d.users, username, password) && HasLogin(d.staff, username, password)
    ensures r.Session? && r.token == StaffToken ==> r.account in d.staff && r.role == "staff"
  {
    match FindLogin(d.admins, username, password)
    case Some(i) => Session(d.admins[i].role, AdminToken, d.admins[i])
    case None =>
      match FindLogin(d.users, username, password)
      case Some(i) => Session("user", UserToken, d.users[i])
      case None =>
        match FindLogin(d.staff, username, password)
        case Some(i) => Session("staff", StaffToken, d.staff[i])
        case None => Denied(Reply(401, "Invalid credentials"))
  }

  /** A wrong password never logs in, whatever the collections hold under other names. */
  lemma WrongPasswordDenied(d: Directory, username: string, password: string)
    requires forall a :: a in d.admins + d.users + d.staff && a.username == username ==> a.password != password
    ensures Login(d, username, password).Denied?
  {
    assert forall i :: 0 <= i < |d.admins| ==> d.admins[i] in d.admins + d.users + d.staff;
    assert forall i :: 0 <= i < |d.users| ==> d.users[i] in d.admins + d.users + d.staff;
    assert forall i :: 0 <= i < |d.staff| ==> d.staff[i] in d.admins + d.users + d.staff;
  }

  // ---------------------------------------------------------------------
  // `verifyToken`.
  // ---------------------------------------------------------------------

  datatype TokenReply = Valid(role: string) | Invalid(status: int)

  /** The `Authorization` header, "" when missing, against the three fixed tokens. */
  function VerifyToken(token: string): (r: TokenReply)
    ensures r.Valid? <==> token in {AdminToken, StaffToken, UserToken}
    ensures r.Invalid? ==> r.status == 401
  {
    if token == AdminToken then Valid("admin")
    else if token == StaffToken then Valid("staff")
    else if token == UserToken then Valid("user")
    else Invalid(401)
  }

  /**
   * The token a login hands out is accepted, and for users and staff it
   * reports the role the login reported; for an admin only when the
   * account's `role` field holds "admin".
   */
  lemma LoginTokenVerifies(d: Directory, username: string, password: string)
    requires Login(d, username, password).Session?
    ensures var s := Login(d, username, password);
      && VerifyToken(s.token).Valid?
      && (s.token != AdminToken ==> VerifyToken(s.token).role == s.role)
      && (s.token == AdminToken ==> (VerifyToken(s.token).role == s.role <==> s.account.role == "admin"))
  {
  }

  // ---------------------------------------------------------------------
  // `resetPassword`.
  // ---------------------------------------------------------------------

  /** `findOne({ username })`. */
  function FindUser(xs: seq<Account>, username: string): Option<nat>
  {
    IndexOf(xs, Username, username)
  }

  function SetPassword(xs: seq<Account>, i: nat, password: string): seq<Account>
    requires i < |xs|
  {
    xs[i := xs[i].(password := password)]
  }

  datatype ResetOutcome = ResetOutcome(dir: Directory, reply: Reply)

  /** Only `xs[i]`'s password changes. */
  predicate PasswordChangedAt(xs: seq<Account>, xs': seq<Account>, i: nat, password: string)
  {
    && |xs'| == |xs| && i < |xs|
    && (forall j :: 0 <= j < |xs| && j != i ==> xs'[j] == xs[j])
    && xs'[i] == xs[i].(password := password)
  }

  /**
   * 400 without a username or password; otherwise the first collection
   * (admins, users, staff) holding the username has that account's
   * password replaced, and 404 when none holds it.
   */
  function ResetPassword(d: Directory, username: string, password: string): (r: ResetOutcome)
    ensures !Given(username) || !Given(password) ==> r == ResetOutcome(d, Reply(400, "Username and password are required"))
    ensures r.reply.status == 404 <==>
      (Given(username) && Given(password) &&
       FindUser(d.admins, username).None? && FindUser(d.users, username).None? && FindUser(d.staff, username).None?)
    ensures r.reply.status != 200 ==> r.dir == d
    ensures r.reply.status == 200 <==>
      && Given(username) && Given(password)
      && (FindUser(d.admins, username).Some? || FindUser(d.users, username).Some? || FindUser(d.staff, username).Some?)
    ensures r.reply.status == 200 && FindUser(d.admins, username).Some? ==>
      && r.dir.users == d.users && r.dir.staff == d.staff
      && PasswordChangedAt(d.admins, r.dir.admins, FindUser(d.admins, username).value, password)
    ensures r.reply.status == 200 && FindUser(d.admins, username).None? && FindUser(d.users, username).Some? ==>
      && r.dir.admins == d.admins && r.dir.staff == d.staff
      && PasswordChangedAt(d.users, r.dir.users, FindUser(d.users, username).value, password)
    ensures r.reply.status == 200 && FindUser(d.admins, username).None? && FindUser(d.users, username).None? ==>
      && r.dir.admins == d.admins && r.dir.users == d.users
      && PasswordChangedAt(d.staff, r.dir.staff, FindUser(d.staff, username).value, password)
  {
    if !Given(username) || !Given(password) then ResetOutcome(d, Reply(400, "Username and password are required"))
    else
      match FindUser(d.admins, username)
      case Some(i) => ResetOutcome(d.(admins := SetPassword(d.admins, i, password)), Reply(200, "Admin password updated"))
      case None =>
        match FindUser(d.users, username)
        case Some(i) => ResetOutcome(d.(users := SetPassword(d.users, i, password)), Reply(200, "User password updated"))
        case None =>
          match FindUser(d.staff, username)
          case Some(i) => ResetOutcome(d.(staff := SetPassword(d.staff, i, password)), Reply(200, "Staff password updated"))
          case None => ResetOutcome(d, Reply(404, "User not found"))
  }

  /** In a collection with unique usernames, the account found by name matches the name and its password only. */
  lemma FindLoginByName(xs: seq<Account>, i: nat, password: string)
    requires UniqueKeys(xs, Username) && i < |xs|
    ensures HasLogin(xs, xs[i].username, password) <==> xs[i].password == password
  {
  }

  /**
   * After a reset, logging in with the new password succeeds, and through
   * the collection whose account was reset.
   */
  lemma ResetThenLogin(d: Directory, username: string, password: string)
    requires WellFormed(d)
    requires ResetPassword(d, username, password).reply.status == 200
    ensures var d' := ResetPassword(d, username, password).dir;
      var s := Login(d', username, password);
      && s.Session?
      && (FindUser(d.admins, username).Some? ==> s.token == AdminToken)
      && (FindUser(d.admins, username).None? && FindUser(d.users, username).Some? ==> s.token == UserToken)
      && (FindUser(d.admins, username).None? && FindUser(d.users, username).None? ==> s.token == StaffToken)
  {
    var d' := ResetPassword(d, username, password).dir;
    if FindUser(d.admins, username).Some? {
      var i := FindUser(d.admins, username).value;
      assert d'.admins[i].username == username && d'.admins[i].password == password;
    } else {
      assert d'.admins == d.admins;
      assert !HasLogin(d.admins, username, password);
      if FindUser(d.users, username).Some? {
        var i := FindUser(d.users, username).value;
        assert d'.users[i].username == username && d'.users[i].password == password;
      } else {
        assert d'.users == d.users;
        assert !HasLogin(d.users, username, password);
        var i := FindUser(d.staff, username).value;
        assert d'.staff[i].username == username && d'.staff[i].password == password;
      }
    }
  }

  // ---------------------------------------------------------------------
  // `addStaff` and `getAllStaff`.
  // ---------------------------------------------------------------------

  /** The request body; a missing or empty required field is "", a missing optional one `None`. */
  datatype StaffForm = StaffForm(
    name: string,
    username: string,
    password: string,
    department: string,
    email: Option<string>,
    phone: Option<string>)

  predicate StaffFormComplete(f: StaffForm)
  {
    Given(f.name) && Given(f.username) && Given(f.password) && Given(f.department)
  }

  /**
   * What the unique index on `email` compares. The index is not sparse, so
   * every staff document without an email is indexed under the same
   * (null) key.
   */
  function EmailKey(a: Account): Option<string>
  {
    a.email
  }

  /** Would saving `a` violate one of the staff collection's unique indexes? */
  predicate DuplicateKey(staff: seq<Account>, a: Account)
  {
    exists i :: 0 <= i < |staff| && (staff[i].username == a.username || EmailKey(staff[i]) == EmailKey(a))
  }

  function NewStaff(f: StaffForm, now: int): Account
  {
    Account(f.username, f.password, f.name, f.department, f.email, f.phone, "", now)
  }

  datatype StaffOutcome = StaffOutcome(staff: seq<Account>, reply: Reply)

  /** `addStaff`: 400 for a missing field, 500 when a unique index refuses the save, else one new staff account. */
  function AddStaff(staff: seq<Account>, f: StaffForm, now: int): (r: StaffOutcome)
    ensures !StaffFormComplete(f) <==> r.reply == Reply(400, "All fields are required")
    ensures r.reply.status == 500 <==> StaffFormComplete(f) && DuplicateKey(staff, NewStaff(f, now))
    ensures r.reply.status == 200 <==> StaffFormComplete(f) && !DuplicateKey(staff, NewStaff(f, now))
    ensures r.reply.status != 200 ==> r.staff == staff
    ensures r.reply.status == 200 ==>
      && |r.staff| == |staff| + 1 && r.staff[..|staff|] == staff
      && var a := r.staff[|staff|];
      && a.name == f.name && a.username == f.username && a.password == f.password
      && a.department == f.department && a.email == f.email && a.phone == f.phone
      && a.createdAt == now
  {
    if !StaffFormComplete(f) then StaffOutcome(staff, Reply(400, "All fields are required"))
    else if DuplicateKey(staff, NewStaff(f, now)) then StaffOutcome(staff, Reply(500, "Server error"))
    else StaffOutcome(staff + [NewStaff(f, now)], Reply(200, "Staff added successfully"))
  }

  /** Adding staff keeps usernames unique. */
  lemma AddStaffKeepsUsernamesUnique(staff: seq<Account>, f: StaffForm, now: int)
    requires UniqueKeys(staff, Username)
    ensures UniqueKeys(AddStaff(staff, f, now).staff, Username)
  {
    var r := AddStaff(staff, f, now);
    if r.reply.status == 200 {
      forall i, j | 0 <= i < j < |r.staff|
        ensures r.staff[i].username != r.staff[j].username
      {
        assert r.staff[i] == staff[i];
        if j < |staff| {
          assert r.staff[j] == staff[j];
        }
      }
    }
  }

  function Sample(username: string, email: Option<string>): StaffForm
  {
    StaffForm("Name", username, "secret", "Civil", email, None)
  }

  /**
   * As written, email is optional in the form but the second staff member
   * added without one is refused: both documents carry the same null
   * email key.
   */
  lemma SecondStaffWithoutEmailRefused()
    ensures var first := AddStaff([], Sample("ravi", None), 1);
      && first.reply.status == 200
      && AddStaff(first.staff, Sample("anu", None), 2).reply.status == 500
  {
    var first := AddStaff([], Sample("ravi", None), 1);
    assert first.staff[0].email == None;
  }

  /** Uniqueness as the optional field intends: only present emails can collide. */
  predicate IntendedDuplicateKey(staff: seq<Account>, a: Account)
  {
    exists i :: 0 <= i < |staff| && (staff[i].username == a.username || (a.email.Some? && staff[i].email == a.email))
  }

  function IntendedAddStaff(staff: seq<Account>, f: StaffForm, now: int): (r: StaffOutcome)
    ensures !StaffFormComplete(f) <==> r.reply == Reply(400, "All fields are required")
    ensures r.reply.status == 500 <==> StaffFormComplete(f) && IntendedDuplicateKey(staff, NewStaff(f, now))
    ensures r.reply.status == 200 <==> StaffFormComplete(f) && !IntendedDuplicateKey(staff, NewStaff(f, now))
    ensures r.reply.status != 200 ==> r.staff == staff
    ensures r.reply.status == 200 ==> r.staff == staff + [NewStaff(f, now)]
  {
    if !StaffFormComplete(f) then StaffOutcome(staff, Reply(400, "All fields are required"))
    else if IntendedDuplicateKey(staff, NewStaff(f, now)) then StaffOutcome(staff, Reply(500, "Server error"))
    else StaffOutcome(staff + [NewStaff(f, now)], Reply(200, "Staff added successfully"))
  }

  /** With sparse uniqueness a complete form without email is refused only for a taken username. */
  lemma IntendedStaffWithoutEmailAdded(staff: seq<Account>, f: StaffForm, now: int)
    requires StaffFormComplete(f) && f.email.None?
    requires forall i :: 0 <= i < |staff| ==> staff[i].username != f.username
    ensures IntendedAddStaff(staff, f, now).reply.status == 200
    ensures AddStaff(staff, f, now).reply.status == 200 <==> forall i :: 0 <= i < |staff| ==> staff[i].email.Some?
  {
  }

  /** The intended rule only accepts more: whatever the non-sparse index accepts, it accepts with the same result. */
  lemma IntendedAcceptsMore(staff: seq<Account>, f: StaffForm, now: int)
    ensures AddStaff(staff, f, now).reply.status == 200 ==> IntendedAddStaff(staff, f, now) == AddStaff(staff, f, now)
  {
  }

  function StaffCreatedAt(a: Account): int
  {
    a.createdAt
  }

  /** `getAllStaff`: every staff account, newest first. */
  function AllStaff(staff: seq<Account>): (r: seq<Account>)
    ensures multiset(r) == multiset(staff)
    ensures NewestFirst(r, StaffCreatedAt)
  {
    SortNewest(staff, StaffCreatedAt)
  }

  /** A staff account just added is listed first when its timestamp is the latest. */
  lemma NewStaffListedFirst(staff: seq<Account>, f: StaffForm, now: int)
    requires forall i :: 0 <= i < |staff| ==> staff[i].createdAt < now
    requires AddStaff(staff, f, now).reply.status == 200
    ensures var l := AllStaff(AddStaff(staff, f, now).staff);
      |l| > 0 && l[0] == NewStaff(f, now)
  {
    var s' := AddStaff(staff, f, now).staff;
    var l := AllStaff(s');
    var a := NewStaff(f, now);
    assert s'[|staff|] == a;
    assert a in multiset(s');
    assert a in multiset(l);
    var k :| 0 <= k < |l| && l[k] == a;
    assert l[0] in multiset(s');
    var m :| 0 <= m < |s'| && s'[m] == l[0];
    assert forall j :: 0 <= j < |staff| ==> s'[j] == staff[j];
  }
}

=== FILE: common.dfy ===
/**
 * Shared vocabulary of the facilities backend model: optional values, the
 * reply an HTTP handler sends, and the two query shapes every list endpoint
 * uses -- a predicate filter over a collection and a newest-first sort on
 * the `createdAt` timestamp.
 *
 * A Mongo collection is modelled as a `seq` of records in insertion
 * (natural) order; a timestamp is an `int` count of milliseconds.
 */
module Common {

  datatype Option<T> = None | Some(value: T)

  /** What a handler sends back: the HTTP status and the `message` text of its JSON body. */
  datatype Reply = Reply(status: int, message: string)

  /**
   * JavaScript truthiness of a string-valued request field. An absent field
   * (`undefined`) and the empty string are both falsy, so both are modelled
   * as "".
   */
  predicate Given(s: string)
  {
    s != ""
  }

  // ---------------------------------------------------------------------
  // Filtering: `Model.find(filter)` keeps the documents the filter matches,
  // in natural order.
  // ---------------------------------------------------------------------

  function Filter<T(!new)>(xs: seq<T>, keep: T -> bool): (r: seq<T>)
    ensures |r| <= |xs|
    ensures forall x :: x in r <==> x in xs && keep(x)
    ensures multiset(r) <= multiset(xs)
    ensures forall i :: 0 <= i < |r| ==> keep(r[i])
  {
    if |xs| == 0 then []
    else
      assert xs == [xs[0]] + xs[1..];
      if keep(xs[0]) then [xs[0]] + Filter(xs[1..], keep)
      else Filter(xs[1..], keep)
  }

  /** A single document is kept exactly when the filter matches it. */
  lemma FilterOne<T(!new)>(x: T, keep: T -> bool)
    ensures Filter([x], keep) == if keep(x) then [x] else []
  {
    assert [x][1..] == [];
  }

  /**
   * Filtering keeps natural order: the kept part of a concatenation is the
   * kept part of the first piece followed by the kept part of the second.
   */
  lemma {:induction false} FilterAppend<T(!new)>(xs: seq<T>, ys: seq<T>, keep: T -> bool)
    ensures Filter(xs + ys, keep) == Filter(xs, keep) + Filter(ys, keep)
  {
    if |xs| == 0 {
      assert xs + ys == ys;
    } else {
      assert (xs + ys)[0] == xs[0];
      assert (xs + ys)[1..] == xs[1..] + ys;
      FilterAppend(xs[1..], ys, keep);
    }
  }

  /** `Model.countDocuments(filter)`: how many documents the filter matches. */
  function Count<T>(xs: seq<T>, keep: T -> bool): (n: nat)
    ensures n <= |xs|
  {
    if |xs| == 0 then 0
    else (if keep(xs[0]) then 1 else 0) + Count(xs[1..], keep)
  }

  lemma {:induction false} CountIsFilterLength<T(!new)>(xs: seq<T>, keep: T -> bool)
    ensures Count(xs, keep) == |Filter(xs, keep)|
  {
    if |xs| > 0 {
      CountIsFilterLength(xs[1..], keep);
    }
  }

  lemma {:induction false} CountAppend<T>(xs: seq<T>, ys: seq<T>, keep: T -> bool)
    ensures Count(xs + ys, keep) == Count(xs, keep) + Count(ys, keep)
  {
    if |xs| == 0 {
      assert xs + ys == ys;
    } else {
      assert (xs + ys)[1..] == xs[1..] + ys;
      CountAppend(xs[1..], ys, keep);
    }
  }

  /** Two filters that never both match a document count at most the whole collection. */
  lemma {:induction false} CountDisjoint<T>(xs: seq<T>, p: T -> bool, q: T -> bool)
    requires forall i :: 0 <= i < |xs| ==> !(p(xs[i]) && q(xs[i]))
    ensures Count(xs, p) + Count(xs, q) <= |xs|
  {
    if |xs| > 0 {
      CountDisjoint(xs[1..], p, q);
    }
  }

  /** A filter that matches more documents counts at least as many. */
  lemma {:induction false} CountMonotone<T>(xs: seq<T>, p: T -> bool, q: T -> bool)
    requires forall i :: 0 <= i < |xs| ==> p(xs[i]) ==> q(xs[i])
    ensures Count(xs, p) <= Count(xs, q)
  {
    if |xs| > 0 {
      CountMonotone(xs[1..], p, q);
    }
  }

  // ---------------------------------------------------------------------
  // Document ids: `_id` is unique, a new document gets an unused one, and
  // `findById` looks a document up by it.
  // ---------------------------------------------------------------------

  /** A key larger than every key in use. */
  function FreshKey<T>(xs: seq<T>, key: T -> nat): (n: nat)
    ensures forall i :: 0 <= i < |xs| ==> key(xs[i]) < n
  {
    if |xs| == 0 then 0
    else
      var rest := FreshKey(xs[1..], key);
      assert forall i :: 1 <= i < |xs| ==> xs[i] == xs[1..][i - 1];
      if key(xs[0]) < rest then rest else key(xs[0]) + 1
  }

  /** The position of the first document with key `k`. */
  function IndexOf<T, K(==)>(xs: seq<T>, key: T -> K, k: K): (r: Option<nat>)
    ensures r.Some? ==> r.value < |xs| && key(xs[r.value]) == k
    ensures r.Some? ==> forall j :: 0 <= j < r.value ==> key(xs[j]) != k
    ensures r.None? <==> forall i :: 0 <= i < |xs| ==> key(xs[i]) != k
  {
    if |xs| == 0 then None
    else if key(xs[0]) == k then Some(0)
    else
      match IndexOf(xs[1..], key, k)
      case None => None
      case Some(j) => Some(j + 1)
  }

  /** Positions are found by key alone: sequences with the same keys give the same answer. */
  lemma IndexOfSameKeys<T, K>(xs: seq<T>, ys: seq<T>, key: T -> K, k: K)
    requires |xs| == |ys|
    requires forall i :: 0 <= i < |xs| ==> key(xs[i]) == key(ys[i])
    ensures IndexOf(xs, key, k) == IndexOf(ys, key, k)
  {
    var a, b := IndexOf(xs, key, k), IndexOf(ys, key, k);
    if a.Some? && b.Some? {
      assert !(a.value < b.value) && !(b.value < a.value);
    }
  }

  /** Appending a document can only add the key it carries. */
  lemma IndexOfAppend<T, K>(xs: seq<T>, x: T, key: T -> K, k: K)
    ensures IndexOf(xs + [x], key, k) ==
      if IndexOf(xs, key, k).Some? then IndexOf(xs, key, k)
      else if key(x) == k then Some(|xs|)
      else None
  {
    var ys := xs + [x];
    assert forall i :: 0 <= i < |xs| ==> ys[i] == xs[i];
    var a, b := IndexOf(xs, key, k), IndexOf(ys, key, k);
    if a.Some? {
      assert key(ys[a.value]) == k;
      assert b.Some? && !(a.value < b.value) && !(b.value < a.value);
    } else if key(x) == k {
      assert key(ys[|xs|]) == k;
      assert b.Some? && !(b.value < |xs|);
    } else {
      assert forall i :: 0 <= i < |ys| ==> key(ys[i]) != k;
    }
  }

  /** No two documents share a key. */
  predicate UniqueKeys<T, K(==)>(xs: seq<T>, key: T -> K)
  {
    forall i, j :: 0 <= i < j < |xs| ==> key(xs[i]) != key(xs[j])
  }

  /** Appending a document with a fresh key keeps keys unique. */
  lemma AppendFreshKey<T>(xs: seq<T>, key: T -> nat, x: T)
    requires UniqueKeys(xs, key) && key(x) == FreshKey(xs, key)
    ensures UniqueKeys(xs + [x], key)
  {
    var ys := xs + [x];
    forall i, j | 0 <= i < j < |ys|
      ensures key(ys[i]) != key(ys[j])
    {
      assert ys[i] == xs[i];
      if j < |xs| {
        assert ys[j] == xs[j];
      }
    }
  }

  // ---------------------------------------------------------------------
  // Sorting: `.sort({ createdAt: -1 })`.
  // ---------------------------------------------------------------------

  /** Newest first: `createdAt` never increases along the sequence. */
  predicate NewestFirst<T>(xs: seq<T>, createdAt: T -> int)
  {
    forall i, j :: 0 <= i < j < |xs| ==> createdAt(xs[i]) >= createdAt(xs[j])
  }

  /** Places `x` in front of every element that is not newer than it. */
  function InsertNewest<T>(x: T, xs: seq<T>, createdAt: T -> int): (r: seq<T>)
    requires NewestFirst(xs, createdAt)
    ensures multiset(r) == multiset(xs) + multiset{x}
    ensures forall i :: 0 <= i < |r| ==> r[i] == x || r[i] in xs
    ensures NewestFirst(r, createdAt)
  {
    if |xs| == 0 then [x]
    else if createdAt(x) >= createdAt(xs[0]) then [x] + xs
    else
      var rest := InsertNewest(x, xs[1..], createdAt);
      assert xs == [xs[0]] + xs[1..];
      assert forall i :: 0 <= i < |rest| ==> createdAt(xs[0]) >= createdAt(rest[i]);
      [xs[0]] + rest
  }

  /**
   * Mongo's `.sort({ createdAt: -1 })`. Ties are left in natural order here;
   * Mongo itself does not promise any order among equal timestamps, which is
   * why the contract says only "sorted and the same documents".
   */
  function SortNewest<T>(xs: seq<T>, createdAt: T -> int): (r: seq<T>)
    ensures multiset(r) == multiset(xs)
    ensures |r| == |xs|
    ensures NewestFirst(r, createdAt)
  {
    if |xs| == 0 then []
    else
      assert xs == [xs[0]] + xs[1..];
      InsertNewest(xs[0], SortNewest(xs[1..], createdAt), createdAt)
  }

  /** Sorting keeps exactly the same documents. */
  lemma SortNewestMembers<T>(xs: seq<T>, createdAt: T -> int, x: T)
    ensures x in SortNewest(xs, createdAt) <==> x in xs
  {
    var r := SortNewest(xs, createdAt);
    assert x in r <==> x in multiset(r);
    assert x in xs <==> x in multiset(xs);
  }

  // ---------------------------------------------------------------------
  // Dates.
  // ---------------------------------------------------------------------

  const DayMs: int := 24 * 60 * 60 * 1000

  /**
   * `d.setHours(23, 59, 59, 999)`: the last millisecond of the day holding
   * `t`. Days are counted in UTC here.
   */
  function EndOfDay(t: int): (e: int)
    ensures t <= e < t + DayMs
    ensures (e + 1) % DayMs == 0
  {
    t - t % DayMs + DayMs - 1
  }

  /**
   * The `createdAt` range filter: `$gte` the lower bound and `$lte` the end
   * of the upper bound's day, each bound only when given.
   */
  predicate InRange(t: int, from: Option<int>, to: Option<int>)
  {
    && (from.Some? ==> t >= from.value)
    && (to.Some? ==> t <= EndOfDay(to.value))
  }

  /** A timestamp anywhere on the last day of the range is inside it. */
  lemma InRangeWholeLastDay(t: int, day: int)
    requires day <= t && t / DayMs == day / DayMs
    ensures InRange(t, Some(day), Some(day))
  {
  }
}

=== FILE: dashboard.dfy ===
/**
 * The admin dashboard (`routes/adminDashboard.js`): three aggregations over
 * the repair requests and the room bookings.
 */
module Dashboard {
  import opened Common
  import R = RepairRequests
  import B = RoomBookings

  const Completed: string := "Completed"

  // ---------------------------------------------------------------------
  // GET `/repair-summary`.
  // ---------------------------------------------------------------------

  /** Assigned to somebody and not yet completed. */
  predicate OpenAssigned(q: R.Request)
  {
    q.assignedTo != "" && q.status != Completed
  }

  predicate IsPending(q: R.Request)
  {
    q.status == R.Pending
  }

  predicate IsCompleted(q: R.Request)
  {
    q.status == Completed
  }

  datatype Summary = Summary(assignedCount: nat, pendingCount: nat, completedCount: nat)

  /** Three `countDocuments` calls. */
  function RepairSummary(store: seq<R.Request>): (s: Summary)
    ensures s.assignedCount == |Filter(store, OpenAssigned)|
    ensures s.pendingCount == |Filter(store, IsPending)|
    ensures s.completedCount == |Filter(store, IsCompleted)|
  {
    CountIsFilterLength(store, OpenAssigned);
    CountIsFilterLength(store, IsPending);
    CountIsFilterLength(store, IsCompleted);
    Summary(Count(store, OpenAssigned), Count(store, IsPending), Count(store, IsCompleted))
  }

  /**
   * No request is counted both as pending and as completed, nor both as
   * assigned and as completed, so either pair of counts fits in the total.
   */
  lemma SummaryBounds(store: seq<R.Request>)
    ensures RepairSummary(store).pendingCount + RepairSummary(store).completedCount <= |store|
    ensures RepairSummary(store).assignedCount + RepairSummary(store).completedCount <= |store|
  {
    CountDisjoint(store, IsPending, IsCompleted);
    CountDisjoint(store, OpenAssigned, IsCompleted);
  }

  // ---------------------------------------------------------------------
  // GET `/repair-staff-summary`.
  // ---------------------------------------------------------------------

  /** One value of `staffMap`. */
  datatype Entry = Entry(name: string, assignedCount: nat, completedCount: nat)

  function EntryName(e: Entry): string
  {
    e.name
  }

  predicate HasEntry(entries: seq<Entry>, name: string)
  {
    IndexOf(entries, EntryName, name).Some?
  }

  /** The `assigned` count under `name`, 0 when there is no entry. */
  function AssignedOf(entries: seq<Entry>, name: string): nat
  {
    match IndexOf(entries, EntryName, name)
    case None => 0
    case Some(k) => entries[k].assignedCount
  }

  function CompletedOf(entries: seq<Entry>, name: string): nat
  {
    match IndexOf(entries, EntryName, name)
    case None => 0
    case Some(k) => entries[k].completedCount
  }

  predicate AllZero(entries: seq<Entry>)
  {
    forall k :: 0 <= k < |entries| ==> entries[k].assignedCount == 0 && entries[k].completedCount == 0
  }

  predicate CompletedWithinAssigned(entries: seq<Entry>)
  {
    forall k :: 0 <= k < |entries| ==> entries[k].completedCount <= entries[k].assignedCount
  }

  function SumAssigned(entries: seq<Entry>): nat
  {
    if |entries| == 0 then 0 else entries[0].assignedCount + SumAssigned(entries[1..])
  }

  lemma {:induction false} SumAssignedAppend(entries: seq<Entry>, e: Entry)
    ensures SumAssigned(entries + [e]) == SumAssigned(entries) + e.assignedCount
  {
    if |entries| > 0 {
      assert (entries + [e])[1..] == entries[1..] + [e];
      SumAssignedAppend(entries[1..], e);
    }
  }

  lemma {:induction false} SumAssignedUpdate(entries: seq<Entry>, k: nat, e: Entry)
    requires k < |entries|
    ensures SumAssigned(entries[k := e]) + entries[k].assignedCount == SumAssigned(entries) + e.assignedCount
  {
    if k > 0 {
      assert entries[k := e][1..] == entries[1..][k - 1 := e];
      SumAssignedUpdate(entries[1..], k - 1, e);
    }
  }

  /** `staffMap[staff.name] = { name, assigned: 0, completed: 0 }`. */
  function Register(entries: seq<Entry>, name: string): seq<Entry>
  {
    match IndexOf(entries, EntryName, name)
    case None => entries + [Entry(name, 0, 0)]
    case Some(k) => entries[k := Entry(name, 0, 0)]
  }

  function RegisterAll(entries: seq<Entry>, names: seq<string>): seq<Entry>
    decreases |names|
  {
    if |names| == 0 then entries else RegisterAll(Register(entries, names[0]), names[1..])
  }

  /** One pass of the loop over the requests: the assignee's entry is created if missing, then counted. */
  function Tally(entries: seq<Entry>, q: R.Request): seq<Entry>
  {
    var bump := if q.status == Completed then 1 else 0;
    match IndexOf(entries, EntryName, q.assignedTo)
    case None => entries + [Entry(q.assignedTo, 1, bump)]
    case Some(k) => entries[k := Entry(q.assignedTo, entries[k].assignedCount + 1, entries[k].completedCount + bump)]
  }

  function TallyAll(entries: seq<Entry>, qs: seq<R.Request>): seq<Entry>
    decreases |qs|
  {
    if |qs| == 0 then entries else TallyAll(Tally(entries, qs[0]), qs[1..])
  }

  function AssigneeIs(name: string): R.Request -> bool
  {
    (q: R.Request) => q.assignedTo == name
  }

  function CompletedBy(name: string): R.Request -> bool
  {
    (q: R.Request) => q.assignedTo == name && q.status == Completed
  }

  lemma RegisterFacts(entries: seq<Entry>, name: string)
    requires UniqueKeys(entries, EntryName) && AllZero(entries)
    ensures var out := Register(entries, name);
      && UniqueKeys(out, EntryName) && AllZero(out)
      && forall n :: HasEntry(out, n) <==> HasEntry(entries, n) || n == name
  {
    var out := Register(entries, name);
    match IndexOf(entries, EntryName, name)
    case None =>
      AppendFreshName(entries, Entry(name, 0, 0));
      forall n ensures HasEntry(out, n) <==> HasEntry(entries, n) || n == name {
        IndexOfAppend(entries, Entry(name, 0, 0), EntryName, n);
      }
    case Some(k) =>
      assert forall i :: 0 <= i < |out| ==> out[i].name == entries[i].name;
      forall n ensures HasEntry(out, n) <==> HasEntry(entries, n) || n == name {
        IndexOfSameKeys(entries, out, EntryName, n);
      }
  }

  /** An entry under a name not yet present keeps the names unique. */
  lemma AppendFreshName(entries: seq<Entry>, e: Entry)
    requires UniqueKeys(entries, EntryName)
    requires IndexOf(entries, EntryName, e.name).None?
    ensures UniqueKeys(entries + [e], EntryName)
  {
    var out := entries + [e];
    forall i, j | 0 <= i < j < |out|
      ensures out[i].name != out[j].name
    {
      assert out[i] == entries[i];
      if j < |entries| {
        assert out[j] == entries[j];
      }
    }
  }

  lemma {:induction false} RegisterAllFacts(entries: seq<Entry>, names: seq<string>)
    requires UniqueKeys(entries, EntryName) && AllZero(entries)
    ensures var out := RegisterAll(entries, names);
      && UniqueKeys(out, EntryName) && AllZero(out)
      && forall n :: HasEntry(out, n) <==> HasEntry(entries, n) || n in names
    decreases |names|
  {
    if |names| > 0 {
      RegisterFacts(entries, names[0]);
      RegisterAllFacts(Register(entries, names[0]), names[1..]);
      assert forall n :: n in names <==> n == names[0] || n in names[1..] by {
        assert names == [names[0]] + names[1..];
      }
    }
  }

  /** What one request does to the entries, as the three per-name views and the sum. */
  ghost predicate TallyStep(entries: seq<Entry>, q: R.Request, out: seq<Entry>)
  {
    && UniqueKeys(out, EntryName) && CompletedWithinAssigned(out)
    && SumAssigned(out) == SumAssigned(entries) + 1
    && (forall n :: HasEntry(out, n) <==> HasEntry(entries, n) || n == q.assignedTo)
    && (forall n :: AssignedOf(out, n) == AssignedOf(entries, n) + (if AssigneeIs(n)(q) then 1 else 0))
    && (forall n :: CompletedOf(out, n) == CompletedOf(entries, n) + (if CompletedBy(n)(q) then 1 else 0))
  }

  /** One request adds one to its assignee's `assigned`, and to `completed` when completed; nothing else moves. */
  lemma TallyFacts(entries: seq<Entry>, q: R.Request)
    requires UniqueKeys(entries, EntryName) && CompletedWithinAssigned(entries)
    ensures TallyStep(entries, q, Tally(entries, q))
  {
    if IndexOf(entries, EntryName, q.assignedTo).None? {
      TallyNewName(entries, q);
    } else {
      TallyKnownName(entries, q, IndexOf(entries, EntryName, q.assignedTo).value);
    }
  }

  lemma TallyNewName(entries: seq<Entry>, q: R.Request)
    requires UniqueKeys(entries, EntryName) && CompletedWithinAssigned(entries)
    requires IndexOf(entries, EntryName, q.assignedTo).None?
    ensures TallyStep(entries, q, Tally(entries, q))
  {
    var e := Entry(q.assignedTo, 1, if q.status == Completed then 1 else 0);
    var out := entries + [e];
    assert Tally(entries, q) == out;
    AppendFreshName(entries, e);
    SumAssignedAppend(entries, e);
    forall n
      ensures HasEntry(out, n) <==> HasEntry(entries, n) || n == q.assignedTo
      ensures AssignedOf(out, n) == AssignedOf(entries, n) + (if AssigneeIs(n)(q) then 1 else 0)
      ensures CompletedOf(out, n) == CompletedOf(entries, n) + (if CompletedBy(n)(q) then 1 else 0)
    {
      IndexOfAppend(entries, e, EntryName, n);
      if IndexOf(entries, EntryName, n).Some? {
        assert out[IndexOf(entries, EntryName, n).value] == entries[IndexOf(entries, EntryName, n).value];
      }
    }
  }

  lemma TallyKnownName(entries: seq<Entry>, q: R.Request, k: nat)
    requires UniqueKeys(entries, EntryName) && CompletedWithinAssigned(entries)
    requires IndexOf(entries, EntryName, q.assignedTo) == Some(k)
    ensures TallyStep(entries, q, Tally(entries, q))
  {
    var e := Entry(q.assignedTo, entries[k].assignedCount + 1,
                   entries[k].completedCount + if q.status == Completed then 1 else 0);
    var out := entries[k := e];
    assert Tally(entries, q) == out;
    assert forall i :: 0 <= i < |out| ==> out[i].name == entries[i].name;
    SumAssignedUpdate(entries, k, e);
    forall n
      ensures HasEntry(out, n) <==> HasEntry(entries, n) || n == q.assignedTo
      ensures AssignedOf(out, n) == AssignedOf(entries, n) + (if AssigneeIs(n)(q) then 1 else 0)
      ensures CompletedOf(out, n) == CompletedOf(entries, n) + (if CompletedBy(n)(q) then 1 else 0)
    {
      IndexOfSameKeys(entries, out, EntryName, n);
    }
  }

  /** Some request of `qs` is assigned to `name`. */
  predicate AssigneeIn(qs: seq<R.Request>, name: string)
  {
    exists i :: 0 <= i < |qs| && qs[i].assignedTo == name
  }

  lemma {:induction false} TallyAllFacts(entries: seq<Entry>, qs: seq<R.Request>)
    requires UniqueKeys(entries, EntryName) && CompletedWithinAssigned(entries)
    ensures var out := TallyAll(entries, qs);
      && UniqueKeys(out, EntryName) && CompletedWithinAssigned(out)
      && SumAssigned(out) == SumAssigned(entries) + |qs|
      && (forall n :: HasEntry(out, n) <==> HasEntry(entries, n) || AssigneeIn(qs, n))
      && (forall n :: AssignedOf(out, n) == AssignedOf(entries, n) + Count(qs, AssigneeIs(n)))
      && (forall n :: CompletedOf(out, n) == CompletedOf(entries, n) + Count(qs, CompletedBy(n)))
    decreases |qs|
  {
    if |qs| > 0 {
      var mid := Tally(entries, qs[0]);
      TallyFacts(entries, qs[0]);
      TallyAllFacts(mid, qs[1..]);
      var out := TallyAll(entries, qs);
      forall n ensures HasEntry(out, n) <==> HasEntry(entries, n) || AssigneeIn(qs, n) {
        if exists i :: 0 <= i < |qs[1..]| && qs[1..][i].assignedTo == n {
          var i :| 0 <= i < |qs[1..]| && qs[1..][i].assignedTo == n;
          assert qs[i + 1].assignedTo == n;
        }
        if exists i :: 0 <= i < |qs| && qs[i].assignedTo == n {
          var i :| 0 <= i < |qs| && qs[i].assignedTo == n;
          if i > 0 {
            assert qs[1..][i - 1].assignedTo == n;
          }
        }
      }
    }
  }

  /** The `createdAt` window, which applies only when both `from` and `to` are given. */
  predicate InWindow(q: R.Request, from: R.DateParam, to: R.DateParam)
  {
    from.At? && to.At? ==> from.ms <= q.createdAt <= EndOfDay(to.ms)
  }

  /** The request query: assigned to somebody, and inside the window. */
  predicate Counted(q: R.Request, from: R.DateParam, to: R.DateParam)
  {
    q.assignedTo != "" && InWindow(q, from, to)
  }

  function CountedIn(from: R.DateParam, to: R.DateParam): R.Request -> bool
  {
    q => Counted(q, from, to)
  }

  datatype StaffListing = Entries(entries: seq<Entry>) | Refused(reply: Reply)

  /**
   * GET `/repair-staff-summary` given the staff names in natural order.
   * The dates are parsed only when both are given, and one that does not
   * parse fails the query.
   */
  function StaffSummary(staffNames: seq<string>, requests: seq<R.Request>, from: R.DateParam, to: R.DateParam): (r: StaffListing)
    ensures r.Refused? <==> from != R.NoDate && to != R.NoDate && (from.Unparseable? || to.Unparseable?)
    ensures r.Refused? ==> r.reply.status == 500
  {
    if from != R.NoDate && to != R.NoDate && (from.Unparseable? || to.Unparseable?) then
      Refused(Reply(500, "Failed to fetch staff summary"))
    else
      Entries(TallyAll(RegisterAll([], staffNames), Filter(requests, CountedIn(from, to))))
  }

  /**
   * The staff summary lists every name once: each staff member, even with
   * nothing assigned, and each other assignee of a counted request. Each
   * name's `assigned` is the number of counted requests assigned to it and
   * `completed` the completed ones among them; so `completed` never exceeds
   * `assigned` and the `assigned` column adds up to the counted requests.
   */
  lemma StaffSummaryCorrect(staffNames: seq<string>, requests: seq<R.Request>, from: R.DateParam, to: R.DateParam)
    requires StaffSummary(staffNames, requests, from, to).Entries?
    ensures var out := StaffSummary(staffNames, requests, from, to).entries;
      var counted := Filter(requests, CountedIn(from, to));
      && UniqueKeys(out, EntryName)
      && (forall n :: HasEntry(out, n) <==> n in staffNames || AssigneeIn(counted, n))
      && (forall n :: AssignedOf(out, n) == Count(counted, AssigneeIs(n)))
      && (forall n :: CompletedOf(out, n) == Count(counted, CompletedBy(n)))
      && CompletedWithinAssigned(out)
      && SumAssigned(out) == |counted|
  {
    var counted := Filter(requests, CountedIn(from, to));
    Summarize(staffNames, counted);
  }

  /** The staff summary's properties for the names and the counted requests as given. */
  lemma Summarize(names: seq<string>, qs: seq<R.Request>)
    ensures var out := TallyAll(RegisterAll([], names), qs);
      && UniqueKeys(out, EntryName)
      && (forall n :: HasEntry(out, n) <==> n in names || AssigneeIn(qs, n))
      && (forall n :: AssignedOf(out, n) == Count(qs, AssigneeIs(n)))
      && (forall n :: CompletedOf(out, n) == Count(qs, CompletedBy(n)))
      && CompletedWithinAssigned(out)
      && SumAssigned(out) == |qs|
  {
    var base := RegisterAll([], names);
    assert forall n :: !HasEntry([], n);
    RegisterAllFacts([], names);
    AllZeroSum(base);
    forall n ensures AssignedOf(base, n) == 0 && CompletedOf(base, n) == 0 {
      AllZeroCounts(base, n);
    }
    assert CompletedWithinAssigned(base);
    TallyAllFacts(base, qs);
  }

  lemma AllZeroCounts(entries: seq<Entry>, n: string)
    requires AllZero(entries)
    ensures AssignedOf(entries, n) == 0 && CompletedOf(entries, n) == 0
  {
    match IndexOf(entries, EntryName, n)
    case None =>
    case Some(k) =>
      assert entries[k].assignedCount == 0;
  }

  lemma {:induction false} AllZeroSum(entries: seq<Entry>)
    requires AllZero(entries)
    ensures SumAssigned(entries) == 0
  {
    if |entries| > 0 {
      AllZeroSum(entries[1..]);
    }
  }

  /** With only one of the two dates given there is no window: every assigned request counts. */
  lemma OneDateIgnored(q: R.Request, from: R.DateParam)
    requires q.assignedTo != ""
    ensures Counted(q, from, R.NoDate) && Counted(q, R.NoDate, from)
  {
  }

  // ---------------------------------------------------------------------
  // GET `/room-requests`.
  // ---------------------------------------------------------------------

  /** The fixed room list, in its display order. */
  const Rooms: seq<string> := [
    "Auditorium", "Decennial", "Insight", "415/416", "Guest Room",
    "Main Dinning Hall", "Dinning Hall Near Decennial", "OTHER (Enter Remarks)"]

  /** The status value the aggregation matches. */
  const HistogramStatus: string := "pending"

  /** `$group` by `roomType` with `$sum: 1`, as a map from room to count. */
  function GroupByRoom(bookings: seq<B.Booking>): map<string, nat>
  {
    if |bookings| == 0 then map[]
    else
      var rest := GroupByRoom(bookings[1..]);
      var room := bookings[0].roomType;
      rest[room := (if room in rest then rest[room] else 0) + 1]
  }

  function RoomIs(room: string): B.Booking -> bool
  {
    (b: B.Booking) => b.roomType == room
  }

  /** The group map counts each room type's bookings, and has no key for a room without any. */
  lemma {:induction false} GroupByRoomCounts(bookings: seq<B.Booking>, room: string)
    ensures room in GroupByRoom(bookings) <==> Count(bookings, RoomIs(room)) > 0
    ensures room in GroupByRoom(bookings) ==> GroupByRoom(bookings)[room] == Count(bookings, RoomIs(room))
  {
    if |bookings| > 0 {
      GroupByRoomCounts(bookings[1..], room);
    }
  }

  datatype RoomCount = RoomCount(name: string, count: nat)

  function WithStatus(status: string): B.Booking -> bool
  {
    (b: B.Booking) => b.status == status
  }

  /** `$match` on `status`, `$group`, then one row per fixed room with `bookingMap[room] || 0`. */
  function RoomHistogram(bookings: seq<B.Booking>, status: string): (r: seq<RoomCount>)
    ensures |r| == |Rooms|
    ensures forall k :: 0 <= k < |r| ==> r[k].name == Rooms[k]
  {
    var groups := GroupByRoom(Filter(bookings, WithStatus(status)));
    seq(|Rooms|, k requires 0 <= k < |Rooms| =>
      RoomCount(Rooms[k], if Rooms[k] in groups then groups[Rooms[k]] else 0))
  }

  /** GET `/room-requests` as written: the bookings whose status is exactly "pending". */
  function PendingRooms(bookings: seq<B.Booking>): (r: seq<RoomCount>)
    ensures |r| == |Rooms|
    // Row k names the k-th fixed room and counts its bookings whose status is exactly "pending".
    ensures forall k :: 0 <= k < |r| ==>
      r[k].name == Rooms[k] && r[k].count == Count(Filter(bookings, WithStatus(HistogramStatus)), RoomIs(Rooms[k]))
  {
    EveryRoomCounted(bookings, HistogramStatus);
    RoomHistogram(bookings, HistogramStatus)
  }

  /** RoomHistogramCounts for every row at once. */
  lemma EveryRoomCounted(bookings: seq<B.Booking>, status: string)
    ensures forall k :: 0 <= k < |Rooms| ==>
      RoomHistogram(bookings, status)[k].count == Count(Filter(bookings, WithStatus(status)), RoomIs(Rooms[k]))
  {
    forall k | 0 <= k < |Rooms|
      ensures RoomHistogram(bookings, status)[k].count == Count(Filter(bookings, WithStatus(status)), RoomIs(Rooms[k]))
    {
      RoomHistogramCounts(bookings, status, k);
    }
  }

  /** Each row counts the bookings of its room that have the matched status; other room types are dropped. */
  lemma RoomHistogramCounts(bookings: seq<B.Booking>, status: string, k: nat)
    requires k < |Rooms|
    ensures RoomHistogram(bookings, status)[k] ==
      RoomCount(Rooms[k], Count(Filter(bookings, WithStatus(status)), RoomIs(Rooms[k])))
  {
    GroupByRoomCounts(Filter(bookings, WithStatus(status)), Rooms[k]);
  }

  /**
   * As written the histogram never sees a booking in its default state:
   * a booking created without a status is "Pending", which the
   * lower-case match does not select.
   */
  lemma DefaultBookingNotCounted(f: B.BookingForm, id: nat, now: int)
    requires B.FormValid(f) && f.status.None?
    ensures forall k :: 0 <= k < |Rooms| ==> PendingRooms([B.NewBooking(id, f, now)])[k].count == 0
  {
    var b := B.NewBooking(id, f, now);
    assert !WithStatus(HistogramStatus)(b);
    assert Filter([b], WithStatus(HistogramStatus)) == [];
    forall k | 0 <= k < |Rooms|
      ensures PendingRooms([b])[k].count == 0
    {
      RoomHistogramCounts([b], HistogramStatus, k);
    }
  }

  /** The histogram over the status bookings are created with. */
  function IntendedPendingRooms(bookings: seq<B.Booking>): (r: seq<RoomCount>)
    ensures |r| == |Rooms|
    // Row k names the k-th fixed room and counts its bookings in the default "Pending" state.
    ensures forall k :: 0 <= k < |r| ==>
      r[k].name == Rooms[k] && r[k].count == Count(Filter(bookings, WithStatus(B.DefaultStatus)), RoomIs(Rooms[k]))
  {
    EveryRoomCounted(bookings, B.DefaultStatus);
    RoomHistogram(bookings, B.DefaultStatus)
  }

  /** With the matching status a newly created booking for a listed room is counted once. */
  lemma IntendedCountsNewBooking(f: B.BookingForm, id: nat, now: int, k: nat)
    requires B.FormValid(f) && f.status.None?
    requires k < |Rooms| && f.roomType == Rooms[k]
    ensures IntendedPendingRooms([B.NewBooking(id, f, now)])[k].count == 1
  {
    var b := B.NewBooking(id, f, now);
    assert Filter([b], WithStatus(B.DefaultStatus)) == [b];
    RoomHistogramCounts([b], B.DefaultStatus, k);
  }
}

=== FILE: errors.dfy ===
/**
 * The Express error-handling middleware (`middleware/errorMiddleware.js`).
 * An error is modelled by what the handler reads from it: the multer error
 * code, when multer raised it, and the message.
 */
module Errors {
  import opened Common

  datatype AppError =
    | MulterError(code: string, message: string)
    | PlainError(message: string)

  /** The one message the handler reports as a client error. */
  const InvalidFileTypeMessage: string := "Invalid file type. Only images and documents are allowed."

  const GenericServerMessage: string := "Something went wrong!"

  /**
   * `errorHandler(err)` given the value of `NODE_ENV` ("" when unset): a
   * rejected file type is a 400 with its own message, everything else a
   * 500 whose message is hidden in production.
   */
  function ErrorHandler(err: AppError, nodeEnv: string): (r: Reply)
    ensures r.status == 400 || r.status == 500
    ensures r.status == 400 <==> err.message == InvalidFileTypeMessage
    ensures r.status == 400 ==> r.message == InvalidFileTypeMessage
    ensures r.status == 500 && nodeEnv == "production" ==> r.message == GenericServerMessage
    ensures r.status == 500 && nodeEnv != "production" ==> r.message == err.message
  {
    if err.message == InvalidFileTypeMessage then Reply(400, err.message)
    else Reply(500, if nodeEnv == "production" then GenericServerMessage else err.message)
  }

  /**
   * Whatever the environment, the reply's message is either the error's own
   * message or the generic text, and the error's own message reaches a
   * production client only for the file-type rejection.
   */
  lemma ProductionHidesServerErrors(err: AppError)
    requires err.message != InvalidFileTypeMessage && err.message != GenericServerMessage
    ensures ErrorHandler(err, "production").message != err.message
    ensures ErrorHandler(err, "development").message == err.message
  {
  }

  /** The classification does not depend on where the error came from, only on its text. */
  lemma StatusIgnoresOrigin(code: string, message: string, nodeEnv: string)
    ensures ErrorHandler(MulterError(code, message), nodeEnv) == ErrorHandler(PlainError(message), nodeEnv)
  {
  }
}

=== FILE: passes.dfy ===
/**
 * Gate passes and vehicle passes (`models/GatePass.js`,
 * `models/VehiclePass.js`): what Mongoose's casting, defaults and validators
 * make of a request body, and the unique pass number. POST `/` of either
 * route saves the body and answers 201, or 400 when the save fails.
 */
module Passes {
  import opened Common
  import opened Text

  /** A `Date` path in a request body: missing, a time, or text that does not cast. */
  datatype DateField = Missing | Parsed(ms: int) | Garbled

  /** The outcome of validating a body: the document, or the paths that failed, in schema order. */
  datatype Validated<T, F> = Accepted(value: T) | Rejected(paths: seq<F>)

  function OrEmpty(s: Option<string>): string
  {
    if s.Some? then s.value else ""
  }

  // ---------------------------------------------------------------------
  // Gate passes.
  // ---------------------------------------------------------------------

  datatype GateField = GateDate | GateType | GateIssuedTo | GatePurpose | GateItems

  const PassTypes: seq<string> := ["permanent", "temporary"]

  /** A gate-pass body; a missing required string is "", a missing optional one `None`, missing items `[]`. */
  datatype GatePassForm = GatePassForm(
    date: DateField,
    passType: string,
    department: Option<string>,
    issuedTo: string,
    purpose: string,
    vehicleType: Option<string>,
    vehicleRegNo: Option<string>,
    items: seq<string>)

  datatype GatePass = GatePass(
    date: int,
    passType: string,
    department: string,
    issuedTo: string,
    purpose: string,
    vehicleType: string,
    vehicleRegNo: string,
    items: seq<string>)

  /** What every stored gate pass satisfies. */
  predicate GatePassValid(g: GatePass)
  {
    g.passType in PassTypes && g.issuedTo != "" && g.purpose != "" && |g.items| > 0
  }

  function When<F>(bad: bool, path: F): seq<F>
  {
    if bad then [path] else []
  }

  /** The failing paths: a date that is missing or does not cast, a type outside the enum, an empty required string, no items. */
  function GatePassErrors(f: GatePassForm): (errs: seq<GateField>)
    ensures GateDate in errs <==> !f.date.Parsed?
    ensures GateType in errs <==> f.passType !in PassTypes
    ensures GateIssuedTo in errs <==> f.issuedTo == ""
    ensures GatePurpose in errs <==> f.purpose == ""
    ensures GateItems in errs <==> |f.items| == 0
  {
    When(!f.date.Parsed?, GateDate)
      + When(f.passType !in PassTypes, GateType)
      + When(f.issuedTo == "", GateIssuedTo)
      + When(f.purpose == "", GatePurpose)
      + When(|f.items| == 0, GateItems)
  }

  /** `new GatePass(body).validate()`. */
  function ValidateGatePass(f: GatePassForm): (r: Validated<GatePass, GateField>)
    ensures r.Rejected? <==> GatePassErrors(f) != []
    ensures r.Rejected? ==> r.paths == GatePassErrors(f)
    ensures r.Accepted? ==> GatePassValid(r.value)
    ensures r.Accepted? ==>
      && r.value.passType == f.passType && r.value.issuedTo == f.issuedTo
      && r.value.purpose == f.purpose && r.value.items == f.items
      && r.value.date == f.date.ms
      && (f.department.None? ==> r.value.department == "")
      && (f.vehicleType.None? ==> r.value.vehicleType == "")
      && (f.vehicleRegNo.None? ==> r.value.vehicleRegNo == "")
      && (f.department.Some? ==> r.value.department == f.department.value)
      && (f.vehicleType.Some? ==> r.value.vehicleType == f.vehicleType.value)
      && (f.vehicleRegNo.Some? ==> r.value.vehicleRegNo == f.vehicleRegNo.value)
  {
    var errs := GatePassErrors(f);
    if errs != [] then Rejected(errs)
    else
      assert f.date.Parsed? && f.passType in PassTypes && |f.items| > 0;
      Accepted(GatePass(f.date.ms, f.passType, OrEmpty(f.department), f.issuedTo, f.purpose,
                        OrEmpty(f.vehicleType), OrEmpty(f.vehicleRegNo), f.items))
  }

  /** The body a stored gate pass serialises to. */
  function GateBody(g: GatePass): GatePassForm
  {
    GatePassForm(Parsed(g.date), g.passType, Some(g.department), g.issuedTo, g.purpose,
                 Some(g.vehicleType), Some(g.vehicleRegNo), g.items)
  }

  /** A gate pass validates exactly when it satisfies the stored invariant, and then comes back unchanged. */
  lemma GatePassRoundTrip(g: GatePass)
    ensures ValidateGatePass(GateBody(g)).Accepted? <==> GatePassValid(g)
    ensures GatePassValid(g) ==> ValidateGatePass(GateBody(g)) == Accepted(g)
  {
  }

  // ---------------------------------------------------------------------
  // Vehicle passes.
  // ---------------------------------------------------------------------

  datatype VehicleField =
    | PassNo | VehicleDate | StaffCode | IssuedTo | ClassOrDept | RcOwner
    | VehicleReg | VehicleType | Authorization

  /** A vehicle-pass body; strings are as sent, before the `trim` setters. */
  datatype VehiclePassForm = VehiclePassForm(
    passNo: string,
    date: DateField,
    staffCode: string,
    issuedTo: string,
    classOrDept: string,
    rcOwner: string,
    rcNo: Option<string>,
    vehicleReg: string,
    vehicleType: string,
    licenseNo: Option<string>,
    authorization: string,
    remarks: Option<string>)

  datatype VehiclePass = VehiclePass(
    passNo: string,
    date: int,
    staffCode: string,
    issuedTo: string,
    classOrDept: string,
    rcOwner: string,
    rcNo: string,
    vehicleReg: string,
    vehicleType: string,
    licenseNo: string,
    authorization: string,
    remarks: string)

  /** Every string path is trimmed when it is set. */
  predicate AllTrimmed(v: VehiclePass)
  {
    && IsTrimmed(v.passNo) && IsTrimmed(v.staffCode) && IsTrimmed(v.issuedTo)
    && IsTrimmed(v.classOrDept) && IsTrimmed(v.rcOwner) && IsTrimmed(v.rcNo)
    && IsTrimmed(v.vehicleReg) && IsTrimmed(v.vehicleType) && IsTrimmed(v.licenseNo)
    && IsTrimmed(v.authorization) && IsTrimmed(v.remarks)
  }

  /** The required strings are non-empty. */
  predicate RequiredPresent(v: VehiclePass)
  {
    && v.passNo != "" && v.staffCode != "" && v.issuedTo != "" && v.classOrDept != ""
    && v.rcOwner != "" && v.vehicleReg != "" && v.vehicleType != "" && v.authorization != ""
  }

  /** The paths in schema order. */
  const VehicleFields: seq<VehicleField> :=
    [PassNo, VehicleDate, StaffCode, IssuedTo, ClassOrDept, RcOwner, VehicleReg, VehicleType, Authorization]

  /** The text sent for a required string path ("" for the date, which is not one). */
  function RequiredText(f: VehiclePassForm, fld: VehicleField): string
  {
    match fld
    case PassNo => f.passNo
    case VehicleDate => ""
    case StaffCode => f.staffCode
    case IssuedTo => f.issuedTo
    case ClassOrDept => f.classOrDept
    case RcOwner => f.rcOwner
    case VehicleReg => f.vehicleReg
    case VehicleType => f.vehicleType
    case Authorization => f.authorization
  }

  /** Required validators run on the trimmed values, so a blank value fails like a missing one. */
  predicate Fails(f: VehiclePassForm, fld: VehicleField)
  {
    if fld == VehicleDate then !f.date.Parsed? else Trim(RequiredText(f, fld)) == ""
  }

  /** The paths of `flds` that fail, in the order of `flds`. */
  function FailingAmong(f: VehiclePassForm, flds: seq<VehicleField>): (errs: seq<VehicleField>)
    ensures forall fld :: fld in errs <==> fld in flds && Fails(f, fld)
    ensures errs == [] <==> forall fld :: fld in flds ==> !Fails(f, fld)
  {
    if flds == [] then []
    else When(Fails(f, flds[0]), flds[0]) + FailingAmong(f, flds[1..])
  }

  lemma AllVehicleFieldsListed(fld: VehicleField)
    ensures fld in VehicleFields
  {
    match fld
    case PassNo => assert VehicleFields[0] == fld;
    case VehicleDate => assert VehicleFields[1] == fld;
    case StaffCode => assert VehicleFields[2] == fld;
    case IssuedTo => assert VehicleFields[3] == fld;
    case ClassOrDept => assert VehicleFields[4] == fld;
    case RcOwner => assert VehicleFields[5] == fld;
    case VehicleReg => assert VehicleFields[6] == fld;
    case VehicleType => assert VehicleFields[7] == fld;
    case Authorization => assert VehicleFields[8] == fld;
  }

  /** The failing paths, in schema order. */
  function VehiclePassErrors(f: VehiclePassForm): (errs: seq<VehicleField>)
    ensures forall fld :: fld in errs <==> Fails(f, fld)
    ensures errs == [] <==> forall fld :: !Fails(f, fld)
  {
    assert forall fld :: fld in VehicleFields by {
      forall fld: VehicleField
        ensures fld in VehicleFields
      {
        AllVehicleFieldsListed(fld);
      }
    }
    FailingAmong(f, VehicleFields)
  }

  /** `new VehiclePass(body).validate()`: trim, fill the defaults, check the required paths. */
  function ValidateVehiclePass(f: VehiclePassForm): (r: Validated<VehiclePass, VehicleField>)
    ensures r.Rejected? <==> VehiclePassErrors(f) != []
    ensures r.Rejected? ==> r.paths == VehiclePassErrors(f)
    ensures r.Accepted? ==> AllTrimmed(r.value) && RequiredPresent(r.value)
    ensures r.Accepted? ==>
      && (f.rcNo.None? ==> r.value.rcNo == "")
      && (f.licenseNo.None? ==> r.value.licenseNo == "")
      && (f.remarks.None? ==> r.value.remarks == "")
    // An accepted body had a date, and the stored document is that body trimmed path by path.
    ensures r.Accepted? ==> f.date.Parsed? && r.value == TrimmedPass(f, f.date.ms)
  {
    var errs := VehiclePassErrors(f);
    if errs != [] then Rejected(errs)
    else
      PassingFormIsPresent(f);
      Accepted(TrimmedPass(f, f.date.ms))
  }

  /** A body with no failing path has a date and a non-blank value for every required string. */
  lemma PassingFormIsPresent(f: VehiclePassForm)
    requires VehiclePassErrors(f) == []
    ensures f.date.Parsed?
    ensures Trim(f.passNo) != "" && Trim(f.staffCode) != "" && Trim(f.issuedTo) != ""
    ensures Trim(f.classOrDept) != "" && Trim(f.rcOwner) != "" && Trim(f.vehicleReg) != ""
    ensures Trim(f.vehicleType) != "" && Trim(f.authorization) != ""
  {
    assert !Fails(f, VehicleDate) && !Fails(f, PassNo) && !Fails(f, StaffCode) && !Fails(f, IssuedTo);
    assert !Fails(f, ClassOrDept) && !Fails(f, RcOwner) && !Fails(f, VehicleReg);
    assert !Fails(f, VehicleType) && !Fails(f, Authorization);
  }

  /** The document a body casts to: every string trimmed, a missing optional string defaulting to "". */
  function TrimmedPass(f: VehiclePassForm, date: int): (v: VehiclePass)
    ensures AllTrimmed(v)
    ensures v.passNo == Trim(f.passNo) && v.date == date
    ensures && v.staffCode == Trim(f.staffCode) && v.issuedTo == Trim(f.issuedTo)
            && v.classOrDept == Trim(f.classOrDept) && v.rcOwner == Trim(f.rcOwner)
            && v.vehicleReg == Trim(f.vehicleReg) && v.vehicleType == Trim(f.vehicleType)
            && v.authorization == Trim(f.authorization)
    ensures v.rcNo == Trim(OrEmpty(f.rcNo)) && v.licenseNo == Trim(OrEmpty(f.licenseNo))
    ensures v.remarks == Trim(OrEmpty(f.remarks))
  {
    VehiclePass(
      Trim(f.passNo), date, Trim(f.staffCode), Trim(f.issuedTo), Trim(f.classOrDept),
      Trim(f.rcOwner), Trim(OrEmpty(f.rcNo)), Trim(f.vehicleReg), Trim(f.vehicleType),
      Trim(OrEmpty(f.licenseNo)), Trim(f.authorization), Trim(OrEmpty(f.remarks)))
  }

  function VehicleBody(v: VehiclePass): VehiclePassForm
  {
    VehiclePassForm(v.passNo, Parsed(v.date), v.staffCode, v.issuedTo, v.classOrDept, v.rcOwner,
                    Some(v.rcNo), v.vehicleReg, v.vehicleType, Some(v.licenseNo), v.authorization, Some(v.remarks))
  }

  /** Saving a stored pass again changes nothing: its values are already trimmed and present. */
  lemma VehiclePassRoundTrip(v: VehiclePass)
    requires AllTrimmed(v) && RequiredPresent(v)
    ensures ValidateVehiclePass(VehicleBody(v)) == Accepted(v)
  {
    TrimOfTrimmed(v.passNo);
    TrimOfTrimmed(v.staffCode);
    TrimOfTrimmed(v.issuedTo);
    TrimOfTrimmed(v.classOrDept);
    TrimOfTrimmed(v.rcOwner);
    TrimOfTrimmed(v.rcNo);
    TrimOfTrimmed(v.vehicleReg);
    TrimOfTrimmed(v.vehicleType);
    TrimOfTrimmed(v.licenseNo);
    TrimOfTrimmed(v.authorization);
    TrimOfTrimmed(v.remarks);
    var body := VehicleBody(v);
    forall fld
      ensures !Fails(body, fld)
    {
    }
  }

  /** Validation is idempotent: what it stores validates to itself. */
  lemma ValidateVehiclePassIdempotent(f: VehiclePassForm)
    requires ValidateVehiclePass(f).Accepted?
    ensures ValidateVehiclePass(VehicleBody(ValidateVehiclePass(f).value)) == ValidateVehiclePass(f)
  {
    VehiclePassRoundTrip(ValidateVehiclePass(f).value);
  }

  /** A required path sent as white space only is refused, as if it were missing. */
  lemma BlankPassNoRejected(f: VehiclePassForm)
    requires forall i :: 0 <= i < |f.passNo| ==> IsJsSpace(f.passNo[i])
    ensures ValidateVehiclePass(f).Rejected? && PassNo in ValidateVehiclePass(f).paths
  {
    TrimCutsSpace(f.passNo);
  }

  function PassNumber(v: VehiclePass): string
  {
    v.passNo
  }

  predicate PassNoTaken(store: seq<VehiclePass>, passNo: string)
  {
    exists i :: 0 <= i < |store| && store[i].passNo == passNo
  }

  datatype VehicleOutcome = VehicleOutcome(store: seq<VehiclePass>, status: int)

  /**
   * POST `/` of the vehicle routes: 400 when validation fails or when the
   * unique index already holds the (trimmed) pass number, 201 otherwise.
   */
  function CreateVehiclePass(store: seq<VehiclePass>, f: VehiclePassForm): (r: VehicleOutcome)
    ensures r.status == 201 || r.status == 400
    ensures r.status == 400 <==> ValidateVehiclePass(f).Rejected? || PassNoTaken(store, Trim(f.passNo))
    ensures r.status == 400 ==> r.store == store
    ensures r.status == 201 ==> f.date.Parsed? && r.store == store + [TrimmedPass(f, f.date.ms)]
  {
    match ValidateVehiclePass(f)
    case Rejected(_) => VehicleOutcome(store, 400)
    case Accepted(v) =>
      if PassNoTaken(store, v.passNo) then VehicleOutcome(store, 400)
      else VehicleOutcome(store + [v], 201)
  }

  /** Creation keeps pass numbers unique. */
  lemma CreatePreservesUniquePassNo(store: seq<VehiclePass>, f: VehiclePassForm)
    requires UniqueKeys(store, PassNumber)
    ensures UniqueKeys(CreateVehiclePass(store, f).store, PassNumber)
  {
    var r := CreateVehiclePass(store, f);
    if r.status == 201 {
      var v := ValidateVehiclePass(f).value;
      assert r.store == store + [v];
      assert !PassNoTaken(store, v.passNo);
      forall i, j | 0 <= i < j < |r.store|
        ensures r.store[i].passNo != r.store[j].passNo
      {
        assert r.store[i] == store[i];
        if j < |store| {
          assert r.store[j] == store[j];
        }
      }
    }
  }

  /** Pass numbers differing only in surrounding white space are the same number. */
  lemma PaddedPassNoIsDuplicate(store: seq<VehiclePass>, f: VehiclePassForm, i: nat)
    requires i < |store| && store[i].passNo == Trim(f.passNo)
    ensures CreateVehiclePass(store, f).status == 400
  {
  }
}

=== FILE: repair_requests.dfy ===
/**
 * Repair requests (`models/RepairRequest.js`, `routes/repairRequestRoutes.js`):
 * creating a request with an optional attachment, the role-based list
 * filter, and the remark operations (append, list, flatten, mark seen).
 */
module RepairRequests {
  import opened Common
  import opened Text
  import opened Errors
  import opened Uploads

  /**
   * A remark. `seen` is `None` for a remark stored without the field; new
   * remarks get the schema default `false`.
   */
  datatype Remark = Remark(
    id: nat,
    text: string,
    enteredBy: string,
    date: int,
    isVerified: bool,
    seen: Option<bool>)

  datatype Request = Request(
    id: nat,
    username: string,
    department: string,
    email: string,
    description: string,
    isNewRequirement: bool,
    role: string,
    fileUrl: string,
    status: string,
    assignedTo: string,
    isVerified: bool,
    remarks: seq<Remark>,
    createdAt: int)

  const Pending: string := "Pending"

  function RequestId(r: Request): nat
  {
    r.id
  }

  function Find(store: seq<Request>, id: nat): Option<nat>
  {
    IndexOf(store, RequestId, id)
  }

  // ---------------------------------------------------------------------
  // POST `/`.
  // ---------------------------------------------------------------------

  /** The multipart body's text fields; a missing or empty field is "". */
  datatype RequestForm = RequestForm(
    username: string,
    department: string,
    description: string,
    role: string,
    email: string,
    isNewRequirement: Option<bool>)

  /** The schema's `required` fields. */
  predicate FormValid(f: RequestForm)
  {
    f.username != "" && f.department != "" && f.description != "" && f.role != ""
  }

  const UploadsPrefix: string := "/uploads/"

  /**
   * The outcome of POST `/`: multer rejected the attachment and passed the
   * error on (the handler never runs), the save failed with 500, or the
   * request was stored and answered with 201. `mailAttempted` says whether
   * the handler tried to send the notification mail.
   */
  datatype CreateOutcome =
    | Forwarded(error: AppError)
    | Failed(status: int)
    | Saved(store: seq<Request>, status: int, mailAttempted: bool)

  function FileUrl(upload: Option<UploadFile>, fileTime: nat): string
  {
    if upload.Some? then UploadsPrefix + RepairStoredName(fileTime, upload.value.originalName) else ""
  }

  function NewRequest(id: nat, f: RequestForm, upload: Option<UploadFile>, fileTime: nat, now: int): Request
  {
    Request(
      id, f.username, f.department, f.email, f.description,
      if f.isNewRequirement.Some? then f.isNewRequirement.value else false,
      f.role, FileUrl(upload, fileTime), Pending, "", false, [], now)
  }

  /**
   * POST `/` with an optional attachment. `fileTime` is the clock reading
   * the storage engine uses for the file name, `now` the one `createdAt`
   * defaults to.
   */
  function Create(store: seq<Request>, f: RequestForm, upload: Option<UploadFile>, fileTime: nat, now: int): (r: CreateOutcome)
    ensures r.Forwarded? <==> upload.Some? && Receive(RepairFileFilter, upload.value).Reject?
    ensures r.Forwarded? ==> r.error == Receive(RepairFileFilter, upload.value).error
    ensures r.Failed? <==> !r.Forwarded? && !FormValid(f)
    ensures r.Failed? ==> r.status == 500
    ensures r.Saved? ==>
      && r.status == 201
      && r.mailAttempted
      && |r.store| == |store| + 1
      && r.store[..|store|] == store
      && var q := r.store[|store|];
      && (forall i :: 0 <= i < |store| ==> store[i].id != q.id)
      && q.username == f.username && q.department == f.department
      && q.description == f.description && q.role == f.role
      && q.email == f.email
      && q.status == Pending && q.assignedTo == "" && !q.isVerified && q.remarks == []
      && q.createdAt == now
      && (f.isNewRequirement.None? ==> !q.isNewRequirement)
      && (f.isNewRequirement.Some? ==> q.isNewRequirement == f.isNewRequirement.value)
      && (upload.None? <==> q.fileUrl == "")
      && q.fileUrl == FileUrl(upload, fileTime)
  {
    if upload.Some? && Receive(RepairFileFilter, upload.value).Reject? then
      Forwarded(Receive(RepairFileFilter, upload.value).error)
    else if !FormValid(f) then Failed(500)
    else
      var q := NewRequest(FreshKey(store, RequestId), f, upload, fileTime, now);
      Saved(store + [q], 201, true)
  }

  /** Creation keeps every id unique. */
  lemma CreatePreservesUniqueIds(store: seq<Request>, f: RequestForm, upload: Option<UploadFile>, fileTime: nat, now: int)
    requires UniqueKeys(store, RequestId)
    ensures var r := Create(store, f, upload, fileTime, now);
      r.Saved? ==> UniqueKeys(r.store, RequestId)
  {
    var r := Create(store, f, upload, fileTime, now);
    if r.Saved? {
      AppendFreshKey(store, RequestId, NewRequest(FreshKey(store, RequestId), f, upload, fileTime, now));
    }
  }

  /**
   * The attachment's URL is "/uploads/" followed by a name made only of
   * letters, digits, '.', '_' and '-': the name has no '/', so it stays in
   * the upload directory.
   */
  lemma FileUrlStaysInUploads(name: string, mime: string, size: nat, fileTime: nat)
    ensures var url := FileUrl(Some(UploadFile(name, mime, size)), fileTime);
      && HasPrefix(url, UploadsPrefix)
      && forall i :: |UploadsPrefix| <= i < |url| ==> SafeChar(url[i]) || url[i] == '_' || url[i] == '-'
  {
    var url := FileUrl(Some(UploadFile(name, mime, size)), fileTime);
    var stored := RepairStoredName(fileTime, name);
    assert url == UploadsPrefix + stored;
    forall i | |UploadsPrefix| <= i < |url|
      ensures SafeChar(url[i]) || url[i] == '_' || url[i] == '-'
    {
      assert url[i] == stored[i - |UploadsPrefix|];
    }
  }

  // ---------------------------------------------------------------------
  // POST `/:id/remarks`.
  // ---------------------------------------------------------------------

  function FreshRemarkIdIn(rs: seq<Remark>): (n: nat)
    ensures forall j :: 0 <= j < |rs| ==> rs[j].id < n
  {
    if |rs| == 0 then 0
    else
      var rest := FreshRemarkIdIn(rs[1..]);
      assert forall j :: 1 <= j < |rs| ==> rs[j] == rs[1..][j - 1];
      if rs[0].id < rest then rest else rs[0].id + 1
  }

  /** A remark id no stored remark has (a fresh subdocument `_id`). */
  function FreshRemarkId(store: seq<Request>): (n: nat)
    ensures forall i, j :: 0 <= i < |store| && 0 <= j < |store[i].remarks| ==> store[i].remarks[j].id < n
  {
    if |store| == 0 then 0
    else
      var here := FreshRemarkIdIn(store[0].remarks);
      var rest := FreshRemarkId(store[1..]);
      assert forall i :: 1 <= i < |store| ==> store[i] == store[1..][i - 1];
      if here < rest then rest else here
  }

  datatype RemarkOutcome = RemarkOutcome(store: seq<Request>, status: int, mailAttempted: bool)

  /**
   * `findByIdAndUpdate` with `$push`: the remark goes to the end of the
   * list. An unknown id yields `null`, whose `.email` throws, hence 500.
   * Update validators are off, so an empty `text` or `enteredBy` is stored
   * as it is.
   */
  function AddRemark(store: seq<Request>, id: nat, text: string, enteredBy: string, now: int): (r: RemarkOutcome)
    ensures Find(store, id).None? ==> r == RemarkOutcome(store, 500, false)
    ensures Find(store, id).Some? ==>
      var i := Find(store, id).value;
      var rs := store[i].remarks;
      && r.status == 200
      && |r.store| == |store|
      && (forall j :: 0 <= j < |store| && j != i ==> r.store[j] == store[j])
      && |r.store[i].remarks| == |rs| + 1
      && r.store[i].remarks[..|rs|] == rs
      && r.store[i].remarks[|rs|].text == text
      && r.store[i].remarks[|rs|].enteredBy == enteredBy
      && r.store[i].remarks[|rs|].seen == Some(false)
      && !r.store[i].remarks[|rs|].isVerified
      && r.store[i].(remarks := rs) == store[i]
      && (r.mailAttempted <==> store[i].email != "")
  {
    match Find(store, id)
    case None => RemarkOutcome(store, 500, false)
    case Some(i) =>
      var remark := Remark(FreshRemarkId(store), text, enteredBy, now, false, Some(false));
      var q := store[i].(remarks := store[i].remarks + [remark]);
      RemarkOutcome(store[i := q], 200, store[i].email != "")
  }

  /** The new remark's id is unused anywhere in the store. */
  lemma AddRemarkFreshId(store: seq<Request>, id: nat, text: string, enteredBy: string, now: int)
    requires Find(store, id).Some?
    ensures var i := Find(store, id).value;
      var r := AddRemark(store, id, text, enteredBy, now);
      forall k, j :: 0 <= k < |store| && 0 <= j < |store[k].remarks| ==>
        store[k].remarks[j].id != r.store[i].remarks[|store[i].remarks|].id
  {
  }

  // ---------------------------------------------------------------------
  // GET `/:id/remarks`.
  // ---------------------------------------------------------------------

  datatype RemarkList = Remarks(remarks: seq<Remark>) | Missing(reply: Reply)

  function GetRemarks(store: seq<Request>, id: nat): (r: RemarkList)
    ensures r.Missing? <==> forall i :: 0 <= i < |store| ==> store[i].id != id
    ensures r.Missing? ==> r.reply == Reply(404, "Request not found")
    ensures r.Remarks? ==> exists i :: 0 <= i < |store| && store[i].id == id && store[i].remarks == r.remarks
  {
    match Find(store, id)
    case None => Missing(Reply(404, "Request not found"))
    case Some(i) => Remarks(store[i].remarks)
  }

  /** Reading remarks right after adding one ends with that remark. */
  lemma AddThenGetRemarks(store: seq<Request>, id: nat, text: string, enteredBy: string, now: int)
    requires Find(store, id).Some?
    requires UniqueKeys(store, RequestId)
    ensures var g := GetRemarks(AddRemark(store, id, text, enteredBy, now).store, id);
      && g.Remarks?
      && |g.remarks| > 0
      && g.remarks[|g.remarks| - 1].text == text
      && g.remarks[|g.remarks| - 1].enteredBy == enteredBy
  {
    var i := Find(store, id).value;
    var s' := AddRemark(store, id, text, enteredBy, now).store;
    assert forall k :: 0 <= k < |s'| ==> s'[k].id == store[k].id;
    var g := GetRemarks(s', id);
    assert Find(s', id) == Some(i);
  }

  // ---------------------------------------------------------------------
  // GET `/all-remarks`.
  // ---------------------------------------------------------------------

  /** One row of `/all-remarks`: the remark with its request's id, requester and department. */
  datatype RemarkRow = RemarkRow(
    requestId: nat,
    remarkId: nat,
    username: string,
    department: string,
    text: string,
    enteredBy: string,
    date: int,
    seen: bool)

  /** `remark.seen || false`. */
  function SeenFlag(seen: Option<bool>): (b: bool)
    ensures b <==> seen == Some(true)
  {
    if seen.Some? then seen.value else false
  }

  function Row(q: Request, m: Remark): RemarkRow
  {
    RemarkRow(q.id, m.id, q.username, q.department, m.text, m.enteredBy, m.date, SeenFlag(m.seen))
  }

  function RowsOf(q: Request): (rows: seq<RemarkRow>)
    ensures |rows| == |q.remarks|
    ensures forall j :: 0 <= j < |rows| ==> rows[j] == Row(q, q.remarks[j])
  {
    seq(|q.remarks|, j requires 0 <= j < |q.remarks| => Row(q, q.remarks[j]))
  }

  /** How many remarks the requests hold altogether. */
  function RemarkTotal(store: seq<Request>): nat
  {
    if |store| == 0 then 0 else |store[0].remarks| + RemarkTotal(store[1..])
  }

  /** The two nested `forEach` loops: requests in natural order, each request's remarks in order. */
  function AllRemarks(store: seq<Request>): (rows: seq<RemarkRow>)
    ensures |rows| == RemarkTotal(store)
  {
    if |store| == 0 then [] else RowsOf(store[0]) + AllRemarks(store[1..])
  }

  /** Where request `i`'s remarks begin among the rows. */
  function Offset(store: seq<Request>, i: nat): nat
    requires i <= |store|
  {
    if i == 0 then 0 else |store[0].remarks| + Offset(store[1..], i - 1)
  }

  /** Remark `j` of request `i` is the row at `Offset(store, i) + j`. */
  lemma {:induction false} AllRemarksAt(store: seq<Request>, i: nat, j: nat)
    requires i < |store| && j < |store[i].remarks|
    ensures Offset(store, i) + j < |AllRemarks(store)|
    ensures AllRemarks(store)[Offset(store, i) + j] == Row(store[i], store[i].remarks[j])
  {
    if i > 0 {
      AllRemarksAt(store[1..], i - 1, j);
    }
  }

  /** Every row comes from some remark of some request. */
  lemma {:induction false} AllRemarksFrom(store: seq<Request>, k: nat)
    requires k < |AllRemarks(store)|
    ensures exists i, j :: 0 <= i < |store| && 0 <= j < |store[i].remarks| && AllRemarks(store)[k] == Row(store[i], store[i].remarks[j])
  {
    if k < |store[0].remarks| {
      assert AllRemarks(store)[k] == Row(store[0], store[0].remarks[k]);
    } else {
      AllRemarksFrom(store[1..], k - |store[0].remarks|);
      var i, j :| 0 <= i < |store[1..]| && 0 <= j < |store[1..][i].remarks|
        && AllRemarks(store[1..])[k - |store[0].remarks|] == Row(store[1..][i], store[1..][i].remarks[j]);
      assert AllRemarks(store)[k] == Row(store[i + 1], store[i + 1].remarks[j]);
    }
  }

  // ---------------------------------------------------------------------
  // PATCH `/:requestId/remarks/:remarkId/mark-seen`.
  // ---------------------------------------------------------------------

  /** The position of the first remark with this id: what the positional `$` operator picks. */
  function FindRemark(rs: seq<Remark>, remarkId: nat): (r: Option<nat>)
    ensures r.Some? ==> r.value < |rs| && rs[r.value].id == remarkId
    ensures r.Some? ==> forall j :: 0 <= j < r.value ==> rs[j].id != remarkId
    ensures r.None? <==> forall j :: 0 <= j < |rs| ==> rs[j].id != remarkId
  {
    if |rs| == 0 then None
    else if rs[0].id == remarkId then Some(0)
    else
      match FindRemark(rs[1..], remarkId)
      case None => None
      case Some(j) => Some(j + 1)
  }

  const RemarkMissing: Reply := Reply(404, "Remark not found or already marked")

  /**
   * `updateOne` setting `remarks.$.seen` to true. `modifiedCount` is 0 both
   * when nothing matches and when the flag is already true, and either is a
   * 404.
   */
  function MarkSeen(store: seq<Request>, requestId: nat, remarkId: nat): (r: Outcome)
    ensures r.reply.status == 200 || r.reply == RemarkMissing
    ensures r.reply.status == 200 <==>
      && Find(store, requestId).Some?
      && var rs := store[Find(store, requestId).value].remarks;
      && FindRemark(rs, remarkId).Some?
      && rs[FindRemark(rs, remarkId).value].seen != Some(true)
    ensures r.reply.status != 200 ==> r.store == store
    ensures r.reply.status == 200 ==>
      var i := Find(store, requestId).value;
      var rs := store[i].remarks;
      var j := FindRemark(rs, remarkId).value;
      && |r.store| == |store|
      && (forall k :: 0 <= k < |store| && k != i ==> r.store[k] == store[k])
      && |r.store[i].remarks| == |rs|
      && (forall k :: 0 <= k < |rs| && k != j ==> r.store[i].remarks[k] == rs[k])
      && r.store[i].remarks[j].seen == Some(true)
      && r.store[i].remarks[j].(seen := rs[j].seen) == rs[j]
      && r.store[i].(remarks := rs) == store[i]
  {
    match Find(store, requestId)
    case None => Outcome(store, RemarkMissing)
    case Some(i) =>
      var rs := store[i].remarks;
      match FindRemark(rs, remarkId)
      case None => Outcome(store, RemarkMissing)
      case Some(j) =>
        if rs[j].seen == Some(true) then Outcome(store, RemarkMissing)
        else
          var q := store[i].(remarks := rs[j := rs[j].(seen := Some(true))]);
          Outcome(store[i := q], Reply(200, "Remark marked as seen"))
  }

  datatype Outcome = Outcome(store: seq<Request>, reply: Reply)

  /** Marking the same remark twice: the second call finds nothing to change. */
  lemma MarkSeenTwice(store: seq<Request>, requestId: nat, remarkId: nat)
    requires MarkSeen(store, requestId, remarkId).reply.status == 200
    ensures var s1 := MarkSeen(store, requestId, remarkId).store;
      MarkSeen(s1, requestId, remarkId) == Outcome(s1, RemarkMissing)
  {
    var i := Find(store, requestId).value;
    var rs := store[i].remarks;
    var j := FindRemark(rs, remarkId).value;
    var s1 := MarkSeen(store, requestId, remarkId).store;
    assert forall k :: 0 <= k < |s1| ==> s1[k].id == store[k].id;
    assert Find(s1, requestId) == Some(i);
    var rs1 := s1[i].remarks;
    assert forall k :: 0 <= k < |rs1| ==> rs1[k].id == rs[k].id;
    assert FindRemark(rs1, remarkId) == Some(j);
  }

  /** After marking, `/all-remarks` reports the remark as seen. */
  lemma MarkSeenShowsInAllRemarks(store: seq<Request>, requestId: nat, remarkId: nat)
    requires MarkSeen(store, requestId, remarkId).reply.status == 200
    ensures var s1 := MarkSeen(store, requestId, remarkId).store;
      var i := Find(store, requestId).value;
      var j := FindRemark(store[i].remarks, remarkId).value;
      && i < |s1| && j < |s1[i].remarks|
      && Offset(s1, i) + j < |AllRemarks(s1)|
      && AllRemarks(s1)[Offset(s1, i) + j].seen
  {
    var s1 := MarkSeen(store, requestId, remarkId).store;
    var i := Find(store, requestId).value;
    var j := FindRemark(store[i].remarks, remarkId).value;
    assert i < |s1| && j < |s1[i].remarks|;
    AllRemarksAt(s1, i, j);
  }

  // ---------------------------------------------------------------------
  // GET `/`.
  // ---------------------------------------------------------------------

  /**
   * A `dateFrom` / `dateTo` query parameter: absent (or empty), a date,
   * or text `new Date` cannot parse, which Mongoose refuses to cast.
   */
  datatype DateParam = NoDate | At(ms: int) | Unparseable

  /**
   * The query string. `username` and `department` are passed to the
   * filter as they are; the other parameters are tested for truthiness, so
   * "" stands for both absent and empty.
   */
  datatype ListQuery = ListQuery(
    username: string,
    role: string,
    department: string,
    search: string,
    status: string,
    assignedTo: string,
    dateFrom: DateParam,
    dateTo: DateParam)

  /**
   * `{ $regex: search, $options: "i" }` for a search term without regex
   * metacharacters: a case-insensitive substring test.
   */
  predicate Matches(pattern: string, field: string)
  {
    HasSubstring(ToLower(field), ToLower(pattern))
  }

  predicate SearchHit(q: Request, search: string)
  {
    Matches(search, q.username) || Matches(search, q.department) || Matches(search, q.description)
  }

  /** The `$or` clause of the filter as the handler leaves it: the search replaces the staff clause. */
  predicate OrClause(q: Request, p: ListQuery)
  {
    if Given(p.search) then SearchHit(q, p.search)
    else if p.role == "staff" then q.assignedTo == p.username || q.username == p.username
    else true
  }

  function Bound(d: DateParam): Option<int>
  {
    if d.At? then Some(d.ms) else None
  }

  /** The whole filter object the handler builds. */
  function Selected(q: Request, p: ListQuery): (r: bool)
    // A user sees only their own requests, from their own department.
    ensures r && p.role == "user" ==> q.username == p.username && q.department == p.department
    // Without a search term, staff see only what is assigned to them or raised by them ...
    ensures r && p.role == "staff" && !Given(p.search) ==> q.assignedTo == p.username || q.username == p.username
    // ... and with one, anything whose requester, department or description holds it, ignoring case.
    ensures r && Given(p.search) ==> SearchHit(q, p.search)
    ensures r && Given(p.status) ==> q.status == p.status
    ensures r && Given(p.assignedTo) ==> q.assignedTo == p.assignedTo
    // The request was created no earlier than `dateFrom` and on or before the day of `dateTo`.
    ensures r && p.dateFrom.At? ==> q.createdAt >= p.dateFrom.ms
    ensures r && p.dateTo.At? ==> q.createdAt / DayMs <= p.dateTo.ms / DayMs
    // Nothing else is asked of a request: one that meets every condition above is selected.
    ensures
      && (p.role == "user" ==> q.username == p.username && q.department == p.department)
      && (p.role == "staff" && !Given(p.search) ==> q.assignedTo == p.username || q.username == p.username)
      && (Given(p.search) ==> SearchHit(q, p.search))
      && (Given(p.status) ==> q.status == p.status)
      && (Given(p.assignedTo) ==> q.assignedTo == p.assignedTo)
      && (p.dateFrom.At? ==> q.createdAt >= p.dateFrom.ms)
      && (p.dateTo.At? ==> q.createdAt / DayMs <= p.dateTo.ms / DayMs)
      ==> r
  {
    && (p.role == "user" ==> q.username == p.username && q.department == p.department)
    && OrClause(q, p)
    && (Given(p.status) ==> q.status == p.status)
    && (Given(p.assignedTo) ==> q.assignedTo == p.assignedTo)
    && InRange(q.createdAt, Bound(p.dateFrom), Bound(p.dateTo))
  }

  function CreatedAt(q: Request): int
  {
    q.createdAt
  }

  datatype Listing = Listed(requests: seq<Request>) | Refused(reply: Reply)

  /** GET `/`: the selected requests, newest first; an unparseable date fails the query. */
  function List(store: seq<Request>, p: ListQuery): (r: Listing)
    ensures r.Refused? <==> p.dateFrom.Unparseable? || p.dateTo.Unparseable?
    ensures r.Refused? ==> r.reply == Reply(500, "Failed to get repair requests")
    ensures r.Listed? ==> NewestFirst(r.requests, CreatedAt)
    ensures r.Listed? ==> forall q :: q in r.requests <==> q in store && Selected(q, p)
    ensures r.Listed? ==> multiset(r.requests) == multiset(Filter(store, q => Selected(q, p)))
  {
    if p.dateFrom.Unparseable? || p.dateTo.Unparseable? then Refused(Reply(500, "Failed to get repair requests"))
    else
      var kept := Filter(store, q => Selected(q, p));
      var sorted := SortNewest(kept, CreatedAt);
      assert forall q :: q in sorted <==> q in kept by {
        forall q ensures q in sorted <==> q in kept {
          SortNewestMembers(kept, CreatedAt, q);
        }
      }
      Listed(sorted)
  }

  /** A user sees only requests under their own name and department. */
  lemma UserSeesOwn(store: seq<Request>, p: ListQuery, q: Request)
    requires p.role == "user"
    requires List(store, p).Listed? && q in List(store, p).requests
    ensures q.username == p.username && q.department == p.department
  {
  }

  /** Without a search term, a staff member sees only requests assigned to or raised by them. */
  lemma StaffSeesOwnWithoutSearch(store: seq<Request>, p: ListQuery, q: Request)
    requires p.role == "staff" && !Given(p.search)
    requires List(store, p).Listed? && q in List(store, p).requests
    ensures q.assignedTo == p.username || q.username == p.username
  {
  }

  /** A role other than "user" and "staff" with no other parameters sees every request. */
  lemma OtherRolesSeeAll(store: seq<Request>, role: string, q: Request)
    requires role != "user" && role != "staff"
    requires q in store
    ensures q in List(store, ListQuery("", role, "", "", "", "", NoDate, NoDate)).requests
  {
  }

  /** A request created at the very end of the `dateTo` day is still listed. */
  lemma DateToCoversWholeDay(store: seq<Request>, p: ListQuery, q: Request, day: int)
    requires p.dateFrom == NoDate && p.dateTo == At(day)
    requires p.role != "user" && p.role != "staff" && !Given(p.search) && !Given(p.status) && !Given(p.assignedTo)
    requires q in store && q.createdAt == EndOfDay(day)
    ensures q in List(store, p).requests
  {
  }

  function Sample(id: nat, username: string, assignedTo: string, description: string): Request
  {
    Request(id, username, "Civil", "", description, false, "user", "", Pending, assignedTo, false, [], 0)
  }

  /** A search term that occurs verbatim in a field matches it. */
  lemma ContainedMatches(pattern: string, field: string)
    requires HasSubstring(field, pattern)
    ensures Matches(pattern, field)
  {
    ToLowerKeepsSubstring(field, pattern);
  }

  /** The match ignores case on both sides: lower-casing the term or the field changes nothing. */
  lemma MatchesIgnoresCase(pattern: string, field: string)
    ensures Matches(pattern, field) <==> Matches(ToLower(pattern), ToLower(field))
  {
    ToLowerIdempotent(pattern);
    ToLowerIdempotent(field);
  }

  /**
   * As written, a staff member who types a search term sees matching
   * requests of anybody: `bob` neither raised nor was assigned the request
   * of `alice`, yet finds it by searching for "leak".
   */
  lemma SearchLiftsStaffRestriction()
    ensures var store := [Sample(1, "alice", "carol", "Roof leak")];
      var p := ListQuery("bob", "staff", "", "leak", "", "", NoDate, NoDate);
      && store[0] in List(store, p).requests
      && store[0].assignedTo != "bob" && store[0].username != "bob"
  {
    HasSubstringAt("Roof leak", "leak", 5);
    ContainedMatches("leak", "Roof leak");
  }

  /** The filter with the staff clause and the search both applied, as the role restriction intends. */
  predicate IntendedSelected(q: Request, p: ListQuery)
  {
    && (p.role == "user" ==> q.username == p.username && q.department == p.department)
    && (p.role == "staff" ==> q.assignedTo == p.username || q.username == p.username)
    && (Given(p.search) ==> SearchHit(q, p.search))
    && (Given(p.status) ==> q.status == p.status)
    && (Given(p.assignedTo) ==> q.assignedTo == p.assignedTo)
    && InRange(q.createdAt, Bound(p.dateFrom), Bound(p.dateTo))
  }

  function IntendedList(store: seq<Request>, p: ListQuery): (r: Listing)
    ensures r.Refused? <==> p.dateFrom.Unparseable? || p.dateTo.Unparseable?
    ensures r.Refused? ==> r.reply == Reply(500, "Failed to get repair requests")
    ensures r.Listed? ==> NewestFirst(r.requests, CreatedAt)
    ensures r.Listed? ==> forall q :: q in r.requests <==> q in store && IntendedSelected(q, p)
    ensures r.Listed? ==> multiset(r.requests) == multiset(Filter(store, q => IntendedSelected(q, p)))
  {
    if p.dateFrom.Unparseable? || p.dateTo.Unparseable? then Refused(Reply(500, "Failed to get repair requests"))
    else
      var kept := Filter(store, q => IntendedSelected(q, p));
      var sorted := SortNewest(kept, CreatedAt);
      assert forall q :: q in sorted <==> q in kept by {
        forall q ensures q in sorted <==> q in kept {
          SortNewestMembers(kept, CreatedAt, q);
        }
      }
      Listed(sorted)
  }

  /**
   * With the clauses conjoined, a staff member sees only their own requests
   * whatever it searches for, and the search still narrows the list as
   * before.
   */
  lemma IntendedStaffSeesOwn(store: seq<Request>, p: ListQuery, q: Request)
    requires p.role == "staff"
    requires IntendedList(store, p).Listed? && q in IntendedList(store, p).requests
    ensures q.assignedTo == p.username || q.username == p.username
    ensures q in List(store, p).requests
  {
  }

  /** The two filters differ only for a staff search: everywhere else they select the same requests. */
  lemma IntendedAgreesElsewhere(q: Request, p: ListQuery)
    requires p.role != "staff" || !Given(p.search)
    ensures IntendedSelected(q, p) <==> Selected(q, p)
  {
  }
}

=== FILE: room_booking.dfy ===
/**
 * Room bookings (`models/RoomBooking.js`, `routes/roomBooking.js`): the
 * booking record, the overlap rule that guards creation, the list queries,
 * and the single-field updates.
 *
 * The collection is a `seq<Booking>` in insertion order. Each handler is a
 * function from the collection and the request to the new collection and
 * the reply.
 */
module RoomBookings {
  import opened Common
  import opened Text

  /** The five furniture counts, each defaulting to 0. */
  datatype Furniture = Furniture(
    tablesWithCloth: int,
    tablesWithoutCloth: int,
    executiveChairs: int,
    participantChairs: int,
    additionalChairs: int)

  /**
   * A stored booking. `date`, `timeFrom` and `timeTo` are strings, so the
   * overlap rule compares them as strings. `createdAt` is the timestamp
   * `timestamps: true` adds.
   */
  datatype Booking = Booking(
    id: nat,
    username: string,
    department: string,
    mobileNumber: string,
    roomType: string,
    date: string,
    timeFrom: string,
    timeTo: string,
    purpose: string,
    facilities: seq<string>,
    furniture: Furniture,
    remarks: Option<string>,
    agreed: Option<bool>,
    assignedStaff: Option<string>,
    status: string,
    adminRemarks: Option<string>,
    userRemarks: Option<string>,
    createdAt: int)

  /**
   * The request body of a new booking. A required string field that is
   * missing is "" (both fail Mongoose's `required`); optional fields are
   * `Option`s.
   */
  datatype BookingForm = BookingForm(
    username: string,
    department: string,
    mobileNumber: string,
    roomType: string,
    date: string,
    timeFrom: string,
    timeTo: string,
    purpose: string,
    facilities: seq<string>,
    tablesWithCloth: Option<int>,
    tablesWithoutCloth: Option<int>,
    executiveChairs: Option<int>,
    participantChairs: Option<int>,
    additionalChairs: Option<int>,
    remarks: Option<string>,
    agreed: Option<bool>,
    assignedStaff: Option<string>,
    status: Option<string>,
    adminRemarks: Option<string>,
    userRemarks: Option<string>)

  const DefaultStatus: string := "Pending"

  // ---------------------------------------------------------------------
  // Schema.
  // ---------------------------------------------------------------------

  /** The schema's `required` fields: eight non-empty strings and a boolean `agreed`. */
  predicate FormValid(f: BookingForm)
  {
    && f.username != "" && f.department != "" && f.mobileNumber != ""
    && f.roomType != "" && f.date != "" && f.timeFrom != "" && f.timeTo != ""
    && f.purpose != "" && f.agreed.Some?
  }

  /** What `save()` demands of a whole document: the same required paths, `agreed` not null. */
  predicate BookingValid(b: Booking)
  {
    && b.username != "" && b.department != "" && b.mobileNumber != ""
    && b.roomType != "" && b.date != "" && b.timeFrom != "" && b.timeTo != ""
    && b.purpose != "" && b.agreed.Some?
  }

  function OrZero(n: Option<int>): int
  {
    if n.Some? then n.value else 0
  }

  /** `new RoomBooking(body)`: the body's fields with the schema defaults filled in. */
  function NewBooking(id: nat, f: BookingForm, now: int): (b: Booking)
    requires FormValid(f)
    ensures BookingValid(b)
    ensures b.id == id && b.createdAt == now
    ensures b.username == f.username && b.department == f.department && b.mobileNumber == f.mobileNumber
    ensures b.roomType == f.roomType && b.date == f.date
    ensures b.timeFrom == f.timeFrom && b.timeTo == f.timeTo && b.purpose == f.purpose
    ensures b.agreed == f.agreed
    ensures f.status.None? ==> b.status == DefaultStatus
    ensures f.status.Some? ==> b.status == f.status.value
    ensures b.facilities == f.facilities && b.remarks == f.remarks && b.assignedStaff == f.assignedStaff
    ensures b.adminRemarks == f.adminRemarks && b.userRemarks == f.userRemarks
    ensures f.tablesWithCloth.None? ==> b.furniture.tablesWithCloth == 0
    ensures f.tablesWithoutCloth.None? ==> b.furniture.tablesWithoutCloth == 0
    ensures f.executiveChairs.None? ==> b.furniture.executiveChairs == 0
    ensures f.participantChairs.None? ==> b.furniture.participantChairs == 0
    ensures f.additionalChairs.None? ==> b.furniture.additionalChairs == 0
    ensures f.tablesWithCloth.Some? ==> b.furniture.tablesWithCloth == f.tablesWithCloth.value
    ensures f.tablesWithoutCloth.Some? ==> b.furniture.tablesWithoutCloth == f.tablesWithoutCloth.value
    ensures f.executiveChairs.Some? ==> b.furniture.executiveChairs == f.executiveChairs.value
    ensures f.participantChairs.Some? ==> b.furniture.participantChairs == f.participantChairs.value
    ensures f.additionalChairs.Some? ==> b.furniture.additionalChairs == f.additionalChairs.value
  {
    Booking(
      id, f.username, f.department, f.mobileNumber, f.roomType, f.date, f.timeFrom, f.timeTo,
      f.purpose, f.facilities,
      Furniture(OrZero(f.tablesWithCloth), OrZero(f.tablesWithoutCloth), OrZero(f.executiveChairs),
                OrZero(f.participantChairs), OrZero(f.additionalChairs)),
      f.remarks, f.agreed, f.assignedStaff,
      if f.status.Some? then f.status.value else DefaultStatus,
      f.adminRemarks, f.userRemarks, now)
  }

  // ---------------------------------------------------------------------
  // Identity.
  // ---------------------------------------------------------------------

  function BookingId(b: Booking): nat
  {
    b.id
  }

  /** `findById`: the position of the booking with this id. */
  function Find(store: seq<Booking>, id: nat): Option<nat>
  {
    IndexOf(store, BookingId, id)
  }

  // ---------------------------------------------------------------------
  // The overlap rule of POST `/`.
  // ---------------------------------------------------------------------

  /**
   * The query of the overlap check: a stored booking for the same room on
   * the same date that starts before the new one ends and ends after the
   * new one starts, comparing the time strings. The booking's status plays
   * no part.
   */
  function Conflicts(existing: Booking, f: BookingForm): (r: bool)
    // Only a booking of the same room on the same date can conflict ...
    ensures r ==> existing.roomType == f.roomType && existing.date == f.date
    // ... the test is strict, so back-to-back bookings never conflict ...
    ensures r ==> existing.timeFrom != f.timeTo && f.timeFrom != existing.timeTo
    // ... and an empty end time, the least string, never conflicts.
    ensures r ==> existing.timeTo != "" && f.timeTo != ""
  {
    StrLessIrreflexive(f.timeTo);
    StrLessIrreflexive(existing.timeTo);
    && existing.roomType == f.roomType
    && existing.date == f.date
    && StrLess(existing.timeFrom, f.timeTo)
    && StrLess(f.timeFrom, existing.timeTo)
  }

  /** Two stored bookings occupy the same room at overlapping times. */
  predicate Clash(a: Booking, b: Booking)
  {
    && a.roomType == b.roomType
    && a.date == b.date
    && StrLess(a.timeFrom, b.timeTo)
    && StrLess(b.timeFrom, a.timeTo)
  }

  /** No two stored bookings clash. */
  predicate NoDoubleBooking(store: seq<Booking>)
  {
    forall i, j :: 0 <= i < j < |store| ==> !Clash(store[i], store[j])
  }

  predicate AnyConflict(store: seq<Booking>, f: BookingForm)
  {
    exists i :: 0 <= i < |store| && Conflicts(store[i], f)
  }

  datatype Outcome = Outcome(store: seq<Booking>, reply: Reply)

  const ConflictMessage: string := "Room already booked for the selected time range."

  /**
   * POST `/`: 409 when a stored booking conflicts; otherwise the body is
   * saved, failing with 500 when it misses a required field.
   */
  function Create(store: seq<Booking>, f: BookingForm, now: int): (r: Outcome)
    ensures r.reply.status == 409 <==> AnyConflict(store, f)
    ensures r.reply.status == 500 <==> !AnyConflict(store, f) && !FormValid(f)
    ensures r.reply.status == 200 <==> !AnyConflict(store, f) && FormValid(f)
    ensures r.reply.status != 200 ==> r.store == store
    ensures r.reply.status == 200 ==>
      && |r.store| == |store| + 1
      && r.store[..|store|] == store
      && r.store[|store|] == NewBooking(FreshKey(store, BookingId), f, now)
  {
    if AnyConflict(store, f) then Outcome(store, Reply(409, ConflictMessage))
    else if !FormValid(f) then Outcome(store, Reply(500, "Something went wrong"))
    else Outcome(store + [NewBooking(FreshKey(store, BookingId), f, now)], Reply(200, "Booking created successfully"))
  }

  /** A stored booking conflicts with a form exactly when it clashes with the booking the form becomes. */
  lemma ConflictIsClash(existing: Booking, id: nat, f: BookingForm, now: int)
    requires FormValid(f)
    ensures Conflicts(existing, f) <==> Clash(existing, NewBooking(id, f, now))
  {
  }

  /** Creation keeps the collection free of double bookings. */
  lemma CreatePreservesNoDoubleBooking(store: seq<Booking>, f: BookingForm, now: int)
    requires NoDoubleBooking(store)
    ensures NoDoubleBooking(Create(store, f, now).store)
  {
    var r := Create(store, f, now);
    if r.reply.status == 200 {
      var b := NewBooking(FreshKey(store, BookingId), f, now);
      forall i, j | 0 <= i < j < |r.store|
        ensures !Clash(r.store[i], r.store[j])
      {
        if j == |store| {
          assert r.store[i] == store[i];
          assert !Conflicts(store[i], f);
          ConflictIsClash(store[i], FreshKey(store, BookingId), f, now);
        } else {
          assert r.store[i] == store[i] && r.store[j] == store[j];
        }
      }
    }
  }

  /** Creation keeps every id unique. */
  lemma CreatePreservesUniqueIds(store: seq<Booking>, f: BookingForm, now: int)
    requires UniqueKeys(store, BookingId)
    ensures UniqueKeys(Create(store, f, now).store, BookingId)
  {
    var r := Create(store, f, now);
    if r.reply.status == 200 {
      AppendFreshKey(store, BookingId, NewBooking(FreshKey(store, BookingId), f, now));
    }
  }

  /** The status of a stored booking does not matter: a cancelled booking still blocks its slot. */
  lemma StatusIgnored(existing: Booking, f: BookingForm, status: string)
    ensures Conflicts(existing.(status := status), f) == Conflicts(existing, f)
  {
  }

  // ---------------------------------------------------------------------
  // Clock times as strings.
  // ---------------------------------------------------------------------

  /** A zero-padded 24-hour "HH:MM" time, as an HTML time input sends it. */
  predicate IsClock(s: string)
  {
    && |s| == 5
    && IsDigit(s[0]) && IsDigit(s[1]) && s[2] == ':' && IsDigit(s[3]) && IsDigit(s[4])
    && s[3] <= '5'
  }

  function Minutes(s: string): (m: nat)
    requires IsClock(s)
  {
    (DigitValue(s[0]) * 10 + DigitValue(s[1])) * 60 + DigitValue(s[3]) * 10 + DigitValue(s[4])
  }

  /** Comparing two strings of which the first parts have equal length: the first parts decide unless equal. */
  lemma {:induction false} StrLessSplit(p: string, x: string, q: string, y: string)
    requires |p| == |q|
    ensures StrLess(p + x, q + y) <==> StrLess(p, q) || (p == q && StrLess(x, y))
    decreases |p|
  {
    if |p| == 0 {
      assert p + x == x && q + y == y;
    } else {
      assert (p + x)[0] == p[0] && (q + y)[0] == q[0];
      assert (p + x)[1..] == p[1..] + x && (q + y)[1..] == q[1..] + y;
      StrLessSplit(p[1..], x, q[1..], y);
      if p[0] == q[0] && p[1..] == q[1..] {
        assert p == q;
      }
      if p == q {
        assert p[1..] == q[1..];
      }
    }
  }

  lemma TwoDigitValue(s: string)
    requires |s| == 2 && AllDigits(s)
    ensures DigitsValue(s) == DigitValue(s[0]) * 10 + DigitValue(s[1])
  {
    assert DigitsValue(s[1..][1..]) == 0;
  }

  lemma HourDecides(h1: nat, m1: nat, h2: nat, m2: nat)
    requires h1 < h2 && m1 < 60 && m2 < 60
    ensures h1 * 60 + m1 < h2 * 60 + m2
  {
    assert (h1 + 1) * 60 <= h2 * 60;
  }

  /**
   * For zero-padded clock times the string comparison the overlap rule uses
   * is the comparison of the times of day.
   */
  lemma ClockOrder(a: string, b: string)
    requires IsClock(a) && IsClock(b)
    ensures StrLess(a, b) <==> Minutes(a) < Minutes(b)
  {
    var ha, hb, ma, mb := a[..2], b[..2], a[3..], b[3..];
    assert a == ha + ([':'] + ma) && b == hb + ([':'] + mb);
    StrLessSplit(ha, [':'] + ma, hb, [':'] + mb);
    StrLessCommonPrefix([':'], ma, mb);
    FixedWidthOrder(ha, hb);
    FixedWidthOrder(ma, mb);
    TwoDigitValue(ha);
    TwoDigitValue(hb);
    TwoDigitValue(ma);
    TwoDigitValue(mb);
    var h1, h2 := DigitsValue(ha), DigitsValue(hb);
    var m1, m2 := DigitsValue(ma), DigitsValue(mb);
    assert Minutes(a) == h1 * 60 + m1 && Minutes(b) == h2 * 60 + m2;
    if h1 < h2 {
      HourDecides(h1, m1, h2, m2);
    } else if h2 < h1 {
      HourDecides(h2, m2, h1, m1);
    } else {
      assert ha == hb by {
        assert DigitValue(ha[0]) == DigitValue(hb[0]) && DigitValue(ha[1]) == DigitValue(hb[1]);
      }
    }
  }

  /**
   * With zero-padded times on both sides the rule is the real interval
   * overlap of the two time ranges.
   */
  lemma ConflictsIsIntervalOverlap(existing: Booking, f: BookingForm)
    requires IsClock(existing.timeFrom) && IsClock(existing.timeTo)
    requires IsClock(f.timeFrom) && IsClock(f.timeTo)
    ensures Conflicts(existing, f) <==>
      && existing.roomType == f.roomType && existing.date == f.date
      && Minutes(existing.timeFrom) < Minutes(f.timeTo)
      && Minutes(f.timeFrom) < Minutes(existing.timeTo)
  {
    ClockOrder(existing.timeFrom, f.timeTo);
    ClockOrder(f.timeFrom, existing.timeTo);
  }

  /**
   * Without padding the string order is not the order of the day: a 9:00 to
   * 11:00 request is not stopped by a 10:00 to 12:00 booking it overlaps.
   */
  lemma UnpaddedTimesMissOverlap(existing: Booking, f: BookingForm)
    requires existing.roomType == f.roomType && existing.date == f.date
    requires existing.timeFrom == "10:00" && existing.timeTo == "12:00"
    requires f.timeFrom == "9:00" && f.timeTo == "11:00"
    ensures !Conflicts(existing, f)
  {
    assert !StrLess("9:00", "12:00");
  }

  // ---------------------------------------------------------------------
  // List queries.
  // ---------------------------------------------------------------------

  function CreatedAt(b: Booking): int
  {
    b.createdAt
  }

  /** The filter of GET `/`: each of `requestFrom` and `department` restricts only when given. */
  predicate ListMatches(b: Booking, requestFrom: string, department: string)
  {
    && (Given(requestFrom) ==> b.username == requestFrom)
    && (Given(department) ==> b.department == department)
  }

  /** GET `/`: the matching bookings, newest first. */
  function List(store: seq<Booking>, requestFrom: string, department: string): (r: seq<Booking>)
    ensures NewestFirst(r, CreatedAt)
    ensures multiset(r) == multiset(Filter(store, b => ListMatches(b, requestFrom, department)))
  {
    SortNewest(Filter(store, b => ListMatches(b, requestFrom, department)), CreatedAt)
  }

  /** A booking is listed exactly when it is stored and matches both given parameters. */
  lemma ListMembers(store: seq<Booking>, requestFrom: string, department: string, b: Booking)
    ensures b in List(store, requestFrom, department) <==> b in store && ListMatches(b, requestFrom, department)
  {
    var kept := Filter(store, b => ListMatches(b, requestFrom, department));
    SortNewestMembers(kept, CreatedAt, b);
  }

  /** Without parameters GET `/` lists every booking. */
  lemma ListAll(store: seq<Booking>)
    ensures multiset(List(store, "", "")) == multiset(store)
  {
    var kept := Filter(store, b => ListMatches(b, "", ""));
    FilterAll(store, b => ListMatches(b, "", ""));
  }

  lemma {:induction false} FilterAll<T(!new)>(xs: seq<T>, keep: T -> bool)
    requires forall i :: 0 <= i < |xs| ==> keep(xs[i])
    ensures Filter(xs, keep) == xs
  {
    if |xs| > 0 {
      FilterAll(xs[1..], keep);
      assert xs == [xs[0]] + xs[1..];
    }
  }

  /** GET `/assigned?staff=`: the bookings assigned to that staff member, newest first. */
  function Assigned(store: seq<Booking>, staff: string): (r: seq<Booking>)
    ensures NewestFirst(r, CreatedAt)
    ensures forall i :: 0 <= i < |r| ==> r[i] in store && r[i].assignedStaff == Some(staff)
    ensures multiset(r) == multiset(Filter(store, (b: Booking) => b.assignedStaff == Some(staff)))
  {
    var kept := Filter(store, (b: Booking) => b.assignedStaff == Some(staff));
    var r := SortNewest(kept, CreatedAt);
    assert forall i :: 0 <= i < |r| ==> r[i] in multiset(kept);
    r
  }

  datatype Listing = Listed(bookings: seq<Booking>) | Refused(reply: Reply)

  predicate RequestedOrAssigned(b: Booking, username: string)
  {
    b.username == username || b.assignedStaff == Some(username)
  }

  /** GET `/staff-all`: 400 without a username, else the bookings it requested or is assigned, newest first. */
  function StaffAll(store: seq<Booking>, username: string): (r: Listing)
    ensures r.Refused? <==> !Given(username)
    ensures r.Refused? ==> r.reply.status == 400
    ensures r.Listed? ==> NewestFirst(r.bookings, CreatedAt)
    ensures r.Listed? ==> forall b :: b in r.bookings <==> b in store && RequestedOrAssigned(b, username)
    ensures r.Listed? ==> multiset(r.bookings) == multiset(Filter(store, b => RequestedOrAssigned(b, username)))
  {
    if !Given(username) then Refused(Reply(400, "Username required"))
    else
      var kept := Filter(store, b => RequestedOrAssigned(b, username));
      var r := SortNewest(kept, CreatedAt);
      assert forall b :: b in r <==> b in kept by {
        forall b ensures b in r <==> b in kept {
          SortNewestMembers(kept, CreatedAt, b);
        }
      }
      Listed(r)
  }

  // ---------------------------------------------------------------------
  // Updates of one booking.
  // ---------------------------------------------------------------------

  const NotFound: Reply := Reply(404, "Booking not found")

  /** `store` and `store'` differ at most at position `i`. */
  predicate OnlyAt(store: seq<Booking>, store': seq<Booking>, i: nat)
  {
    && |store'| == |store|
    && forall j :: 0 <= j < |store| && j != i ==> store'[j] == store[j]
  }

  /**
   * `booking.save()` of a loaded booking changed to `b`: the schema's
   * `required` validators run on every path of the document, so a booking
   * that already misses a required field is refused with the handler's 500.
   */
  function SaveAt(store: seq<Booking>, i: nat, b: Booking, saved: Reply, failed: Reply): (r: Outcome)
    requires i < |store|
    // A booking that passes validation replaces the one at `i` and nothing else ...
    ensures BookingValid(b) ==> && r.reply == saved && |r.store| == |store| && r.store[i] == b
                                && forall k :: 0 <= k < |store| && k != i ==> r.store[k] == store[k]
    // ... and one that fails leaves the collection as it was.
    ensures !BookingValid(b) ==> r.reply == failed && r.store == store
  {
    if BookingValid(b) then Outcome(store[i := b], saved) else Outcome(store, failed)
  }

  /**
   * PUT `/update-status/:id`: only the booking's own requester may set its
   * status. `username` is None when the body has none, which never equals a
   * stored name.
   */
  function UpdateStatus(store: seq<Booking>, id: nat, status: string, username: Option<string>): (r: Outcome)
    ensures Find(store, id).None? ==> r == Outcome(store, NotFound)
    ensures Find(store, id).Some? && Some(store[Find(store, id).value].username) != username ==>
      r.reply.status == 403 && r.store == store
    ensures Find(store, id).Some? && Some(store[Find(store, id).value].username) == username
            && !BookingValid(store[Find(store, id).value]) ==>
      r.reply.status == 500 && r.store == store
    ensures r.reply.status == 200 <==>
      && Find(store, id).Some?
      && Some(store[Find(store, id).value].username) == username
      && BookingValid(store[Find(store, id).value])
    ensures r.reply.status == 200 ==>
      var i := Find(store, id).value;
      && OnlyAt(store, r.store, i)
      && r.store[i].status == status
      && r.store[i].(status := store[i].status) == store[i]
  {
    match Find(store, id)
    case None => Outcome(store, NotFound)
    case Some(i) =>
      if Some(store[i].username) != username then Outcome(store, Reply(403, "Unauthorized to update this booking"))
      else SaveAt(store, i, store[i].(status := status), Reply(200, "Status updated successfully"), Reply(500, "Server error"))
  }

  /** PUT `/:id/assign-staff`. */
  function AssignStaff(store: seq<Booking>, id: nat, staffName: Option<string>): (r: Outcome)
    ensures Find(store, id).None? ==> r == Outcome(store, NotFound)
    ensures Find(store, id).Some? && !BookingValid(store[Find(store, id).value]) ==>
      r.reply.status == 500 && r.store == store
    ensures r.reply.status == 200 <==> Find(store, id).Some? && BookingValid(store[Find(store, id).value])
    ensures r.reply.status == 200 ==>
      var i := Find(store, id).value;
      && OnlyAt(store, r.store, i)
      && r.store[i].assignedStaff == staffName
      && r.store[i].(assignedStaff := store[i].assignedStaff) == store[i]
  {
    match Find(store, id)
    case None => Outcome(store, NotFound)
    case Some(i) =>
      SaveAt(store, i, store[i].(assignedStaff := staffName),
             Reply(200, "Staff assigned successfully"), Reply(500, "Failed to assign staff"))
  }

  /** POST `/:id/admin-remarks`. */
  function SetAdminRemarks(store: seq<Booking>, id: nat, remarks: Option<string>): (r: Outcome)
    ensures Find(store, id).None? ==> r == Outcome(store, NotFound)
    ensures Find(store, id).Some? && !BookingValid(store[Find(store, id).value]) ==>
      r.reply.status == 500 && r.store == store
    ensures r.reply.status == 200 <==> Find(store, id).Some? && BookingValid(store[Find(store, id).value])
    ensures r.reply.status == 200 ==>
      var i := Find(store, id).value;
      && OnlyAt(store, r.store, i)
      && r.store[i].adminRemarks == remarks
      && r.store[i].(adminRemarks := store[i].adminRemarks) == store[i]
  {
    match Find(store, id)
    case None => Outcome(store, NotFound)
    case Some(i) =>
      SaveAt(store, i, store[i].(adminRemarks := remarks),
             Reply(200, "Admin remarks saved successfully"), Reply(500, "Failed to save admin remarks"))
  }

  /** POST `/:id/user-remarks`. */
  function SetUserRemarks(store: seq<Booking>, id: nat, remarks: Option<string>): (r: Outcome)
    ensures Find(store, id).None? ==> r == Outcome(store, NotFound)
    ensures Find(store, id).Some? && !BookingValid(store[Find(store, id).value]) ==>
      r.reply.status == 500 && r.store == store
    ensures r.reply.status == 200 <==> Find(store, id).Some? && BookingValid(store[Find(store, id).value])
    ensures r.reply.status == 200 ==>
      var i := Find(store, id).value;
      && OnlyAt(store, r.store, i)
      && r.store[i].userRemarks == remarks
      && r.store[i].(userRemarks := store[i].userRemarks) == store[i]
  {
    match Find(store, id)
    case None => Outcome(store, NotFound)
    case Some(i) =>
      SaveAt(store, i, store[i].(userRemarks := remarks),
             Reply(200, "User remarks saved successfully"), Reply(500, "Failed to save user remarks"))
  }

  const Booked: string := "Booked"

  /**
   * PUT `/:id/confirm`: sets the status to "Booked" with `findByIdAndUpdate`,
   * which runs no validators. An unknown id is not an error here: the reply
   * is a 200 whose body is `null`.
   */
  function Confirm(store: seq<Booking>, id: nat): (r: Outcome)
    ensures r.reply.status == 200
    ensures Find(store, id).None? ==> r.store == store
    ensures Find(store, id).Some? ==>
      var i := Find(store, id).value;
      && OnlyAt(store, r.store, i)
      && r.store[i].status == Booked
      && r.store[i].(status := store[i].status) == store[i]
  {
    match Find(store, id)
    case None => Outcome(store, Reply(200, "null"))
    case Some(i) => Outcome(store[i := store[i].(status := Booked)], Reply(200, ""))
  }

  /**
   * The body of PUT `/:id`: one entry per schema path, None when the body
   * does not carry it. For `agreed` and the optional string paths
   * `Some(None)` is an explicit `null`. `_id` and `createdAt` are immutable and not patchable.
   */
  datatype BookingPatch = BookingPatch(
    username: Option<string>,
    department: Option<string>,
    mobileNumber: Option<string>,
    roomType: Option<string>,
    date: Option<string>,
    timeFrom: Option<string>,
    timeTo: Option<string>,
    purpose: Option<string>,
    facilities: Option<seq<string>>,
    tablesWithCloth: Option<int>,
    tablesWithoutCloth: Option<int>,
    executiveChairs: Option<int>,
    participantChairs: Option<int>,
    additionalChairs: Option<int>,
    remarks: Option<Option<string>>,
    agreed: Option<Option<bool>>,
    assignedStaff: Option<Option<string>>,
    status: Option<string>,
    adminRemarks: Option<Option<string>>,
    userRemarks: Option<Option<string>>)

  /** A patch that touches only the path set afterwards. */
  const NoChange: BookingPatch := BookingPatch(
    None, None, None, None, None, None, None, None, None, None,
    None, None, None, None, None, None, None, None, None, None)

  function Pick<T>(patch: Option<T>, current: T): T
  {
    if patch.Some? then patch.value else current
  }

  function ApplyPatch(b: Booking, p: BookingPatch): Booking
  {
    Booking(
      b.id, Pick(p.username, b.username), Pick(p.department, b.department),
      Pick(p.mobileNumber, b.mobileNumber), Pick(p.roomType, b.roomType), Pick(p.date, b.date),
      Pick(p.timeFrom, b.timeFrom), Pick(p.timeTo, b.timeTo), Pick(p.purpose, b.purpose),
      Pick(p.facilities, b.facilities),
      Furniture(
        Pick(p.tablesWithCloth, b.furniture.tablesWithCloth),
        Pick(p.tablesWithoutCloth, b.furniture.tablesWithoutCloth),
        Pick(p.executiveChairs, b.furniture.executiveChairs),
        Pick(p.participantChairs, b.furniture.participantChairs),
        Pick(p.additionalChairs, b.furniture.additionalChairs)),
      Pick(p.remarks, b.remarks), Pick(p.agreed, b.agreed), Pick(p.assignedStaff, b.assignedStaff),
      Pick(p.status, b.status), Pick(p.adminRemarks, b.adminRemarks), Pick(p.userRemarks, b.userRemarks),
      b.createdAt)
  }

  /** A given value is written; an absent one leaves the old value. */
  predicate Written<T(==)>(p: Option<T>, before: T, after: T)
  {
    (p.Some? ==> after == p.value) && (p.None? ==> after == before)
  }

  /** `after` is `before` with the patch's given paths overwritten, path by path. */
  predicate Patched(before: Booking, after: Booking, p: BookingPatch)
  {
    && after.id == before.id && after.createdAt == before.createdAt
    && Written(p.username, before.username, after.username)
    && Written(p.department, before.department, after.department)
    && Written(p.mobileNumber, before.mobileNumber, after.mobileNumber)
    && Written(p.roomType, before.roomType, after.roomType)
    && Written(p.date, before.date, after.date)
    && Written(p.timeFrom, before.timeFrom, after.timeFrom)
    && Written(p.timeTo, before.timeTo, after.timeTo)
    && Written(p.purpose, before.purpose, after.purpose)
    && Written(p.facilities, before.facilities, after.facilities)
    && Written(p.tablesWithCloth, before.furniture.tablesWithCloth, after.furniture.tablesWithCloth)
    && Written(p.tablesWithoutCloth, before.furniture.tablesWithoutCloth, after.furniture.tablesWithoutCloth)
    && Written(p.executiveChairs, before.furniture.executiveChairs, after.furniture.executiveChairs)
    && Written(p.participantChairs, before.furniture.participantChairs, after.furniture.participantChairs)
    && Written(p.additionalChairs, before.furniture.additionalChairs, after.furniture.additionalChairs)
    && Written(p.remarks, before.remarks, after.remarks)
    && Written(p.agreed, before.agreed, after.agreed)
    && Written(p.assignedStaff, before.assignedStaff, after.assignedStaff)
    && Written(p.status, before.status, after.status)
    && Written(p.adminRemarks, before.adminRemarks, after.adminRemarks)
    && Written(p.userRemarks, before.userRemarks, after.userRemarks)
  }

  /**
   * PUT `/:id`: overwrites every path the body gives, with neither the
   * overlap rule nor the schema validators, so a required path can be
   * emptied and the requester can be renamed.
   */
  function Update(store: seq<Booking>, id: nat, p: BookingPatch): (r: Outcome)
    ensures Find(store, id).None? ==> r == Outcome(store, NotFound)
    ensures Find(store, id).Some? ==>
      var i := Find(store, id).value;
      && r.reply.status == 200
      && OnlyAt(store, r.store, i)
      && Patched(store[i], r.store[i], p)
  {
    match Find(store, id)
    case None => Outcome(store, NotFound)
    case Some(i) => Outcome(store[i := ApplyPatch(store[i], p)], Reply(200, ""))
  }

  // ---------------------------------------------------------------------
  // What the updates preserve.
  // ---------------------------------------------------------------------

  /** Same room, date, time range and id. */
  predicate SameSlot(a: Booking, b: Booking)
  {
    a.id == b.id && a.roomType == b.roomType && a.date == b.date && a.timeFrom == b.timeFrom && a.timeTo == b.timeTo
  }

  /** Changing one booking without moving it keeps both invariants of the collection. */
  lemma SameSlotPreserves(store: seq<Booking>, store': seq<Booking>, i: nat)
    requires i < |store| && OnlyAt(store, store', i) && SameSlot(store[i], store'[i])
    ensures NoDoubleBooking(store) ==> NoDoubleBooking(store')
    ensures UniqueKeys(store, BookingId) ==> UniqueKeys(store', BookingId)
  {
    assert forall j :: 0 <= j < |store| ==> SameSlot(store[j], store'[j]);
    if NoDoubleBooking(store) {
      forall j, k | 0 <= j < k < |store'|
        ensures !Clash(store'[j], store'[k])
      {
        assert !Clash(store[j], store[k]);
      }
    }
  }

  /** The four setters and the confirmation keep bookings apart and ids unique. */
  lemma SettersPreserveInvariants(store: seq<Booking>, id: nat, status: string, username: Option<string>,
                                  name: Option<string>)
    requires NoDoubleBooking(store) && UniqueKeys(store, BookingId)
    ensures var s := UpdateStatus(store, id, status, username).store;
      NoDoubleBooking(s) && UniqueKeys(s, BookingId)
    ensures var s := AssignStaff(store, id, name).store;
      NoDoubleBooking(s) && UniqueKeys(s, BookingId)
    ensures var s := SetAdminRemarks(store, id, name).store;
      NoDoubleBooking(s) && UniqueKeys(s, BookingId)
    ensures var s := SetUserRemarks(store, id, name).store;
      NoDoubleBooking(s) && UniqueKeys(s, BookingId)
    ensures var s := Confirm(store, id).store;
      NoDoubleBooking(s) && UniqueKeys(s, BookingId)
  {
    match Find(store, id)
    case None =>
    case Some(i) =>
      SameSlotPreserves(store, store[i := store[i].(status := status)], i);
      SameSlotPreserves(store, store[i := store[i].(assignedStaff := name)], i);
      SameSlotPreserves(store, store[i := store[i].(adminRemarks := name)], i);
      SameSlotPreserves(store, store[i := store[i].(userRemarks := name)], i);
      SameSlotPreserves(store, store[i := store[i].(status := Booked)], i);
  }

  /** A PUT `/:id` that leaves room, date and times alone keeps bookings apart and ids unique. */
  lemma UpdateKeepingSlotPreserves(store: seq<Booking>, id: nat, p: BookingPatch)
    requires NoDoubleBooking(store) && UniqueKeys(store, BookingId)
    requires p.roomType.None? && p.date.None? && p.timeFrom.None? && p.timeTo.None?
    ensures var s := Update(store, id, p).store;
      NoDoubleBooking(s) && UniqueKeys(s, BookingId)
  {
    var r := Update(store, id, p);
    if Find(store, id).Some? {
      SameSlotPreserves(store, r.store, Find(store, id).value);
    }
  }

  /**
   * Once PUT `/:id` has left a booking that `save()` refuses, every setter
   * that saves it fails with 500 and changes nothing, even for the
   * booking's own requester.
   */
  lemma InvalidBookingCannotBeSaved(store: seq<Booking>, id: nat, p: BookingPatch, status: string, name: Option<string>)
    requires Find(store, id).Some?
    requires !BookingValid(Update(store, id, p).store[Find(store, id).value])
    ensures var r := Update(store, id, p);
      var i := Find(store, id).value;
      && r.reply.status == 200
      && UpdateStatus(r.store, id, status, Some(r.store[i].username)) == Outcome(r.store, Reply(500, "Server error"))
      && AssignStaff(r.store, id, name) == Outcome(r.store, Reply(500, "Failed to assign staff"))
      && SetAdminRemarks(r.store, id, name) == Outcome(r.store, Reply(500, "Failed to save admin remarks"))
      && SetUserRemarks(r.store, id, name) == Outcome(r.store, Reply(500, "Failed to save user remarks"))
  {
    var r := Update(store, id, p);
    assert forall j :: 0 <= j < |store| ==> BookingId(store[j]) == BookingId(r.store[j]);
    IndexOfSameKeys(store, r.store, BookingId, id);
  }

  /**
   * PUT `/:id` accepts both an emptied required string and a null
   * `agreed`, and each leaves a booking `save()` refuses.
   */
  lemma EmptiedBookingCannotBeSaved(store: seq<Booking>, id: nat)
    requires Find(store, id).Some?
    ensures var i := Find(store, id).value;
      && !BookingValid(Update(store, id, NoChange.(purpose := Some(""))).store[i])
      && !BookingValid(Update(store, id, NoChange.(agreed := Some(None))).store[i])
  {
  }

  function Sample(id: nat, timeFrom: string, timeTo: string): Booking
  {
    Booking(id, "u", "d", "m", "Auditorium", "2025-06-01", timeFrom, timeTo, "p", [],
            Furniture(0, 0, 0, 0, 0), None, Some(true), None, DefaultStatus, None, None, 0)
  }

  /** Moving a booking with PUT `/:id` can put two bookings on the same slot. */
  lemma UpdateCanDoubleBook()
    ensures NoDoubleBooking([Sample(1, "09:00", "10:00"), Sample(2, "10:00", "11:00")])
    ensures var r := Update([Sample(1, "09:00", "10:00"), Sample(2, "10:00", "11:00")], 2,
                            NoChange.(timeFrom := Some("09:30")));
      r.reply.status == 200 && !NoDoubleBooking(r.store)
  {
    var store := [Sample(1, "09:00", "10:00"), Sample(2, "10:00", "11:00")];
    assert !StrLess("10:00", "10:00") by { StrLessIrreflexive("10:00"); }
    assert !Clash(store[0], store[1]);
    var r := Update(store, 2, NoChange.(timeFrom := Some("09:30")));
    assert Find(store, 2) == Some(1);
    assert r.store[1].timeFrom == "09:30";
    assert StrLess("09:00", "11:00") && StrLess("09:30", "10:00");
    assert Clash(r.store[0], r.store[1]);
  }
}

=== FILE: text.dfy ===
/**
 * String operations the handlers rely on: the order Mongo uses to compare
 * strings, substring search (what an unanchored regex alternation such as
 * `/jpeg|jpg|png/` tests), ASCII lower-casing, decimal rendering of a
 * timestamp, and `String.prototype.trim`.
 */
module Text {

  // ---------------------------------------------------------------------
  // Lexicographic order, as `$lt` / `$gt` compare two strings.
  // ---------------------------------------------------------------------

  predicate StrLess(a: string, b: string)
    decreases |a|
  {
    if |a| == 0 then |b| > 0
    else if |b| == 0 then false
    else if a[0] == b[0] then StrLess(a[1..], b[1..])
    else a[0] < b[0]
  }

  lemma {:induction false} StrLessIrreflexive(a: string)
    ensures !StrLess(a, a)
    decreases |a|
  {
    if |a| > 0 {
      StrLessIrreflexive(a[1..]);
    }
  }

  lemma {:induction false} StrLessTransitive(a: string, b: string, c: string)
    requires StrLess(a, b) && StrLess(b, c)
    ensures StrLess(a, c)
    decreases |a|
  {
    if |a| > 0 && a[0] == b[0] && b[0] == c[0] {
      StrLessTransitive(a[1..], b[1..], c[1..]);
    }
  }

  /** Any two different strings are ordered one way or the other, and never both. */
  lemma {:induction false} StrLessTotal(a: string, b: string)
    ensures a == b || StrLess(a, b) || StrLess(b, a)
    ensures !(StrLess(a, b) && StrLess(b, a))
    decreases |a|
  {
    if |a| > 0 && |b| > 0 && a[0] == b[0] {
      StrLessTotal(a[1..], b[1..]);
      if a[1..] == b[1..] {
        assert a == [a[0]] + a[1..] && b == [b[0]] + b[1..];
      }
    }
  }

  /** Two strings that share a prefix compare as their remainders do. */
  lemma {:induction false} StrLessCommonPrefix(p: string, a: string, b: string)
    ensures StrLess(p + a, p + b) <==> StrLess(a, b)
    decreases |p|
  {
    if |p| > 0 {
      assert (p + a)[0] == p[0] == (p + b)[0];
      assert (p + a)[1..] == p[1..] + a;
      assert (p + b)[1..] == p[1..] + b;
      StrLessCommonPrefix(p[1..], a, b);
    } else {
      assert p + a == a && p + b == b;
    }
  }

  // ---------------------------------------------------------------------
  // Decimal digits.
  // ---------------------------------------------------------------------

  predicate IsDigit(c: char)
  {
    '0' <= c <= '9'
  }

  predicate AllDigits(s: string)
  {
    forall i :: 0 <= i < |s| ==> IsDigit(s[i])
  }

  function DigitValue(c: char): (d: nat)
    requires IsDigit(c)
    ensures d < 10
  {
    (c as int) - ('0' as int)
  }

  function Pow10(n: nat): (p: nat)
    ensures p >= 1
  {
    if n == 0 then 1 else 10 * Pow10(n - 1)
  }

  /** The number a digit string denotes, most significant digit first. */
  function DigitsValue(s: string): (v: nat)
    requires AllDigits(s)
    ensures v < Pow10(|s|)
  {
    if |s| == 0 then 0
    else
      var rest := DigitsValue(s[1..]);
      LeadingDigitBound(DigitValue(s[0]), rest, Pow10(|s| - 1));
      DigitValue(s[0]) * Pow10(|s| - 1) + rest
  }

  lemma LeadingDigitBound(d: nat, r: nat, n: nat)
    requires d < 10 && r < n
    ensures d * n + r < 10 * n
  {
    assert d * n <= 9 * n;
  }

  /**
   * For digit strings of the same width, string order is numeric order:
   * this is what makes zero-padded times compare correctly as strings.
   */
  lemma {:induction false} FixedWidthOrder(a: string, b: string)
    requires AllDigits(a) && AllDigits(b) && |a| == |b|
    ensures StrLess(a, b) <==> DigitsValue(a) < DigitsValue(b)
    decreases |a|
  {
    if |a| > 0 {
      FixedWidthOrder(a[1..], b[1..]);
      var n := Pow10(|a| - 1);
      var ra, rb := DigitsValue(a[1..]), DigitsValue(b[1..]);
      if a[0] < b[0] {
        LeadingDigitDecides(DigitValue(a[0]), DigitValue(b[0]), ra, rb, n);
      } else if b[0] < a[0] {
        LeadingDigitDecides(DigitValue(b[0]), DigitValue(a[0]), rb, ra, n);
      }
    }
  }

  lemma LeadingDigitDecides(da: nat, db: nat, ra: nat, rb: nat, n: nat)
    requires da < db && ra < n && rb < n
    ensures da * n + ra < db * n + rb
  {
    assert (da + 1) * n <= db * n;
  }

  function DigitChar(d: nat): (c: char)
    requires d < 10
    ensures IsDigit(c) && DigitValue(c) == d
  {
    ('0' as int + d) as char
  }

  /** `String(n)` for a non-negative integer: its decimal digits, no leading zeros. */
  function DecimalString(n: nat): (s: string)
    ensures |s| >= 1 && AllDigits(s)
    ensures |s| > 1 ==> s[0] != '0'
    decreases n
  {
    if n < 10 then [DigitChar(n)]
    else DecimalString(n / 10) + [DigitChar(n % 10)]
  }

  /** Reads a digit string back, least significant digit last. */
  function ParseDecimal(s: string): nat
    requires AllDigits(s)
  {
    if |s| == 0 then 0
    else 10 * ParseDecimal(s[..|s| - 1]) + DigitValue(s[|s| - 1])
  }

  lemma {:induction false} DecimalRoundTrip(n: nat)
    ensures ParseDecimal(DecimalString(n)) == n
    decreases n
  {
    if n >= 10 {
      var s := DecimalString(n);
      DecimalRoundTrip(n / 10);
      assert s[..|s| - 1] == DecimalString(n / 10);
    }
  }

  // ---------------------------------------------------------------------
  // Substring search.
  // ---------------------------------------------------------------------

  predicate HasPrefix(s: string, p: string)
  {
    |p| <= |s| && s[..|p|] == p
  }

  /** `s` contains `t` at some position. */
  predicate HasSubstring(s: string, t: string)
    decreases |s|
  {
    HasPrefix(s, t) || (|s| > 0 && HasSubstring(s[1..], t))
  }

  /** The explicit witness form of `HasSubstring`. */
  lemma {:induction false} HasSubstringAt(s: string, t: string, k: nat)
    requires k + |t| <= |s| && s[k..k + |t|] == t
    ensures HasSubstring(s, t)
    decreases k
  {
    if k > 0 {
      assert s[1..][k - 1..k - 1 + |t|] == s[k..k + |t|];
      HasSubstringAt(s[1..], t, k - 1);
    }
  }

  /** Whatever contains a string contains every substring of that string. */
  lemma {:induction false} HasSubstringTransitive(s: string, t: string, u: string)
    requires HasSubstring(s, t) && HasSubstring(t, u)
    ensures HasSubstring(s, u)
    decreases |s|
  {
    if HasPrefix(s, t) {
      PrefixContains(s, t, u);
    } else {
      HasSubstringTransitive(s[1..], t, u);
    }
  }

  lemma {:induction false} PrefixContains(s: string, t: string, u: string)
    requires HasPrefix(s, t) && HasSubstring(t, u)
    ensures HasSubstring(s, u)
    decreases |t|
  {
    if HasPrefix(t, u) {
      assert s[..|u|] == t[..|u|];
    } else {
      assert |s| > 0;
      assert s[1..][..|t| - 1] == t[1..];
      PrefixContains(s[1..], t[1..], u);
    }
  }

  /** An unanchored regex alternation: `/a|b|c/.test(s)`. */
  predicate MatchesAny(s: string, alternatives: seq<string>)
  {
    exists k :: 0 <= k < |alternatives| && HasSubstring(s, alternatives[k])
  }

  // ---------------------------------------------------------------------
  // Case.
  // ---------------------------------------------------------------------

  predicate IsUpper(c: char)
  {
    'A' <= c <= 'Z'
  }

  function LowerChar(c: char): (l: char)
    ensures !IsUpper(l)
    ensures !IsUpper(c) ==> l == c
  {
    if IsUpper(c) then (c as int + 32) as char else c
  }

  /**
   * `toLowerCase()` on the ASCII letters. Every alternative the upload
   * filters test for is lower-case ASCII, and no other character lowers to
   * one that could complete such a match, so the ASCII mapping decides the
   * same way.
   */
  function ToLower(s: string): (r: string)
    ensures |r| == |s|
    ensures forall i :: 0 <= i < |s| ==> r[i] == LowerChar(s[i])
  {
    seq(|s|, i requires 0 <= i < |s| => LowerChar(s[i]))
  }

  lemma ToLowerIdempotent(s: string)
    ensures ToLower(ToLower(s)) == ToLower(s)
  {
  }

  /** Lower-casing both sides keeps an occurrence where it was. */
  lemma {:induction false} ToLowerKeepsSubstring(s: string, t: string)
    requires HasSubstring(s, t)
    ensures HasSubstring(ToLower(s), ToLower(t))
    decreases |s|
  {
    if HasPrefix(s, t) {
      assert ToLower(s)[..|t|] == ToLower(t);
    } else {
      ToLowerKeepsSubstring(s[1..], t);
      assert ToLower(s)[1..] == ToLower(s[1..]);
    }
  }

  // ---------------------------------------------------------------------
  // `String.prototype.trim`.
  // ---------------------------------------------------------------------

  /** The ECMAScript WhiteSpace and LineTerminator code points. */
  predicate IsJsSpace(c: char)
  {
    var n := c as int;
    || (0x09 <= n <= 0x0D) || n == 0x20 || n == 0xA0 || n == 0x1680
    || (0x2000 <= n <= 0x200A)
    || n == 0x2028 || n == 0x2029 || n == 0x202F || n == 0x205F
    || n == 0x3000 || n == 0xFEFF
  }

  predicate IsTrimmed(s: string)
  {
    |s| == 0 || (!IsJsSpace(s[0]) && !IsJsSpace(s[|s| - 1]))
  }

  /** `r` is `s` with white space, and only white space, cut off `k` characters at the front and the rest at the back. */
  predicate CutSpace(s: string, r: string, k: nat)
  {
    && k + |r| <= |s|
    && r == s[k..k + |r|]
    && (forall i :: 0 <= i < k ==> IsJsSpace(s[i]))
    && (forall i :: k + |r| <= i < |s| ==> IsJsSpace(s[i]))
  }

  /** `s.trim()`: drops the leading and the trailing white space. */
  function Trim(s: string): (r: string)
    ensures IsTrimmed(r)
    ensures |r| <= |s|
    decreases |s|
  {
    if |s| > 0 && IsJsSpace(s[0]) then Trim(s[1..])
    else if |s| > 0 && IsJsSpace(s[|s| - 1]) then Trim(s[..|s| - 1])
    else s
  }

  /** Trimming cuts white space, and nothing else, from the two ends. */
  lemma {:induction false} TrimCutsSpace(s: string)
    ensures exists k :: CutSpace(s, Trim(s), k)
    decreases |s|
  {
    if |s| > 0 && IsJsSpace(s[0]) {
      TrimCutsSpace(s[1..]);
      var k: nat :| CutSpace(s[1..], Trim(s[1..]), k);
      var r := Trim(s);
      assert r == s[1..][k..k + |r|] == s[k + 1..k + 1 + |r|];
      assert CutSpace(s, r, k + 1);
    } else if |s| > 0 && IsJsSpace(s[|s| - 1]) {
      var t := s[..|s| - 1];
      TrimCutsSpace(t);
      var k: nat :| CutSpace(t, Trim(t), k);
      var r := Trim(s);
      assert r == t[k..k + |r|] == s[k..k + |r|];
      assert CutSpace(s, r, k);
    } else {
      assert Trim(s) == s;
      assert s[0..|s|] == s;
      assert CutSpace(s, s, 0);
    }
  }

  /** Trimming a string that has no white space at either end leaves it as it is. */
  lemma TrimOfTrimmed(s: string)
    requires IsTrimmed(s)
    ensures Trim(s) == s
  {
  }

  lemma TrimIdempotent(s: string)
    ensures Trim(Trim(s)) == Trim(s)
  {
    TrimOfTrimmed(Trim(s));
  }
}

=== FILE: uploads.dfy ===
/**
 * File uploads: the two file-type filters (the shared upload middleware's
 * and the repair-request route's own), the 5 MB size limit, the multer
 * error mapping, and the two stored-filename shapes.
 */
module Uploads {
  import opened Common
  import opened Text
  import opened Errors

  /** What multer knows about an incoming file part. */
  datatype UploadFile = UploadFile(originalName: string, mimeType: string, size: nat)

  // ---------------------------------------------------------------------
  // `path.extname` on the last path component.
  // ---------------------------------------------------------------------

  /** Position of the last `c` in `s`, if any. */
  function LastIndex(s: string, c: char): (r: Option<nat>)
    ensures r.Some? ==> r.value < |s| && s[r.value] == c
    ensures r.Some? ==> forall i :: r.value < i < |s| ==> s[i] != c
    ensures r.None? ==> forall i :: 0 <= i < |s| ==> s[i] != c
  {
    if |s| == 0 then None
    else if s[|s| - 1] == c then Some(|s| - 1)
    else LastIndex(s[..|s| - 1], c)
  }

  /** The last path component: everything after the last '/'. */
  function BaseName(name: string): (b: string)
    ensures |b| <= |name| && b == name[|name| - |b|..]
    ensures forall i :: 0 <= i < |b| ==> b[i] != '/'
  {
    match LastIndex(name, '/')
    case None => name
    case Some(k) => name[k + 1..]
  }

  /**
   * `path.extname(name)`: from the last '.' of the last component to its
   * end, or "" when that component has no '.', starts with its only dots
   * (a hidden file such as ".env"), or is "..".
   */
  function ExtName(name: string): (e: string)
    ensures |e| <= |name| && e == name[|name| - |e|..]
    ensures e != "" ==> e[0] == '.'
    ensures forall i :: 1 <= i < |e| ==> e[i] != '.' && e[i] != '/'
  {
    var b := BaseName(name);
    match LastIndex(b, '.')
    case None => ""
    case Some(d) => if d == 0 || b == ".." then "" else b[d..]
  }

  /** A dot-and-slash-free stem followed by an extension-shaped suffix has that suffix as its extension. */
  lemma ExtNameOfStemAndExt(stem: string, ext: string)
    requires |stem| > 0
    requires forall i :: 0 <= i < |stem| ==> stem[i] != '.' && stem[i] != '/'
    requires ext != "" ==> ext[0] == '.'
    requires forall i :: 1 <= i < |ext| ==> ext[i] != '.' && ext[i] != '/'
    ensures ExtName(stem + ext) == ext
  {
    var b := stem + ext;
    assert forall i :: 0 <= i < |b| ==> b[i] != '/' by {
      forall i | 0 <= i < |b| ensures b[i] != '/' {
        if i >= |stem| {
          assert b[i] == ext[i - |stem|];
        }
      }
    }
    assert BaseName(b) == b;
    if ext != "" {
      assert b[|stem|] == '.';
      var k := LastIndex(b, '.');
      assert k.Some?;
      assert k.value == |stem|;
      assert b[0] != '.';
      assert b[|stem|..] == ext;
    } else {
      assert b == stem;
    }
  }

  // ---------------------------------------------------------------------
  // File-type filters.
  // ---------------------------------------------------------------------

  /** `/jpeg|jpg|png|gif|bmp|webp|pdf|doc|docx/` of the shared upload middleware. */
  const MiddlewareTypes: seq<string> := ["jpeg", "jpg", "png", "gif", "bmp", "webp", "pdf", "doc", "docx"]

  /** `/jpeg|jpg|png|gif|pdf|doc|docx|txt/` of the repair-request route. */
  const RepairTypes: seq<string> := ["jpeg", "jpg", "png", "gif", "pdf", "doc", "docx", "txt"]

  const RepairRejectMessage: string := "Only image and document files are allowed"

  /**
   * Both filters test the lower-cased extension and the mimetype as given
   * against the same alternation; a file passes only when both match.
   */
  predicate TypeAllowed(types: seq<string>, f: UploadFile)
  {
    MatchesAny(ToLower(ExtName(f.originalName)), types) && MatchesAny(f.mimeType, types)
  }

  datatype Verdict = Accept | Reject(error: AppError)

  /** The shared middleware's `fileFilter`. */
  function MiddlewareFileFilter(f: UploadFile): (v: Verdict)
    ensures v.Accept? <==> TypeAllowed(MiddlewareTypes, f)
    ensures v.Reject? ==> v.error == PlainError(InvalidFileTypeMessage)
  {
    if TypeAllowed(MiddlewareTypes, f) then Accept else Reject(PlainError(InvalidFileTypeMessage))
  }

  /** The repair route's inline `fileFilter`. */
  function RepairFileFilter(f: UploadFile): (v: Verdict)
    ensures v.Accept? <==> TypeAllowed(RepairTypes, f)
    ensures v.Reject? ==> v.error == PlainError(RepairRejectMessage)
  {
    if TypeAllowed(RepairTypes, f) then Accept else Reject(PlainError(RepairRejectMessage))
  }

  /** "docx" contains "doc", so the last alternative of either list never decides anything. */
  lemma DocxRedundant(s: string)
    ensures HasSubstring(s, "docx") ==> HasSubstring(s, "doc")
  {
    if HasSubstring(s, "docx") {
      HasSubstringAt("docx", "doc", 0);
      HasSubstringTransitive(s, "docx", "doc");
    }
  }

  /**
   * `t` cannot occur in `s` when `s` lacks the character `t[i]`, or (when
   * `i + 1 < |t|`) never has `t[i]` directly followed by `t[i + 1]`.
   */
  predicate Excludes(s: string, t: string, i: nat)
  {
    || (i < |t| && t[i] !in s)
    || (i + 1 < |t| && forall j :: 0 <= j < |s| - 1 ==> !(s[j] == t[i] && s[j + 1] == t[i + 1]))
  }

  /** A string that starts with `t` has every character of `t` and each adjacent pair of them. */
  lemma PrefixNotExcluded(s: string, t: string, i: nat)
    ensures HasPrefix(s, t) ==> !Excludes(s, t, i)
  {
    if HasPrefix(s, t) && i < |t| {
      assert s[i] == t[i];
      if i + 1 < |t| {
        assert s[i + 1] == t[i + 1];
      }
    }
  }

  lemma {:induction false} ExcludedNoMatch(s: string, t: string, i: nat)
    requires Excludes(s, t, i)
    ensures !HasSubstring(s, t)
    decreases |s|
  {
    PrefixNotExcluded(s, t, i);
    if |s| > 0 {
      assert Excludes(s[1..], t, i);
      ExcludedNoMatch(s[1..], t, i);
    }
  }

  /** None of the alternatives matches when each is excluded at its witness position in `w`. */
  lemma NoAlternativeMatches(s: string, types: seq<string>, w: seq<nat>)
    requires |w| == |types|
    requires forall k :: 0 <= k < |types| ==> Excludes(s, types[k], w[k])
    ensures !MatchesAny(s, types)
  {
    forall k | 0 <= k < |types|
      ensures !HasSubstring(s, types[k])
    {
      ExcludedNoMatch(s, types[k], w[k]);
    }
  }

  /** A file name before its extension: non-empty, without '.' or '/'. */
  predicate PlainStem(stem: string)
  {
    |stem| > 0 && forall i :: 0 <= i < |stem| ==> stem[i] != '.' && stem[i] != '/'
  }

  lemma ExtNamePdfUpper(stem: string)
    requires PlainStem(stem)
    ensures ToLower(ExtName(stem + ".PDF")) == ".pdf"
  {
    ExtNameOfStemAndExt(stem, ".PDF");
    var l := ToLower(".PDF");
    assert |l| == 4 && l[0] == '.' && l[1] == 'p' && l[2] == 'd' && l[3] == 'f';
    assert l == ".pdf";
  }

  lemma PdfMatches()
    ensures MatchesAny(".pdf", MiddlewareTypes)
    ensures MatchesAny("application/pdf", MiddlewareTypes)
    ensures !MatchesAny("APPLICATION/PDF", MiddlewareTypes)
  {
    HasSubstringAt(".pdf", "pdf", 1);
    HasSubstringAt("application/pdf", "pdf", 12);
    assert MiddlewareTypes[6] == "pdf";
    NoAlternativeMatches("APPLICATION/PDF", MiddlewareTypes, [0, 0, 0, 0, 0, 0, 0, 0, 0]);
  }

  /**
   * Only the extension is lower-cased: an upper-case extension passes, an
   * upper-case mimetype is rejected.
   */
  lemma MimeTypeCaseMatters(stem: string, size: nat)
    requires PlainStem(stem)
    ensures MiddlewareFileFilter(UploadFile(stem + ".PDF", "application/pdf", size)).Accept?
    ensures MiddlewareFileFilter(UploadFile(stem + ".PDF", "APPLICATION/PDF", size)).Reject?
  {
    ExtNamePdfUpper(stem);
    PdfMatches();
  }

  /** A lower-case extension is its own lower-case form. */
  lemma LowerExtension(stem: string, ext: string)
    requires PlainStem(stem) && |ext| > 0 && ext[0] == '.' && PlainWord(ext[1..])
    ensures ToLower(ExtName(stem + ext)) == ext
  {
    ExtNameOfStemAndExt(stem, ext);
    assert forall i :: 0 <= i < |ext| ==> !IsUpper(ext[i]) by {
      forall i | 0 <= i < |ext| ensures !IsUpper(ext[i]) {
        if i > 0 {
          assert ext[i] == ext[1..][i - 1];
        }
      }
    }
  }

  lemma WebpMatches()
    ensures MatchesAny(".webp", MiddlewareTypes) && MatchesAny("image/webp", MiddlewareTypes)
    ensures !MatchesAny(".webp", RepairTypes)
  {
    HasSubstringAt(".webp", "webp", 1);
    HasSubstringAt("image/webp", "webp", 6);
    assert MiddlewareTypes[5] == "webp";
    NoAlternativeMatches(".webp", RepairTypes, [0, 0, 1, 0, 1, 1, 1, 0]);
  }

  /** A WebP image passes the middleware's filter and not the repair route's. */
  lemma WebpOnlyMiddleware(stem: string, size: nat)
    requires PlainStem(stem)
    ensures MiddlewareFileFilter(UploadFile(stem + ".webp", "image/webp", size)).Accept?
    ensures RepairFileFilter(UploadFile(stem + ".webp", "image/webp", size)).Reject?
  {
    LowerExtension(stem, ".webp");
    WebpMatches();
  }

  // ---------------------------------------------------------------------
  // Both filters test the mimetype against extension words. Two common
  // document types have mimetypes that contain none of them.
  // ---------------------------------------------------------------------

  lemma PlainTextNoRepairWord()
    ensures !MatchesAny("text/plain", RepairTypes)
  {
    NoAlternativeMatches("text/plain", RepairTypes, [0, 0, 2, 0, 1, 0, 0, 0]);
  }

  /** A plain-text file is rejected by the repair route although "txt" is one of its words. */
  lemma PlainTextRejected(stem: string, size: nat)
    requires PlainStem(stem)
    ensures RepairFileFilter(UploadFile(stem + ".txt", "text/plain", size)).Reject?
  {
    LowerExtension(stem, ".txt");
    PlainTextNoRepairWord();
  }

  lemma MsWordNoMiddlewareWord()
    ensures !MatchesAny("application/msword", MiddlewareTypes)
  {
    NoAlternativeMatches("application/msword", MiddlewareTypes, [0, 0, 2, 0, 0, 1, 2, 0, 3]);
  }

  lemma MsWordNoRepairWord()
    ensures !MatchesAny("application/msword", RepairTypes)
  {
    NoAlternativeMatches("application/msword", RepairTypes, [0, 0, 2, 0, 2, 0, 3, 1]);
  }

  /** A Word 97 document is rejected by both filters although "doc" is one of their words. */
  lemma MsWordRejected(stem: string, size: nat)
    requires PlainStem(stem)
    ensures MiddlewareFileFilter(UploadFile(stem + ".doc", "application/msword", size)).Reject?
    ensures RepairFileFilter(UploadFile(stem + ".doc", "application/msword", size)).Reject?
  {
    LowerExtension(stem, ".doc");
    MsWordNoMiddlewareWord();
    MsWordNoRepairWord();
  }

  /** A file format a filter means to admit: its extension word and its registered mimetype. */
  datatype Format = Format(word: string, mime: string)

  const MiddlewareFormats: seq<Format> := [
    Format("jpeg", "image/jpeg"), Format("jpg", "image/jpeg"), Format("png", "image/png"),
    Format("gif", "image/gif"), Format("bmp", "image/bmp"), Format("webp", "image/webp"),
    Format("pdf", "application/pdf"), Format("doc", "application/msword"),
    Format("docx", "application/vnd.openxmlformats-officedocument.wordprocessingml.document")]

  const RepairFormats: seq<Format> := [
    Format("jpeg", "image/jpeg"), Format("jpg", "image/jpeg"), Format("png", "image/png"),
    Format("gif", "image/gif"), Format("pdf", "application/pdf"), Format("doc", "application/msword"),
    Format("docx", "application/vnd.openxmlformats-officedocument.wordprocessingml.document"),
    Format("txt", "text/plain")]

  function Words(formats: seq<Format>): (ws: seq<string>)
    ensures |ws| == |formats|
    ensures forall k :: 0 <= k < |formats| ==> ws[k] == formats[k].word
  {
    seq(|formats|, k requires 0 <= k < |formats| => formats[k].word)
  }

  /** The filter as intended: the extension names a format and the mimetype is one a format registers. */
  predicate FormatAllowed(formats: seq<Format>, f: UploadFile)
  {
    && MatchesAny(ToLower(ExtName(f.originalName)), Words(formats))
    && exists k :: 0 <= k < |formats| && formats[k].mime == f.mimeType
  }

  function IntendedMiddlewareFileFilter(f: UploadFile): (v: Verdict)
    ensures v.Accept? <==> FormatAllowed(MiddlewareFormats, f)
    ensures v.Reject? ==> v.error == PlainError(InvalidFileTypeMessage)
  {
    if FormatAllowed(MiddlewareFormats, f) then Accept else Reject(PlainError(InvalidFileTypeMessage))
  }

  function IntendedRepairFileFilter(f: UploadFile): (v: Verdict)
    ensures v.Accept? <==> FormatAllowed(RepairFormats, f)
    ensures v.Reject? ==> v.error == PlainError(RepairRejectMessage)
  {
    if FormatAllowed(RepairFormats, f) then Accept else Reject(PlainError(RepairRejectMessage))
  }

  /** A format word: lower-case ASCII letters only. */
  predicate PlainWord(w: string)
  {
    forall i :: 0 <= i < |w| ==> 'a' <= w[i] <= 'z'
  }

  /**
   * Every format a filter lists is admitted: a file named `<stem>.<word>`
   * carrying that format's mimetype passes, whatever (dot- and slash-free)
   * stem it has and however the extension is cased.
   */
  lemma FormatAdmitted(formats: seq<Format>, k: nat, stem: string, size: nat)
    requires k < |formats| && PlainWord(formats[k].word)
    requires PlainStem(stem)
    ensures FormatAllowed(formats, UploadFile(stem + "." + formats[k].word, formats[k].mime, size))
  {
    var w := formats[k].word;
    var ext := "." + w;
    var name := stem + "." + w;
    assert name == stem + ext;
    assert ext[1..] == w;
    LowerExtension(stem, ext);
    WordInExtension(w);
    assert Words(formats)[k] == w;
  }

  lemma WordInExtension(w: string)
    ensures HasSubstring("." + w, w)
  {
    assert ("." + w)[1..1 + |w|] == w;
    HasSubstringAt("." + w, w, 1);
  }

  lemma MiddlewareWordsPlain()
    ensures forall k :: 0 <= k < |MiddlewareFormats| ==> PlainWord(MiddlewareFormats[k].word)
  {
  }

  lemma RepairWordsPlain()
    ensures forall k :: 0 <= k < |RepairFormats| ==> PlainWord(RepairFormats[k].word)
  {
  }

  /** The corrected repair filter admits the plain-text file the written one turns away. */
  lemma IntendedRepairAdmitsText(stem: string, size: nat)
    requires PlainStem(stem)
    ensures IntendedRepairFileFilter(UploadFile(stem + ".txt", "text/plain", size)).Accept?
  {
    RepairWordsPlain();
    FormatAdmitted(RepairFormats, 7, stem, size);
    assert stem + "." + RepairFormats[7].word == stem + ".txt";
  }

  /** The corrected filters admit the Word 97 document the written ones turn away. */
  lemma IntendedFiltersAdmitWord(stem: string, size: nat)
    requires PlainStem(stem)
    ensures IntendedMiddlewareFileFilter(UploadFile(stem + ".doc", "application/msword", size)).Accept?
    ensures IntendedRepairFileFilter(UploadFile(stem + ".doc", "application/msword", size)).Accept?
  {
    MiddlewareWordsPlain();
    RepairWordsPlain();
    FormatAdmitted(MiddlewareFormats, 7, stem, size);
    assert stem + "." + MiddlewareFormats[7].word == stem + ".doc";
    FormatAdmitted(RepairFormats, 5, stem, size);
    assert stem + "." + RepairFormats[5].word == stem + ".doc";
  }

  // ---------------------------------------------------------------------
  // Size limit and multer errors.
  // ---------------------------------------------------------------------

  /** `limits.fileSize`: 5 MB. */
  const MaxFileSize: nat := 5 * 1024 * 1024

  const LimitFileSize: string := "LIMIT_FILE_SIZE"

  const FileTooLargeMessage: string := "File too large. Maximum size is 5MB."

  /**
   * What multer does with one file part: the filter runs first, then the
   * size limit; a file of exactly the limit is still accepted.
   */
  function Receive(filter: UploadFile -> Verdict, f: UploadFile): (r: Verdict)
    ensures r.Accept? <==> filter(f).Accept? && f.size <= MaxFileSize
    ensures filter(f).Reject? ==> r == filter(f)
    ensures filter(f).Accept? && f.size > MaxFileSize ==> r.error.MulterError? && r.error.code == LimitFileSize
  {
    if filter(f).Reject? then filter(f)
    else if f.size > MaxFileSize then Reject(MulterError(LimitFileSize, "File too large"))
    else Accept
  }

  datatype Handled = Respond(reply: Reply) | Forward(error: AppError)

  /** `handleMulterError`: only the size-limit error is answered here, everything else is passed on. */
  function HandleMulterError(err: AppError): (h: Handled)
    ensures h.Respond? <==> err.MulterError? && err.code == LimitFileSize
    ensures h.Respond? ==> h.reply == Reply(400, FileTooLargeMessage)
    ensures h.Forward? ==> h.error == err
  {
    if err.MulterError? && err.code == LimitFileSize then Respond(Reply(400, FileTooLargeMessage))
    else Forward(err)
  }

  /**
   * Run after `HandleMulterError`, the error handler answers the rejected
   * file type of the middleware with 400 and that of the repair route with
   * 500.
   */
  lemma RejectionStatuses(nodeEnv: string)
    ensures ErrorHandler(PlainError(InvalidFileTypeMessage), nodeEnv).status == 400
    ensures ErrorHandler(PlainError(RepairRejectMessage), nodeEnv).status == 500
  {
  }

  // ---------------------------------------------------------------------
  // Stored file names.
  // ---------------------------------------------------------------------

  /** `${Date.now()}-${Math.round(Math.random() * 1E9)}${ext}` of the middleware's disk storage. */
  function StoredName(now: nat, random: nat, originalName: string): (r: string)
    // The upload time can be read back from the generated name ...
    ensures LeadingNumber(r) == Some(now)
    // ... and the name keeps the original extension, so the file-type check sees the same one.
    ensures ExtName(r) == ExtName(originalName)
  {
    var a, b, ext := DecimalString(now), DecimalString(random), ExtName(originalName);
    var name := a + "-" + b + ext;
    assert name == a + ("-" + (b + ext));
    LeadingNumberOfDashed(now, b + ext);
    DashedNameKeepsExtension(now, random, ext);
    name
  }

  /** A name of digits and '-' followed by an extension has that extension. */
  lemma DashedNameKeepsExtension(now: nat, random: nat, ext: string)
    requires ext != "" ==> ext[0] == '.'
    requires forall i :: 1 <= i < |ext| ==> ext[i] != '.' && ext[i] != '/'
    ensures ExtName(DecimalString(now) + "-" + DecimalString(random) + ext) == ext
  {
    var a, b := DecimalString(now), DecimalString(random);
    var stem := a + "-" + b;
    assert forall i :: 0 <= i < |stem| ==> stem[i] != '.' && stem[i] != '/' by {
      forall i | 0 <= i < |stem|
        ensures stem[i] != '.' && stem[i] != '/'
      {
        if i < |a| { assert stem[i] == a[i] && IsDigit(a[i]); }
        else if i > |a| { assert stem[i] == b[i - |a| - 1] && IsDigit(b[i - |a| - 1]); }
      }
    }
    ExtNameOfStemAndExt(stem, ext);
  }

  /** The timestamp a stored name starts with: the digits before the first '-'. */
  function LeadingNumber(name: string): Option<nat>
  {
    var k := FirstNonDigit(name);
    if k < |name| && name[k] == '-' && k > 0 then Some(ParseDecimal(name[..k])) else None
  }

  function FirstNonDigit(s: string): (k: nat)
    ensures k <= |s| && AllDigits(s[..k])
    ensures k < |s| ==> !IsDigit(s[k])
  {
    if |s| == 0 || !IsDigit(s[0]) then 0
    else
      var k := 1 + FirstNonDigit(s[1..]);
      assert forall i :: 1 <= i < k ==> s[..k][i] == s[1..][..k - 1][i - 1];
      k
  }

  lemma {:induction false} FirstNonDigitOfDigits(d: string, rest: string)
    requires AllDigits(d) && |rest| > 0 && !IsDigit(rest[0])
    ensures FirstNonDigit(d + rest) == |d|
    decreases |d|
  {
    if |d| > 0 {
      assert (d + rest)[1..] == d[1..] + rest;
      FirstNonDigitOfDigits(d[1..], rest);
    } else {
      assert d + rest == rest;
    }
  }

  /** A decimal number followed by '-' reads back as that number, whatever comes after. */
  lemma LeadingNumberOfDashed(n: nat, tail: string)
    ensures LeadingNumber(DecimalString(n) + ("-" + tail)) == Some(n)
  {
    var digits := DecimalString(n);
    var rest := "-" + tail;
    var name := digits + rest;
    assert rest[0] == '-';
    FirstNonDigitOfDigits(digits, rest);
    assert name[|digits|] == '-';
    assert name[..|digits|] == digits;
    DecimalRoundTrip(n);
  }

  // ---------------------------------------------------------------------
  // The repair route's own disk storage.
  // ---------------------------------------------------------------------

  predicate SafeChar(c: char)
  {
    ('a' <= c <= 'z') || ('A' <= c <= 'Z') || ('0' <= c <= '9') || c == '.'
  }

  /** `originalname.replace(/[^a-zA-Z0-9.]/g, '_')`. */
  function Sanitize(s: string): (r: string)
    ensures |r| == |s|
    ensures forall i :: 0 <= i < |s| ==> SafeChar(s[i]) ==> r[i] == s[i]
    ensures forall i :: 0 <= i < |s| ==> !SafeChar(s[i]) ==> r[i] == '_'
  {
    if |s| == 0 then []
    else [if SafeChar(s[0]) then s[0] else '_'] + Sanitize(s[1..])
  }

  /** Every character of a sanitised name is a letter, a digit, '.' or '_'. */
  lemma SanitizeOutputAlphabet(s: string)
    ensures forall i :: 0 <= i < |s| ==> SafeChar(Sanitize(s)[i]) || Sanitize(s)[i] == '_'
  {
  }

  lemma {:induction false} SanitizeIdempotent(s: string)
    ensures Sanitize(Sanitize(s)) == Sanitize(s)
    decreases |s|
  {
    if |s| > 0 {
      SanitizeIdempotent(s[1..]);
      assert Sanitize(s)[1..] == Sanitize(s[1..]);
    }
  }

  /** Exactly the names made of letters, digits, '.' and '_' are left alone. */
  lemma SanitizeFixedPoints(s: string)
    ensures Sanitize(s) == s <==> forall i :: 0 <= i < |s| ==> SafeChar(s[i]) || s[i] == '_'
  {
    if forall i :: 0 <= i < |s| ==> SafeChar(s[i]) || s[i] == '_' {
      assert forall i :: 0 <= i < |s| ==> Sanitize(s)[i] == s[i];
    }
  }

  /** `${Date.now()}-${sanitised originalname}`. */
  function RepairStoredName(now: nat, originalName: string): (r: string)
    // The upload time can be read back from the stored name ...
    ensures LeadingNumber(r) == Some(now)
    // ... which is one character per original character after "<time>-" ...
    ensures |r| == |DecimalString(now)| + 1 + |originalName|
    // ... keeps every letter, digit and '.' of the original in place ...
    ensures forall i :: 0 <= i < |originalName| && SafeChar(originalName[i]) ==>
              r[|DecimalString(now)| + 1 + i] == originalName[i]
    // ... and holds no path separator or other character outside that alphabet.
    ensures forall i :: 0 <= i < |r| ==> SafeChar(r[i]) || r[i] == '_' || r[i] == '-'
  {
    LeadingNumberOfDashed(now, Sanitize(originalName));
    DashedSanitizedAlphabet(now, originalName);
    DecimalString(now) + ("-" + Sanitize(originalName))
  }

  /** After "<time>-" the sanitised name keeps its letters, digits and '.' in place, and no other character appears. */
  lemma DashedSanitizedAlphabet(now: nat, originalName: string)
    ensures var r := DecimalString(now) + ("-" + Sanitize(originalName));
      && |r| == |DecimalString(now)| + 1 + |originalName|
      && (forall i :: 0 <= i < |originalName| && SafeChar(originalName[i]) ==>
            r[|DecimalString(now)| + 1 + i] == originalName[i])
      && (forall i :: 0 <= i < |r| ==> SafeChar(r[i]) || r[i] == '_' || r[i] == '-')
  {
    var digits := DecimalString(now);
    var safe := Sanitize(originalName);
    var r := digits + ("-" + safe);
    assert forall i :: 0 <= i < |originalName| ==> r[|digits| + 1 + i] == safe[i];
    assert forall i :: 0 <= i < |digits| ==> r[i] == digits[i] && IsDigit(digits[i]);
    assert forall i :: |digits| + 1 <= i < |r| ==> r[i] == safe[i - |digits| - 1];
  }
}
